=== FILE: README.md ===
# Bus terminal back office — a Dafny model

The system is the administration site of an integrated bus terminal. An Express
backend with Mongoose stores parking tickets, tenant lease applications (the
waitlist), tenants and an archive of removed records. React pages let the
administrators of each module do their work:

- bus trips, terminal fee tickets, tenant leases, parking and lost-and-found items;
- filing deletion requests that a superadmin approves or denies;
- archiving and restoring records;
- exporting CSV files;
- managing employee accounts.

This project models the core of that system as pure Dafny functions over immutable
data:

- **Backend controllers.** Each collection is a map from id to document. Each handler
  is a function from a store to a new store and an HTTP reply.
- **Pages.** A click becomes a function. It returns the page's new state and the HTTP
  calls the page sends, as data.
- **Shared JavaScript behaviour** is written out:
  - truthiness and the `||` default;
  - ASCII `toLowerCase` and `includes`, and the `TypeError` that `toLowerCase`
    raises on a value that is not a string: each list filter that can throw
    (parking, bus trips, lost-and-found, tenant leases, archive, terminal fees
    and reports) is None when it does;
  - `trim` and `Number` on integer texts;
  - Mongoose's `CastError`: an id that is not an ObjectId makes `findById`,
    `findByIdAndUpdate` and `findByIdAndDelete` throw, and the handler's catch
    replies 500 (400 for updateParking);
  - `String.replace` with a one-character pattern;
  - the CSV quoting;
  - the ten-per-page pagination.

Modules, one per source file or shared concern:

- Foundations: `Wrappers`, `Text`, `Json`, `Sorting`, `Http`, `Calls`, `Selection`,
  `Pagination`, `Csv`, `Rows`.
- Backend: `ParkingApi`, `ArchiveApi`, `WaitlistApi`, `TenantApi`.
- Pages and components: `DeletionPage`, `TablePage`, `ArchivePage`, `Review`,
  `Bulk`, `TenantLease`, `TerminalFees`, `ParkingPage`, `BusTrips`, `LostFound`,
  `Reports`, `Employees`, `Sidebar`, `TenantView`, `StatCards`.

Clocks, fresh ids, schema validation, the locale's date comparisons and the
confirmation dialogs are parameters of the functions that need them.

## Model

| member | source | states |
|---|---|---|
| ParkingApi.CeilDiv | backend/controllers/parkingController.js:48-49 | the rounded-up quotient q is the least integer with q·b ≥ a: (q−1)·b < a ≤ q·b |
| ParkingApi.BilledHours | backend/controllers/parkingController.js:47-50 | at least one hour is billed; a stay of up to an hour (or a negative one) bills one; otherwise h is the number of started hours, (h−1)·3600000 < elapsed ≤ h·3600000 |
| ParkingApi.BilledHoursMonotone | backend/controllers/parkingController.js:47-50 | a longer stay never bills fewer hours |
| ParkingApi.ChargeMonotone | backend/controllers/parkingController.js:47-51 | for a non-negative base rate, a longer stay never costs less |
| ParkingApi.ShortStayCostsOneRate | backend/controllers/parkingController.js:50-51 | a stay of at most an hour, including a clock that went backwards, costs exactly the base rate |
| ParkingApi.PartHourBillsWhole | backend/controllers/parkingController.js:47-50 | any part of an hour after h whole hours bills h + 1 hours, so two hours and one minute bill three |
| ParkingApi.Charge | backend/controllers/parkingController.js:47-51 | a stay of at most an hour costs one base rate; a longer one costs the time-proportional price rounded up to a whole number of base rates |
| ParkingApi.DurationText | backend/controllers/parkingController.js:54 | the duration text is the hours' numeral followed by " hour(s)", and the numeral reads back as the hours |
| ParkingApi.ListTickets | backend/controllers/parkingController.js:6 | the reply lists exactly the non-archived tickets, each once, with their stored data, newest creation time first |
| ParkingApi.CreateParking | backend/controllers/parkingController.js:18-31 | a valid body adds one ticket (Parked, price 0, no exit time, the body's fields; entry time from the body unless it is missing or 0, then now) and replies 201 with it; other tickets are untouched; an invalid body is a 400 that stores nothing |
| ParkingApi.Depart | backend/controllers/parkingController.js:37-63 | an id that does not cast to an ObjectId is a 500 with nothing changed; an unknown id is a 404 with nothing changed; otherwise only that ticket changes: Departed, exit time now, price = billed hours × base rate, duration text of the same hours, every other field kept; reply 200 with the ticket |
| ParkingApi.DurationMatchesPrice | backend/controllers/parkingController.js:53-55 | the duration text is a decimal numeral followed by " hour(s)", and that numeral times the base rate is the final price |
| ParkingApi.DepartAgainNeverCheaper | backend/controllers/parkingController.js:39-56 | departing an already departed ticket later is accepted, re-bills from the original entry time and never lowers the price |
| ParkingApi.UpdateParking | backend/controllers/parkingController.js:66-73 | a body or id that does not cast is a 400 that stores nothing; otherwise the reply is 200, an unknown id storing nothing and answering with a null body; a known ticket gets every field the patch carries (number, plate, type, rate, entry and exit times, duration, price, status, archived flag) and keeps every other field and its creation time, other tickets untouched |
| ParkingApi.UpdateParkingIdempotent | backend/controllers/parkingController.js:66-73 | sending the same update twice stores what sending it once did |
| ParkingApi.DeleteParking | backend/controllers/parkingController.js:77-83 | an id that does not cast is a 500 that deletes nothing; otherwise the id is gone afterwards, every other ticket is kept unchanged, and the reply is "Deleted successfully" whether or not the id existed |
| ParkingApi.CreateThenDepart | backend/controllers/parkingController.js:18-56 | a ticket created without an entry time and then departed is billed from its creation time and stays listed (not archived) |
| ArchiveApi.CollectionOf | backend/controllers/archiveController.js:36-65 | a type tag maps to a collection only when it equals that collection's tag exactly; any other tag maps to none |
| ArchiveApi.TagRoundTrip | backend/controllers/archiveController.js:36-65 | a type tag restores into a collection exactly when it is that collection's tag |
| ArchiveApi.CreateArchive | backend/controllers/archiveController.js:75-81 | a valid body adds exactly one entry holding the body's fields stamped now and replies 201 with it; no other entry or collection changes; an invalid body is a 400 that stores nothing |
| ArchiveApi.DeleteArchive | backend/controllers/archiveController.js:17-24 | an id that does not cast is a 500 that deletes nothing; otherwise exactly the named entry is removed, everything else is kept, and the reply is "Permanently deleted" whether or not it existed |
| ArchiveApi.Restore | backend/controllers/archiveController.js:27-72 | an id that does not cast is a 500 with nothing changed; an unknown id is a 404 with nothing changed; a known tag inserts, under a fresh id in its collection, the original document without `_id` as that collection's strict schema keeps it (the fields among its declared paths), and removes the entry; an unknown tag just removes the entry and still replies "Item restored successfully"; a rejected insert is a 500 that changes nothing |
| ArchiveApi.RestoreInto | backend/controllers/archiveController.js:38-67 | the store after a restore into one collection: the entry is gone from the archive, the new id holds exactly the original fields other than `_id` that the collection's schema declares, with their archived values, and the other collections are unchanged |
| ArchiveApi.RestoredHasNoArchivedId | backend/controllers/archiveController.js:38 | a restored document never carries an `_id` field of its own |
| ArchiveApi.ArchiveThenRestore | backend/controllers/archiveController.js:36-78 | archiving a document under a known tag and then restoring it puts the document (without `_id`, as the strict schema keeps it) back into its collection, the whole document when it has no field the schema does not declare, and leaves the archive as it was |
| ArchiveApi.UnknownTagRestoreLosesData | backend/controllers/archiveController.js:36-69 | archiving under a tag restore does not know and then restoring removes the entry, inserts nothing anywhere, and still reports success |
| ArchiveApi.ListArchives | backend/controllers/archiveController.js:10 | every archive entry is listed once with its stored data, newest `dateArchived` first |
| WaitlistApi.SubjectFor | backend/controllers/waitlistController.js:53-63 | the unlock subject exactly for status PAYMENT_UNLOCKED, the contract subject exactly for CONTRACT_PENDING, and none for any other status or a missing one |
| WaitlistApi.UpdateWaitlist | backend/controllers/waitlistController.js:37-79 | an id or value that does not cast is a 500 with no change and no mail; an unknown id is a 404 that changes nothing and sends no mail; otherwise the body's fields that the strict schema declares are merged into that application only, its creation time is kept, and the reply is 200 with the merged document; a mail is sent exactly when the body's status selects a subject, to the stored email |
| WaitlistApi.CreateWaitlist | backend/controllers/waitlistController.js:28-32 | a valid body is stored under a fresh id as the strict schema keeps it (exactly its fields among the declared paths, with their values), stamped with its creation time, and that saved record is replied with 201; nothing else changes; an invalid body is a 400 that stores nothing |
| WaitlistApi.GetWaitlist | backend/controllers/waitlistController.js:15-23 | an id that does not cast is a 500; otherwise 200 with the stored document exactly when the id exists, and 404 "Not Found" when it does not |
| WaitlistApi.DeleteWaitlist | backend/controllers/waitlistController.js:85-92 | an id that does not cast is a 500 that deletes nothing; otherwise the id is gone, the others are kept, and the reply is 200 whether or not it existed |
| WaitlistApi.ListWaitlist | backend/controllers/waitlistController.js:7 | every application is listed once with its stored data, newest first |
| WaitlistApi.UnlockMailsApplicant | backend/controllers/waitlistController.js:37-78 | any update whose body sets the status to PAYMENT_UNLOCKED (a field the schema declares) stores that status and mails the unlock subject to the applicant's stored address; sending it again changes nothing more but mails again |
| TenantApi.TransferId | backend/controllers/tenantController.js:32 | a transfer is named only by a truthy `transferWaitlistId`, and a falsy one names none |
| TenantApi.CreateTenant | backend/controllers/tenantController.js:27-80 | a body the schema rejects is a 500 with no change and no mail; otherwise the tenant is saved first, as the strict schema keeps it (exactly the body's fields among the declared paths) and stamped now; a truthy `transferWaitlistId` that does not cast then makes the call a 500 with the tenant kept, no application changed and no mail; otherwise the named application (if any) gets status TENANT, no other application changes, the reply is 201 with the saved tenant, and a welcome mail goes to the saved email exactly when the schema declares `email` and the body's email is truthy |
| TenantApi.GetTenant | backend/controllers/tenantController.js:16-24 | an id that does not cast is a 500; otherwise 200 with the stored tenant exactly when the id exists, and 404 "Tenant not found" when it does not |
| TenantApi.UpdateTenant | backend/controllers/tenantController.js:83-95 | an id or value that does not cast is a 500 that changes nothing; an unknown id is a 404 that changes nothing; otherwise the body's fields that the strict schema declares are merged into that tenant only, its creation time is kept, and the reply carries the merged document |
| TenantApi.DeleteTenant | backend/controllers/tenantController.js:98-105 | an id that does not cast is a 500 that deletes nothing; otherwise the id is gone, every other tenant and all applications are kept, and the reply is 200 whether or not it existed |
| TenantApi.ListTenants | backend/controllers/tenantController.js:8 | every tenant is listed once with its stored data, newest first |
| TenantApi.CreateWithoutTransferKeepsApplications | backend/controllers/tenantController.js:32-37 | a create whose body has no `transferWaitlistId` leaves every application as it was, whether the save succeeds or not |
| Json.StrOr | frontend/src/pages/Archive.jsx:84-85 | `(field \|\| '')` is the field's text when it is a non-empty string and the default when the field is falsy |
| Json.WithoutId | backend/controllers/archiveController.js:38 | the rest of an object after taking out `_id`: every other field with its value, and no `_id` |
| Json.ApplyPatch | backend/controllers/waitlistController.js:42-46 | an update with a plain object replaces every field the patch names and keeps every field it does not name |
| Json.ApplyPatchIdempotent | backend/controllers/waitlistController.js:42-46 | sending the same update twice leaves the document as one update did |
| Json.Strict | backend/controllers/tenantController.js:86-90 | a strict schema keeps exactly the body's fields among its declared paths, with their values |
| Json.NumberOrZero | frontend/src/pages/TerminalFees.jsx:469 | `Number(v) \|\| 0` as this model reads `Number` (integers only): a number is itself, the text of an integer (signed, or with white space around it) is that integer, and anything else gives 0; a non-zero result is what `Number` read |
| Json.EitherStr | frontend/src/pages/BusesTrips.jsx:93 | `d[a] \|\| d[b]` as text: the first field when it is a truthy string, else the second when the first is falsy; a non-empty result is one of the two fields |
| Json.NumberOfText | frontend/src/pages/Parking.jsx:178 | this model's reading of `Number` on a text: a value exactly when the trimmed text is blank (0) or a signed or unsigned run of decimal digits, and a negative value needs a minus sign |
| Json.NumberOfIntText | frontend/src/pages/BusesTrips.jsx:106 | `Number` reads the text of any integer, with any white space around it, back as that integer |
| Sorting.InsertDesc | backend/controllers/archiveController.js:10 | inserting into a newest-first list keeps it sorted, adds exactly the one entry, and keeps ids distinct when the new id is new |
| Sorting.ListDesc | backend/controllers/archiveController.js:10 | the selected entries of a collection, each exactly once with its stored value, sorted by descending key; nothing selected is missing |
| Text.LowerProperties | frontend/src/pages/LostFound.jsx:205-207 | lower-casing leaves no upper-case letter, changes nothing that was not upper case, and is idempotent |
| Text.LowerOfUpper | frontend/src/pages/LostFound.jsx:205-207 | upper-casing first does not change the lower-cased text, so the search ignores letter case |
| Text.Contains | frontend/src/pages/LostFound.jsx:205 | `includes` holds exactly when the searched text occurs at some position |
| Text.EmptySearchMatches | frontend/src/pages/Archive.jsx:84-85 | an empty search text matches every string |
| Text.IndexOf | frontend/src/components/dashboard/StatCards.jsx:46 | the index of the first occurrence of a character, or none exactly when it does not occur |
| Text.RemoveFirst | frontend/src/components/dashboard/StatCards.jsx:46 | replacing a one-character pattern with "" removes its first occurrence only and keeps everything else; a string without it is unchanged |
| Text.Trim | frontend/src/pages/Reports.jsx:32 | `trim` yields an infix of the input that starts and ends with no white space, with only white space (the ECMAScript white space and line terminators) cut off around it |
| Text.Decimal | backend/controllers/parkingController.js:54 | the rendering of a natural number is a non-empty digit string without a leading zero |
| Text.ParseDecimalOfDecimal | backend/controllers/parkingController.js:54 | reading a rendered number back gives the same number |
| Text.LastChars | frontend/src/pages/LostFound.jsx:103 | `slice(-k)` is the last k characters, the whole string when it is shorter, and the whole string for k = 0 (`slice(-0)` is `slice(0)`) |
| Text.LastDigitsOfDecimal | frontend/src/pages/LostFound.jsx:103 | the last k digits of a rendered number are digits and read as the number modulo 10^k |
| Text.PadStart | frontend/src/pages/TenantLease.jsx:290 | `padStart` reaches the width by putting pad characters in front and keeps the text as its suffix |
| Calls.ArchivePost | frontend/src/pages/DeletionRequests.jsx:145-154 | the archive POST carries the given type, description and original data (each dropped when `undefined`), the archiving role, and no other field |
| Calls.ArchiveRow | frontend/src/pages/Parking.jsx:407-416 | a page's own archive POST carries the type tag, the description and the whole row as the original data |
| Calls.DeletionRequestPost | frontend/src/pages/Parking.jsx:218-230 | the deletion-request POST carries the item type, the requester, the reason and the whole row as the original data |
| Calls.ConfirmArchive | frontend/src/pages/Parking.jsx:398-420 | the archive POST comes first; the delete of the row follows only when the row has an id and, where the page checks the reply, the archive succeeded; a page that checks the id first sends nothing without one |
| Selection.Without | frontend/src/pages/Archive.jsx:124 | filtering out a list of ids keeps exactly the ids not in it, in order, and introduces no duplicate |
| Selection.Dedup | frontend/src/pages/Archive.jsx:121 | `[...new Set(xs)]` holds every id of the list exactly once and nothing else |
| Selection.DedupOfDistinct | frontend/src/pages/Archive.jsx:121 | a list without duplicates is its own deduplication |
| Selection.Toggle | frontend/src/pages/DeletionRequests.jsx:70-74 | clicking a selected id removes it and keeps every other id; clicking an unselected id appends it at the end |
| Selection.ToggleTwice | frontend/src/pages/DeletionRequests.jsx:70-74 | clicking an unselected id twice restores the exact list; clicking any id twice restores the same set of ids |
| Selection.SelectPage | frontend/src/pages/Archive.jsx:119-121 | checking "select all" selects the union of the old selection and the page's ids, without duplicates, with the old selection kept in front |
| Selection.DeselectPage | frontend/src/pages/Archive.jsx:122-124 | unchecking "select all" removes exactly the page's ids and keeps the rest |
| Selection.SelectThenDeselect | frontend/src/pages/Archive.jsx:118-126 | checking and then unchecking "select all" restores the earlier selection when it held none of the page's ids |
| Pagination.Range | frontend/src/components/common/Pagination.jsx:17-19 | the consecutive integers from lo to hi, empty when hi < lo |
| Pagination.PageNumbers | frontend/src/components/common/Pagination.jsx:16-34 | with at most five pages every page is shown; otherwise five consecutive existing pages; the current page is always among them and the numbers increase |
| Pagination.TotalPages | frontend/src/pages/DeletionRequests.jsx:63 | the number of pages is the least t with t·per ≥ n, and 0 for no items |
| Pagination.ItemRangeValid | frontend/src/components/common/Pagination.jsx:39-40 | with no items the range starts at 0; on any existing page the range shown is a non-empty part of 1..total |
| Pagination.Slice | frontend/src/pages/DeletionRequests.jsx:60 | `slice` never returns more than the list or the requested span, and within bounds it is exactly that sub-list |
| Pagination.PageSlice | frontend/src/pages/DeletionRequests.jsx:58-61 | a page holds at most `per` items, and a full page is the block of the list starting at (page−1)·per |
| Pagination.ItemOnPage | frontend/src/pages/DeletionRequests.jsx:58-63 | every item appears on the page its position says, at the offset its position says, and that page exists |
| Pagination.PageAt | frontend/src/pages/DeletionRequests.jsx:58-61 | a non-empty page (from page 1 on) is the run of items starting at its first position, inside the list |
| Pagination.ArrowsMatchNeighbours | frontend/src/components/common/Pagination.jsx:57-85 | on an existing page the previous and next arrows are enabled exactly when there is a page in that direction; with no pages the next arrow is disabled |
| Csv.ReadEscaped | frontend/src/pages/BusesTrips.jsx:150-151 | a text with its quotes doubled, followed by a closing quote, reads back as the text and stops at that quote |
| Csv.UnquoteQuote | frontend/src/pages/BusesTrips.jsx:150-151 | quoting a cell and reading it back gives the original text, whatever quotes, commas or line breaks it holds |
| Csv.ParseJoinRow | frontend/src/pages/BusesTrips.jsx:150-152 | a line of quoted cells joined by commas splits back into exactly those cells |
| Csv.DataLines | frontend/src/pages/BusesTrips.jsx:149-152 | one data line per row, in order, and each line of a row with cells splits back into exactly that row's cells |
| Csv.CsvContent | frontend/src/pages/BusesTrips.jsx:143-154 | an export of an empty table is refused; otherwise the file is the header line, a line break, and the data lines joined by line breaks |
| Csv.Export | frontend/src/pages/BusesTrips.jsx:142-154 | a page's export (bus trips here; parking, lost-and-found and terminal fees use it with their own headers and cells): refused for an empty list; otherwise the header line followed by one line per listed row, in order, each splitting back into exactly that row's cells |
| Rows.RowId | frontend/src/pages/Archive.jsx:120 | a row's key is its truthy string `_id`, else its truthy string `id` |
| Rows.Find | frontend/src/pages/Parking.jsx:216 | the position of the first row with the id, or none exactly when no row has it |
| Rows.Found | frontend/src/pages/Parking.jsx:215-217 | the ids a bulk action does not skip are exactly those that name a row |
| Rows.FoundAppend | frontend/src/pages/Parking.jsx:215-217 | the ids kept from two lists together are the ids kept from each, in order |
| Rows.Where | frontend/src/pages/Parking.jsx:159-168 | `filter` keeps exactly the rows satisfying the test, never more rows than it was given |
| Rows.WhereAppend | frontend/src/pages/Parking.jsx:159-168 | filtering two lists together gives the filtered first list followed by the filtered second, so the kept rows stay in their order and multiplicity |
| Rows.WhereOfOne | frontend/src/pages/Parking.jsx:159-168 | a single row is kept exactly when it passes the test |
| Rows.WhereSame | frontend/src/pages/TerminalFees.jsx:175-180 | two tests that agree on every row filter the rows alike |
| Rows.DisjointCounts | frontend/src/pages/Parking.jsx:176-177 | two counts whose tests no row meets together add up to at most the number of rows |
| DeletionPage.ApproveCalls | frontend/src/pages/DeletionRequests.jsx:144-164 | approving one request posts its item to the archive exactly when it carries truthy original data, and always ends with the approve verdict for that request |
| DeletionPage.Approve | frontend/src/pages/DeletionRequests.jsx:140-164 | nothing is sent without a chosen request and non-empty remarks; otherwise an optional archive post and then the approve verdict with the remarks; no call deletes anything |
| DeletionPage.Deny | frontend/src/pages/DeletionRequests.jsx:180-191 | nothing is sent without a chosen request and non-empty remarks; otherwise only the deny verdict, and nothing goes to the archive |
| DeletionPage.BulkApprove | frontend/src/pages/DeletionRequests.jsx:89-121 | bulk approval deletes nothing directly and every verdict it sends carries the fixed bulk remark |
| DeletionPage.BulkApproveVerdicts | frontend/src/pages/DeletionRequests.jsx:94-119 | bulk approval sends one verdict per selected id that names a request, in selection order, and none for the ids it skips |
| DeletionPage.BulkOfOne | frontend/src/pages/DeletionRequests.jsx:94-119 | approving one request in bulk sends the same calls as approving it alone with the bulk remark |
| DeletionPage.ApprovedRequestIsUnrestorable | frontend/src/pages/DeletionRequests.jsx:144-155 | a request filed by the parking, lost-and-found or lease pages is archived under a type tag that restore does not know, so restoring it reports success, drops the entry and brings nothing back |
| TablePage.PageIds | frontend/src/pages/DeletionRequests.jsx:78 | the ids of the rows on the current page, at most one page's worth |
| TablePage.PageHoldsItsRows | frontend/src/pages/DeletionRequests.jsx:58-63 | every row whose position k puts it on the current page (k / per + 1) has its id among the page's ids |
| TablePage.PageRowsInPlace | frontend/src/pages/DeletionRequests.jsx:58-63 | conversely, the j-th id of a page is the id of the row at position (page − 1)·per + j, so the page holds nothing but its own rows, in stored order |
| TablePage.SelectAll | frontend/src/pages/DeletionRequests.jsx:76-84 | checking adds every id of the page, unchecking removes every id of the page, and ids of other pages keep their state either way |
| TablePage.SelectAllChecksHeader | frontend/src/pages/DeletionRequests.jsx:76-86 | after checking "select all" on a non-empty page, the header checkbox shows the page as fully selected |
| TablePage.CheckThenUncheck | frontend/src/pages/DeletionRequests.jsx:76-84 | checking and then unchecking "select all" restores the earlier selection when it held none of the page's ids |
| TablePage.ToggleMode | frontend/src/pages/DeletionRequests.jsx:65-68 | switching selection mode flips it; leaving the mode clears the selection and entering it keeps the selection |
| ArchivePage.Tabs | frontend/src/pages/Archive.jsx:14-19 | the ticket role gets only the "Terminal Fee" tab; every other role, including none, gets "All" first and seven tabs that include "Terminal Fee" |
| ArchivePage.Start | frontend/src/pages/Archive.jsx:21-27 | the page opens on the role's first tab, with no date, "All Time", page 1 and nothing selected |
| ArchivePage.Filtered | frontend/src/pages/Archive.jsx:78-95 | past the ticket role's type check, a truthy non-string description, or (when the description misses) a truthy non-string type, makes `toLowerCase` throw and the list None; otherwise the listed entries are the fetched entries that pass the role, tab, search and date tests, in fetched order |
| ArchivePage.InRange | frontend/src/pages/Archive.jsx:54-77 | an entry without a date is never in range; "All Time" and any unknown range accept every dated entry; "Today", the last 7 or 30 days and this or last year ask the clock |
| ArchivePage.TicketSeesOnlyTerminalFees | frontend/src/pages/Archive.jsx:80 | whatever the tab, search or dates, the ticket role lists only entries of type "Terminal Fee", and entries of other types never make its list throw |
| ArchivePage.OddDescriptionBreaksList | frontend/src/pages/Archive.jsx:84 | outside the ticket role, one entry whose description is truthy but not a string breaks the list, whatever the view |
| ArchivePage.EmptySearchKeepsAll | frontend/src/pages/Archive.jsx:83-85 | an empty search lets every entry through |
| ArchivePage.DateOverridesRange | frontend/src/pages/Archive.jsx:87-92 | with a date chosen, the time range has no effect on what is listed |
| ArchivePage.ChooseRange | frontend/src/pages/Archive.jsx:163-166 | choosing a time range sets it and clears the date, and keeps the tab, search and selection |
| ArchivePage.ChooseDate | frontend/src/pages/Archive.jsx:168-171 | choosing a date sets it and resets the range to "All Time"; clearing the date keeps the range; tab, search and selection are kept |
| ArchivePage.RangeReplacesDate | frontend/src/pages/Archive.jsx:87-92 | after choosing a range, the range alone decides the date filter, whatever date was chosen before |
| ArchivePage.DateReplacesRange | frontend/src/pages/Archive.jsx:87-92 | after choosing a date, only the same-day test decides; clearing the date afterwards leaves "All Time", which lets every dated entry through |
| ArchivePage.SwitchTab | frontend/src/pages/Archive.jsx:223-227 | a tab click sets the tab, returns to page 1 and drops the selection, and keeps the search and dates |
| ArchivePage.TabsMissStoredTags | frontend/src/pages/Archive.jsx:18 | as written, the "Tenant" and "Lost & Found" tabs match no stored entry, and parking, lost-and-found and lease entries appear under no tab but "All" |
| ArchivePage.TabTags | frontend/src/pages/Archive.jsx:18 | each category tab gathers only tags that the pages actually store |
| ArchivePage.CorrectedTabsCoverStoredTags | frontend/src/pages/Archive.jsx:18 | with the corrected filter every category tab can show something and every stored tag is listed under exactly one category tab |
| Review.EffectiveStatus | frontend/src/components/tenants/modals/ApplicationReviewModal.jsx:21 | an application without a truthy status reads as "Pending" |
| Review.Offered | frontend/src/components/tenants/modals/ApplicationReviewModal.jsx:24-29 | unlock payment exactly in VERIFICATION_PENDING; request contract exactly in PAYMENT_REVIEW for a permanent slot; create lease exactly in PAYMENT_REVIEW for a non-permanent slot or in CONTRACT_REVIEW; never more than one action |
| Review.WaitingStatusesOfferNothing | frontend/src/components/tenants/modals/ApplicationReviewModal.jsx:24-29 | while the applicant must act next (Pending, PAYMENT_UNLOCKED, CONTRACT_PENDING) and once a tenant, the dialog offers no action |
| Review.OfferedFor | frontend/src/components/tenants/modals/ApplicationReviewModal.jsx:21-29 | an application without a status offers nothing, and at most one action is ever offered |
| Review.DocumentSlots | frontend/src/components/tenants/modals/ApplicationReviewModal.jsx:32-39 | the ID, permit, clearance and receipt slots in that order with their URLs, plus the signed-contract slot exactly when the applicant is permanent or already has a contract URL |
| Review.DisplayId | frontend/src/components/tenants/modals/ApplicationReviewModal.jsx:17-19 | the header shows "---" without an id and at most six characters with one |
| Review.Render | frontend/src/components/tenants/modals/ApplicationReviewModal.jsx:15-39 | the dialog renders exactly when it is open and has an application, and then shows that application's actions and document slots |
| Bulk.RequestEach | frontend/src/pages/Parking.jsx:215-230 | one deletion request per selected id that names a row, in selection order, each filed for that row with the page's type, requester and reason; ids with no row are skipped |
| Bulk.FiledOnlyRequests | frontend/src/pages/Parking.jsx:215-230 | requests filed in bulk are only deletion-request posts and delete nothing |
| Bulk.DeleteEach | frontend/src/pages/Parking.jsx:253-255 | an administrator's bulk delete sends one delete per selected id, in order, whether or not a row has it |
| Bulk.BulkDelete | frontend/src/pages/Parking.jsx:213-255 | the module's own role never deletes and files, in selection order, one request per found row carrying the row's description, the item type, requester, reason and the row as original data; any other role deletes every selected id directly |
| Bulk.ArchiveEach | frontend/src/pages/Reports.jsx:338-354 | for each selected id that names a row, the archive post of that row followed by its delete, in selection order; ids with no row are skipped |
| TenantLease.NightLabelDigits | frontend/src/pages/TenantLease.jsx:290 | every night-market number is exactly two digits and reads back as the stall's number counted from 1 |
| TenantLease.PermanentLabelDigits | frontend/src/pages/TenantLease.jsx:290 | every permanent number is three digits and reads back as 101 plus the stall's index |
| TenantLease.SlotLabelsDistinct | frontend/src/pages/TenantLease.jsx:289-290 | two different stalls of a section never share a label |
| TenantLease.SectionsDisjoint | frontend/src/pages/TenantLease.jsx:266 | no tenant is listed in both sections, and a tenant without a type belongs to the permanent one |
| TenantLease.FindSlot | frontend/src/pages/TenantLease.jsx:291-294 | the first tenant of the section holding the stall's label under `slotNo` or `slotno`, or none exactly when no tenant does |
| TenantLease.OccupiedCount | frontend/src/pages/TenantLease.jsx:289-299 | among the first n stalls at most n are taken |
| TenantLease.MapStats | frontend/src/pages/TenantLease.jsx:286-300 | the loop counts the taken stalls of the section, and available plus taken always equals the capacity of thirty |
| TenantLease.Filtered | frontend/src/pages/TenantLease.jsx:263-270 | the list breaks (None) exactly when some tenant's name, truthy reference number when the name misses, or status under a chosen status filter is not a string; otherwise the listed tenants are exactly the records that pass the search, section, date and status tests, in stored order (the records filtered by the page's test) |
| TenantLease.NamelessTenantListed | frontend/src/pages/TenantLease.jsx:264-268 | a tenant with neither name is searched under the empty name and never breaks the list under "All"; with a status chosen, a tenant without a status breaks it |
| TenantLease.ActiveWaitlist | frontend/src/pages/TenantLease.jsx:238 | the displayed waitlist holds exactly the applications whose status is not TENANT |
| TenantLease.AddToWaitlist | frontend/src/pages/TenantLease.jsx:450-465 | refused exactly when the name or the contact is missing; otherwise one waitlist post with status "Pending" that keeps every other field of the form |
| TenantLease.NewApplicationOffersNothing | frontend/src/pages/TenantLease.jsx:456-460 | a freshly added application is waiting for the applicant, so the review dialog offers no action on it |
| TenantLease.StatusUpdate | frontend/src/pages/TenantLease.jsx:487-518 | nothing is sent without an application under review that has an id; otherwise one status update for that id |
| TenantLease.AddTenant | frontend/src/pages/TenantLease.jsx:541-547 | the tenant post carries every field of the form and names the application being transferred, if any, and none otherwise |
| TenantLease.UnlockStep | frontend/src/pages/TenantLease.jsx:487-495 | unlocking payment for an application in VERIFICATION_PENDING stores PAYMENT_UNLOCKED, mails the unlock subject, and leaves the review offering nothing |
| TenantLease.ContractStep | frontend/src/pages/TenantLease.jsx:511-519 | requesting the contract of a permanent applicant in payment review stores CONTRACT_PENDING, mails the contract subject, and leaves the review offering nothing |
| TenantLease.LeaseStep | frontend/src/pages/TenantLease.jsx:541-547 | creating the lease from a reviewed application marks it TENANT, so it leaves the displayed waitlist and the review offers nothing more |
| TenantLease.ArchiveLease | frontend/src/pages/TenantLease.jsx:584-603 | a row without an id sends nothing; otherwise the lease is archived as "Tenant Lease", and a delete is sent exactly when the row has an id and the archive succeeded |
| TenantLease.BulkDelete | frontend/src/pages/TenantLease.jsx:395-412 | only the lease role acts, filing, in selection order, one "Tenant Lease" request per found tenant carrying its slot-and-name description, the requester "Tenant Admin", the bulk reason and the tenant as original data; other roles send nothing, and nothing is ever deleted directly |
| TenantLease.Audience | frontend/src/pages/TenantLease.jsx:644-661 | the recipients are exactly the tenants of the chosen group, and with the due-date template exactly those of them with a due date within the window; the broadcast is refused exactly when the template leaves nobody |
| TenantLease.Emails | frontend/src/pages/TenantLease.jsx:666 | the recipient list holds exactly the truthy e-mail values of the targets |
| TerminalFees.ScanMatchesPattern | frontend/src/pages/TerminalFees.jsx:110-111 | a left-to-right scan (digits, at most one dot) accepts exactly the strings the price pattern matches |
| TerminalFees.ShapedAfterDigit | frontend/src/pages/TerminalFees.jsx:110 | a leading digit does not change whether a text matches the price pattern |
| TerminalFees.ShapedAfterDot | frontend/src/pages/TerminalFees.jsx:110 | after a leading dot only digits may follow on the pattern |
| TerminalFees.ShapedStart | frontend/src/pages/TerminalFees.jsx:110 | a text starting with anything but a digit or a dot is off the pattern |
| TerminalFees.PriceInput | frontend/src/pages/TerminalFees.jsx:104-118 | an empty value clears the field; a value off the pattern leaves the field as it was; a matching value loses one leading "0" that is not followed by "."; the field stays on the pattern |
| TerminalFees.DropLeadingDigit | frontend/src/pages/TerminalFees.jsx:114-116 | dropping a leading digit keeps a value on the price pattern |
| TerminalFees.LeadingZeroDroppedOnce | frontend/src/pages/TerminalFees.jsx:104-118 | a zero typed before digits loses that one zero only, and a zero before the decimal point stays |
| TerminalFees.NextTicketNumber | frontend/src/pages/TerminalFees.jsx:469-472 | with each record's number read as `Number(ticketNo) \|\| 0` (integers only, see Left out), the new ticket number exceeds every existing number, equals one of them plus one, and is 1 on an empty list |
| TerminalFees.TicketValueOfText | frontend/src/pages/TerminalFees.jsx:469 | a ticket number stored as the text of an integer, signed or with white space around it, counts as that integer (" 7" counts 7) |
| TerminalFees.Fare | frontend/src/pages/TerminalFees.jsx:964-966 | "Student" and "Senior Citizen / PWD" pay the discounted fare and every other type the regular one |
| TerminalFees.Filtered | frontend/src/pages/TerminalFees.jsx:155-173 | a fee whose passenger type is truthy but not a string makes `toLowerCase` throw and the list None; otherwise the listed fees are the records that pass the search, date and passenger-type tests, in stored order |
| TerminalFees.NumericTypeBreaksList | frontend/src/pages/TerminalFees.jsx:157 | a fee whose type was stored as a non-zero number breaks the list whatever the search, date or tab |
| TerminalFees.StringTypesListed | frontend/src/pages/TerminalFees.jsx:157 | when every type is a string or missing the list never breaks |
| TerminalFees.CountStats | frontend/src/pages/TerminalFees.jsx:175-183 | the total card counts the listed fees and no type card exceeds it; the revenue is a number exactly when no listed fee has a truthy text, array or object price (one of those turns the sum into text) |
| TerminalFees.PriceTerm | frontend/src/pages/TerminalFees.jsx:182 | `f.price \|\| 0` as an addend: a falsy price adds 0, a number adds itself, `true` adds 1, and a truthy text, array or object makes the sum text (none) |
| TerminalFees.FeeRevenue | frontend/src/pages/TerminalFees.jsx:182 | the revenue sum is none exactly when some listed fee has a price that turns the sum into text |
| TerminalFees.FeeRevenueAppend | frontend/src/pages/TerminalFees.jsx:182 | the revenue of two lists together is the sum of their revenues, and none when either is |
| TerminalFees.CountStatsAppend | frontend/src/pages/TerminalFees.jsx:175-183 | the cards of two lists together are the cards of each added up, revenue included |
| TerminalFees.CountStatsOfOne | frontend/src/pages/TerminalFees.jsx:175-183 | one fee counts 1 on each card whose word its type mentions (in any case), 1 on the total, and adds its price term to the revenue; with CountStatsAppend this fixes every card of every list |
| TerminalFees.CardsMatchTabs | frontend/src/pages/TerminalFees.jsx:162-180 | the regular, student and senior cards equal the number of listed fees the "Regular", "Student" and "Senior/PWD" tabs would list |
| TerminalFees.RegularAndStudentWithinTotal | frontend/src/pages/TerminalFees.jsx:176-177 | when no passenger type mentions both words, the regular and student cards together never exceed the total |
| TerminalFees.SeniorTabMatches | frontend/src/pages/TerminalFees.jsx:162-169 | the "Senior/PWD" tab lists exactly the fees whose type mentions "senior" or "pwd" in any case, and "All" lists every fee |
| TerminalFees.DeleteProceed | frontend/src/pages/TerminalFees.jsx:394-441 | the ticket role files one deletion request (reason defaulting to "No remarks provided.") and never deletes; the superadmin deletes directly when the row has an id and is refused otherwise; any other role is asked for a password |
| TerminalFees.RequiredPassword | frontend/src/pages/TerminalFees.jsx:444-446 | the ticket role's password defaults to "ticket123" and every other role's to "admin123" when none is stored; it is never empty |
| TerminalFees.FinalizeAction | frontend/src/pages/TerminalFees.jsx:443-466 | a wrong password sends nothing; the right one sends the pending edit or delete for the record's id, and nothing when the record or its id is lost |
| TerminalFees.AdminDeleteNeedsPassword | frontend/src/pages/TerminalFees.jsx:435-458 | a module administrator's delete first asks for the password and goes through exactly when the entered password is the required one |
| TerminalFees.ArchiveTicket | frontend/src/pages/TerminalFees.jsx:499-521 | the archive post comes first; the delete follows exactly when the archive succeeded and the row has an id |
| TerminalFees.ExportCells | frontend/src/pages/TerminalFees.jsx:532-540 | one cell per header; a missing number, type, date or time exports "-", and a missing price exports zero |
| ParkingPage.RateFor | frontend/src/pages/Parking.jsx:304 | a car is charged 10 per hour and every other type 5 |
| ParkingPage.OpenAdd | frontend/src/pages/Parking.jsx:286-301 | the add dialog opens on step 1 with a blank number and plate and time-in now, typed as a car but carrying the motorcycle rate until a type is chosen |
| ParkingPage.SelectType | frontend/src/pages/Parking.jsx:303-307 | choosing a type sets it and its rate and moves to step 2; the typed number, plate and time-in are kept |
| ParkingPage.Back | frontend/src/pages/Parking.jsx:309-312 | going back returns to step 1 with type, plate and number cleared, and keeps the rate and time-in |
| ParkingPage.SelectThenBack | frontend/src/pages/Parking.jsx:303-312 | going forward and back forgets the plate but keeps the rate of the type last chosen |
| ParkingPage.ExistingTicketNumbers | frontend/src/pages/Parking.jsx:77-79 | the numbers in use are exactly the truthy ticket numbers of the list |
| ParkingPage.CreateTicket | frontend/src/pages/Parking.jsx:314-339 | a missing plate or number is refused; a number equal (strictly, as text) to a listed one is a duplicate; otherwise the form is posted as it is |
| ParkingPage.PostedIsFresh | frontend/src/pages/Parking.jsx:327-332 | a posted ticket never repeats a listed ticket's number |
| ParkingPage.Filtered | frontend/src/pages/Parking.jsx:159-168 | the list breaks (None) exactly when some ticket's truthy plate, read because the number did not match, or type under a chosen type tab is not a string; otherwise the listed tickets are exactly the records that pass the search, date and type tests, in stored order (the records filtered by the page's test) |
| ParkingPage.UntypedTicketBreaksTypeTab | frontend/src/pages/Parking.jsx:166 | one ticket without a type breaks the list under any type tab, while under "All" the type is never read |
| ParkingPage.EmptyFilterListsNumbered | frontend/src/pages/Parking.jsx:160-167 | with no query, no date and the "All" type, a ticket is listed exactly when it has a number or a plate |
| ParkingPage.CountsWithinTotal | frontend/src/pages/Parking.jsx:176-177 | the car and motorcycle counts together never exceed the number of listed tickets |
| ParkingPage.Revenue | frontend/src/pages/Parking.jsx:178 | the revenue is not negative when no price is, and zero when every price is missing or zero |
| ParkingPage.Price | frontend/src/pages/Parking.jsx:178 | a ticket counts its numeric price, or the value of a numeral text, and 0 when the price is missing or `Number` reads it as NaN |
| ParkingPage.RevenueAppend | frontend/src/pages/Parking.jsx:178 | the revenue of two lists together is the sum of their revenues |
| ParkingPage.RevenueOfOne | frontend/src/pages/Parking.jsx:178 | one ticket's revenue is its price, so the revenue is the sum of the listed prices |
| ParkingPage.BulkDelete | frontend/src/pages/Parking.jsx:204-255 | the parking role deletes nothing and files, in selection order, one "Parking Ticket" request per selected ticket it still lists, carrying its number-and-plate description, the requester "Parking Admin", the bulk reason and the ticket as original data; any other role deletes every selected id |
| ParkingPage.ArchiveTicket | frontend/src/pages/Parking.jsx:398-420 | a row without an id sends nothing; otherwise the first call is the archive post typed "Parking", described "Ticket #<number> - <type>", with the whole row as original data and the role as archiver, and the delete of that id follows exactly when the archive succeeded |
| ParkingPage.ExportCells | frontend/src/pages/Parking.jsx:566-578 | one cell per header; the fee carries the peso sign; a missing number, plate, fee or duration exports "-"; type and status are exported as they are |
| BusTrips.MergeRoutes | frontend/src/pages/BusesTrips.jsx:21-26 | the merged template table holds exactly the template numbers that some company's table lists |
| BusTrips.MergeKeepsUnique | frontend/src/pages/BusesTrips.jsx:21-26 | a template number only one company lists keeps that company's route in the merged table |
| BusTrips.OpenAdd | frontend/src/pages/BusesTrips.jsx:367-377 | the add form opens as a pending Dindo trip with no template and no route |
| BusTrips.SwitchCompany | frontend/src/pages/BusesTrips.jsx:729-734 | switching company clears the template and its route and keeps the time, date and status |
| BusTrips.ChooseTemplate | frontend/src/pages/BusesTrips.jsx:379-386 | choosing a template stores its number in `templateNo` and fills the route from the merged table, or leaves it empty for a number the table lacks |
| BusTrips.TemplatesFor | frontend/src/pages/BusesTrips.jsx:515-519 | the selector offers the template numbers of the company's own table, found by its lower-cased name, and nothing for an unknown company |
| BusTrips.TemplateFillsOwnRoute | frontend/src/pages/BusesTrips.jsx:379-386 | picking one of the company's own templates fills in that company's route, as long as no other company lists the same number |
| BusTrips.Depart | frontend/src/pages/BusesTrips.jsx:412-426 | nothing is sent without a chosen trip and a ticket reference; otherwise one update of that trip whose body is exactly the reference, status Paid and the departure time |
| BusTrips.AfterDepart | frontend/src/pages/BusesTrips.jsx:429 | after a successful departure the rows with the trip's id take on the changes and become paid; every other row stays as it was |
| BusTrips.DepartedIsPaid | frontend/src/pages/BusesTrips.jsx:415-429 | a departed trip shows as paid and no longer as pending |
| BusTrips.TemplateOf | frontend/src/pages/BusesTrips.jsx:92 | the template number is read from `templateNo` and, when that is falsy, from `templateno` |
| BusTrips.Filtered | frontend/src/pages/BusesTrips.jsx:91-99 | the list breaks (None) exactly when some trip's truthy template number, or its route when the template misses the search, is not a string; otherwise the listed trips are exactly the records that pass the search, company and date tests, in stored order (the records filtered by the page's test) |
| BusTrips.MissingRouteBreaksMissedSearch | frontend/src/pages/BusesTrips.jsx:92-95 | a trip without a route is listed under an empty search but breaks the list for any search its template misses |
| BusTrips.CompanyFilterExact | frontend/src/pages/BusesTrips.jsx:96 | choosing a company lists only that company's trips, whenever the list does not break |
| BusTrips.Companies | frontend/src/pages/BusesTrips.jsx:89 | the company choices are exactly the company values that occur in the list |
| BusTrips.TripPrice | frontend/src/pages/BusesTrips.jsx:106 | a non-zero numeric price, or a numeral text of a non-zero value, counts as it is; a missing price, NaN or 0 counts as the standard 75; any other figure is what `Number` reads |
| BusTrips.Revenue | frontend/src/pages/BusesTrips.jsx:103-106 | with no paid trip the revenue is 0, and it is not negative when no paid trip's price is |
| BusTrips.RevenueOverPaid | frontend/src/pages/BusesTrips.jsx:103-106 | the revenue is the sum of the prices of the paid trips, filtered first and then summed |
| BusTrips.UnpricedRevenue | frontend/src/pages/BusesTrips.jsx:104-106 | with no prices recorded, the revenue is 75 per paid trip |
| BusTrips.PaidAndPendingWithinTotal | frontend/src/pages/BusesTrips.jsx:101-103 | the paid and pending counts together never exceed the number of listed trips |
| BusTrips.BulkDelete | frontend/src/pages/BusesTrips.jsx:248-266 | the bus role deletes nothing and files, in selection order, one "Bus Trip" request per selected trip it still lists, carrying its template-and-route description, the requester "Bus Admin", the bulk reason and the trip as original data; any other role deletes every selected id |
| BusTrips.ArchiveTripAsWritten | frontend/src/pages/BusesTrips.jsx:470-486 | as written, the archive post comes first, typed "Bus Trip", carrying the row as its original data, the role as archiver and a description that reads `templateno`; the delete by the row's `id` follows exactly when the archive succeeded |
| BusTrips.ArchiveLosesTemplate | frontend/src/pages/BusesTrips.jsx:479 | a trip made by the page's own form is archived with the description "Trip: undefined - …", because the description reads `templateno` |
| BusTrips.ArchiveTrip | frontend/src/pages/BusesTrips.jsx:470-486 | with the template read through `templateNo \|\| templateno`, the archive post comes first and the delete follows exactly when the archive succeeded |
| BusTrips.ArchiveKeepsTemplate | frontend/src/pages/BusesTrips.jsx:479 | the corrected description carries the template number under either spelling |
| BusTrips.ExportCells | frontend/src/pages/BusesTrips.jsx:127-138 | one cell per header; a missing template, reference, route, company or status exports "-" |
| LostFound.TrackingNo | frontend/src/pages/LostFound.jsx:103 | the tracking number is "LF-" followed by at most six digits, which read back as the clock value modulo one million |
| LostFound.BlankItem | frontend/src/pages/LostFound.jsx:100-113 | the add form opens as an unclaimed item with the tracking number, empty description, type and location, and the current time |
| LostFound.NearbyClocksDiffer | frontend/src/pages/LostFound.jsx:103 | two items added at different times less than a million milliseconds apart get different tracking numbers |
| LostFound.Filtered | frontend/src/pages/LostFound.jsx:203-214 | the list breaks (None) exactly when some item's description, tracking number when the description misses, truthy item type when both miss, or status under a chosen status tab is not a string; otherwise the listed items are exactly the records that pass the search, date and status tests, in stored order (the records filtered by the page's test) |
| LostFound.NoFilterListsAll | frontend/src/pages/LostFound.jsx:203-214 | with no query, no date and "All", the list breaks exactly when some description is not a string, and otherwise lists every item |
| LostFound.TypeSearchIgnoresCase | frontend/src/pages/LostFound.jsx:205-207 | a query naming an item's type in upper case still finds it |
| LostFound.CountsWithinTotal | frontend/src/pages/LostFound.jsx:334-335 | the unclaimed and claimed counts together never exceed the number of listed items |
| LostFound.BulkDelete | frontend/src/pages/LostFound.jsx:256-272 | the lost-and-found role deletes nothing and files, in selection order, one "Lost & Found Item" request per selected item it still lists, carrying its tracking-and-description text, the requester "LostFound Admin", the bulk reason and the item as original data; any other role deletes every selected id |
| LostFound.ArchiveItem | frontend/src/pages/LostFound.jsx:156-175 | the item is archived as "LostFound" first, and deleted by its `id` exactly when the archive succeeded |
| LostFound.ExportCells | frontend/src/pages/LostFound.jsx:366-375 | one cell per header; only a missing item type is replaced by "-"; the number and description are written as they are |
| LostFound.ReportRow | frontend/src/pages/LostFound.jsx:313-321 | a reported item loses its internal fields, keeps every other field, and shows its date-time formatted, or "-" when missing |
| LostFound.SubmitReport | frontend/src/pages/LostFound.jsx:310-353 | the "Lost & Found" report by "LostFound Admin", status "Submitted", carrying the page data, is posted first; only when it was accepted is every listed item deleted, and nothing else |
| LostFound.ReportPayload | frontend/src/pages/LostFound.jsx:313-338 | the page data holds exactly the screen name, the generation time, the filters (the selected date or "None"), the statistics (all items, listed items, unclaimed and claimed among the listed) and one report row per listed item, in order |
| LostFound.ReportStatisticsAddUp | frontend/src/pages/LostFound.jsx:331-336 | on filtered items, the unclaimed and claimed statistics together are at most the displayed count, which is at most the total |
| Reports.SpaceBeforeUpper | frontend/src/pages/Reports.jsx:63 | inserting the separating spaces never shortens a field name |
| Reports.SpacingOnlyAddsSpaces | frontend/src/pages/Reports.jsx:63 | the spaced name differs from the field name only by plain spaces, and introduces no other white space |
| Reports.DropSpacesOfTrim | frontend/src/pages/Reports.jsx:63 | trimming a label whose only white space is plain spaces removes spaces and nothing else |
| Reports.HumanizeKeepsLetters | frontend/src/pages/Reports.jsx:63 | a column label is its field name split into words: removing its spaces gives the field name back |
| Reports.HumanizeCamelCase | frontend/src/pages/Reports.jsx:63 | a camel-case name such as "totalRevenue" is labelled "total Revenue" |
| Reports.Headers | frontend/src/pages/Reports.jsx:53 | the columns are exactly the first row's field names other than "id" and "_id" |
| Reports.HeadersAppend | frontend/src/pages/Reports.jsx:53 | the columns keep the order of the fields |
| Reports.ShortId | frontend/src/pages/Reports.jsx:543 | a report without an id shows "ERR"; otherwise the first eight characters of the id, upper-cased |
| Reports.ShortIdPrefix | frontend/src/pages/Reports.jsx:543 | ids that agree on their first eight characters show the same short id |
| Reports.Filtered | frontend/src/pages/Reports.jsx:156-181 | when the id does not match, a type that is neither nullish nor a string, or (when the type misses) such an author, makes `?.toLowerCase()` throw and the list None; otherwise a report is listed exactly when it matches the search, the day, the category and the time range, in stored order |
| Reports.NumericTypeBreaksList | frontend/src/pages/Reports.jsx:161-163 | a report whose type was stored as a number breaks the list unless its id already matches the search |
| Reports.SearchCaseRules | frontend/src/pages/Reports.jsx:161-164 | a query found in the type is found again in upper or lower case, while for a report with no type and no author the search is a case-sensitive substring test on the id ("abc" misses "ABC") |
| Reports.ArchiveReport | frontend/src/pages/Reports.jsx:386-403 | confirming an archive sends the "Report" archive record and then the delete of that report |
| Reports.ArchiveFailureStillDeletes | frontend/src/pages/Reports.jsx:391-403 | the delete is sent even when the archive reply is a failure |
| Reports.BulkArchive | frontend/src/pages/Reports.jsx:336-354 | every selected id that names a loaded report gets its archive record and its delete, in selection order; other ids send nothing |
| Employees.Load | frontend/src/pages/EmployeeManage.jsx:8-27 | nothing stored yields the six default accounts with ids 1 to 6 and distinct addresses; a stored list is used as it is; an unreadable one yields no accounts |
| Employees.CanManage | frontend/src/pages/EmployeeManage.jsx:58 | the actions are offered exactly when the stored role is missing, empty or "superadmin" |
| Employees.DefaultsUnique | frontend/src/pages/EmployeeManage.jsx:12-19 | no two default addresses coincide, ignoring letter case |
| Employees.AddAdmin | frontend/src/pages/EmployeeManage.jsx:60-75 | an empty address or password is ignored; an address already present in any letter case is refused; otherwise the account is appended under the clock's id, and distinct addresses stay distinct |
| Employees.Remove | frontend/src/pages/EmployeeManage.jsx:77-91 | exactly the accounts with another id remain |
| Employees.RemoveKeepsUnique | frontend/src/pages/EmployeeManage.jsx:82 | removing accounts keeps the addresses distinct |
| Employees.ChangePassword | frontend/src/pages/EmployeeManage.jsx:93-100 | an empty password changes nothing; otherwise exactly the accounts with the target id take the new password and every other field stays |
| Employees.AddTwiceRefused | frontend/src/pages/EmployeeManage.jsx:61-66 | once an address is added, adding it again in upper case is refused |
| Sidebar.RoleOf | frontend/src/components/layout/Sidebar.jsx:20 | a missing or empty stored role reads as the superadmin; a string naming no role reads as no role |
| Sidebar.VisibleMembers | frontend/src/components/layout/Sidebar.jsx:39 | an entry is shown exactly when it is in the bar and its role list names the role |
| Sidebar.AllListed | frontend/src/components/layout/Sidebar.jsx:39 | when every entry lists the role, the whole bar is shown in order |
| Sidebar.SuperadminSeesAll | frontend/src/components/layout/Sidebar.jsx:20-39 | the superadmin, and a session with no stored role, see all ten entries |
| Sidebar.UnknownRoleSeesNothing | frontend/src/components/layout/Sidebar.jsx:20-39 | an unknown role string sees an empty bar |
| Sidebar.AdminPagesOnlyForSuperadmin | frontend/src/components/layout/Sidebar.jsx:23-32 | the dashboard, reports, deletion requests and employee pages are shown only to the superadmin |
| Sidebar.ModuleRoleMenu | frontend/src/components/layout/Sidebar.jsx:22-39 | a module administrator sees the module's own page and the notifications, in that order, and nothing else |
| TenantView.Rank | frontend/src/components/tenants/modals/TenantViewModal.jsx:7-32 | every document kind has its own place in the display order |
| TenantView.Nested | frontend/src/components/tenants/modals/TenantViewModal.jsx:11 | an upload is read under `documents` only when that field is an object |
| TenantView.CollectMembers | frontend/src/components/tenants/modals/TenantViewModal.jsx:7-33 | a card is kept exactly when its kind is listed and its URL is truthy, and it carries that URL |
| TenantView.CollectOrdered | frontend/src/components/tenants/modals/TenantViewModal.jsx:33 | filtering keeps the display order |
| TenantView.DocumentList | frontend/src/components/tenants/modals/TenantViewModal.jsx:6-33 | no row shows nothing; otherwise at most five cards, in display order, exactly the documents with a truthy URL |
| TenantView.EveryUploadShown | frontend/src/components/tenants/modals/TenantViewModal.jsx:7-33 | every document with a truthy URL gets its card |
| TenantView.NestedFirst | frontend/src/components/tenants/modals/TenantViewModal.jsx:11-31 | a truthy nested upload wins over the flat field; without `documents` the flat fields are used |
| TenantView.NoUploadsNoCards | frontend/src/components/tenants/modals/TenantViewModal.jsx:33 | a row without any URL shows no cards |
| TenantView.PdfIgnoresCase | frontend/src/components/tenants/modals/TenantViewModal.jsx:94 | the PDF test does not depend on letter case |
| TenantView.PdfExtension | frontend/src/components/tenants/modals/TenantViewModal.jsx:94 | a URL ending in ".pdf", in any case, is a PDF |
| TenantView.PdfMediaType | frontend/src/components/tenants/modals/TenantViewModal.jsx:94 | a URL naming the PDF media type anywhere, in any case, is a PDF |
| TenantView.PdfFlag | frontend/src/components/tenants/modals/TenantViewModal.jsx:94 | a string URL is flagged a PDF exactly when the test holds; any other URL throws |
| StatCards.Stats | frontend/src/components/dashboard/StatCards.jsx:5-11 | missing or empty data shows the four placeholder cards; other data is shown as it is |
| StatCards.PaletteOf | frontend/src/components/dashboard/StatCards.jsx:12-42 | "yellow", "green" and "blue" select their palettes and every other name selects red |
| StatCards.TrendOf | frontend/src/components/dashboard/StatCards.jsx:44-56 | a leading "+" rises, a leading "-" falls, anything else is neutral |
| StatCards.CleanChange | frontend/src/components/dashboard/StatCards.jsx:46 | at most two characters are removed, and text without signs is shown unchanged |
| StatCards.SignedChange | frontend/src/components/dashboard/StatCards.jsx:43-56 | a signed change shows its digits without the sign and trends with the sign |
| StatCards.MissingChangeNeutral | frontend/src/components/dashboard/StatCards.jsx:43 | a missing change shows an empty neutral badge |
| StatCards.SecondPlusKept | frontend/src/components/dashboard/StatCards.jsx:46 | only the first plus sign is removed |
| StatCards.DefaultCards | frontend/src/components/dashboard/StatCards.jsx:5-56 | without data the four placeholder cards all rise by "0%", in red, yellow, green and blue |
| StatCards.UnknownColourIsRed | frontend/src/components/dashboard/StatCards.jsx:42 | an unknown colour name falls back to red |

## Left out

- HTTP, Express routing and Mongoose persistence: each collection is a map and each request is one store transition. Client requests are `Calls.Call` values, and the reply the page depends on (for example "the archive post succeeded") is a parameter.
- Schema validation and casting (`backend/models/*.js`): whether a body satisfies its Mongoose schema is the boolean parameter `valid`; whether an id casts to an ObjectId is `idCasts` (`casts` when the update's values must cast too, `transferCasts` for the transfer id); the paths a strict schema declares are the parameter `paths`, which the waitlist and tenant creates and updates and the archive restore apply. The schema files are not part of this model, so the defaults they declare are taken from the handlers and pages: a new ticket is stored unarchived with a creation time, an archive entry with its archiving time, and an application with its creation time.
- ParkingApi.UpdateParking: the body is the patch after Mongoose's strict schema mode dropped the fields a ticket does not have, such as the `date` the edit form sends. Casting is the parameter `valid`, which covers both a malformed id and a field of the wrong type.
- The deletion-request controller and `busRoutes.js` are not part of this model. A resolution is the request the page sends, and the template-to-route table is a parameter.
- Clocks, `Date` and locale formatting: "now" is an integer of milliseconds. Same-day and time-range tests (`toDateString`, `checkTimeRange`) and date-time display strings are function parameters.
- Floating-point money: prices are integer cents or whole pesos. `handleSaveBasePrices` in `TerminalFees.jsx` (parsing with `parseFloat` and `toFixed`) and the revenue figure of `mapStats` in `TenantLease.jsx` are not modelled.
- Email sending, `logActivity`, `sendNotification` and the report service are side effects. Only the decision whether a mail is sent, and to whom with which subject, is modelled.
- `Promise.all` in bulk actions: the calls of a bulk action are a sequence in selection order. Their interleaving and partial failures are not modelled.
- PDF and XLSX export through jsPDF and XLSX: these are foreign libraries. Only the hand-written CSV export is modelled.
- React state, hooks, timers, modals, rendering and `localStorage` persistence: a page's state is a datatype, and a click is a function on it.
- Letter case: `toLowerCase` and `toUpperCase` are ASCII only.
- `String(x)` and template literals: `Json.Show` renders strings, integers, booleans, null and undefined exactly. Arrays and objects are approximated.
- Non-string ids: `Rows.RowId` keys a row with a non-string `_id` or `id` as "".
- Error texts: a 500 caused by a `CastError` carries Mongoose's message, which is not modelled; only the status is stated.
- Sorting: listings are newest first by an integer timestamp. The order among equal timestamps is left unspecified, as MongoDB leaves it.
- `DeletionRequests.jsx:238`: the bulk-approve button calls an undefined `handleBulkDelete`. `DeletionPage.BulkApprove` models `handleBulkApprove` as written, but no button reaches it.
- Pagination: the items per page are assumed to be at least 1, as every page sets them.
- Csv.Export: the whole file is not parsed back, because a cell may hold a line break and the lines are joined with line breaks unquoted; each data line is stated to split back into its row.
- Review.DisplayId: only the "---" fallback and the six-character bound are stated. Which six characters are kept, the last six of the id upper-cased, is computed but not stated in the contract.
- TenantApi.CreateTenant: the reply and the mail use the saved document as the strict schema keeps it; the `_id` and timestamps that Mongoose adds are not modelled. The transfer id is read from the request body, as the handler does.
- TenantApi.CreateTenant: every failure of the save is the 500 reply, whatever Mongoose's error was.
- ArchiveApi.Restore: an archive whose type tag names no collection is deleted and reported as restored, as the controller does. `DeletionPage.ApprovedRequestIsUnrestorable` states the consequence for the tags the deletion pages store.
- ParkingPage.CreateTicket: the duplicate check compares ticket numbers with strict equality on strings, so "7" and 7 differ, as in the page.
- Reports.ShortId: an id that is present but not a string reads "ERR", where the page would call `substring` on it and throw.
- BusTrips.TripPrice: `Number` on a price with a decimal point, an exponent, a hex prefix, "Infinity" or an array is read here as NaN, and so counts 75. Prices are integers in this model, so only those written forms differ from the page.
- ParkingPage.Price: the same reading of `Number` as BusTrips.TripPrice, with 0 in place of 75.
- Json.NumberOfText: reads integer texts only. A decimal point ("1.5", ".5"), a hex prefix ("0x10"), an exponent ("1e3"), "Infinity" and the binary and octal prefixes are read as NaN, where `Number` gives a value; integer texts are read exactly.
- Json.NumberOrZero: built on Json.NumberOfText, so the texts above count 0 here.
- TerminalFees.NextTicketNumber: a ticket number stored as such a text ("1e3", "0x10", "1.5") counts 0, where the page would count its value. Numbers stored as integers and integer texts are counted as the page counts them.
- TerminalFees.CountStats: prices are integers, so a fractional price and the rounding of a floating-point sum are not modelled; a revenue that the page would turn into text is None.
- Rows.Find: rows are found by `_id || id`, while the pages compare `r.id === id`. The two agree because every fetched row is given `id` equal to its `_id` when the page loads it.
- Reports.Filtered: the "This Week", "This Month" and "This Year" ranges are the parameter `inRange`.
- StatCards.CardOf: the change is a string or missing. A number would make `startsWith` throw, and that is not modelled. Palette names inherited from `Object.prototype` are not modelled.
- TenantView.PdfFlag: a URL that is not a string throws in the page, and that is None here. The rest of the dialog's rendering is not modelled.
- ParkingPage.OpenAdd: the form opens typed as a car with the motorcycle rate of 5, as the page does. The rate is set again when a type is chosen on step 1.
- The login components, the dashboard charts, `StatCardGroupBus`, `RecentActivity`, `TargetModal`, `DashboardToolbar` and `EditParking` are not part of this model.

## Findings

| source | as written | input that shows it | evidently intended | confidence | as-written member | corrected member |
|---|---|---|---|---|---|---|
| frontend/src/pages/Archive.jsx:18 | the category tabs filter by exact equality with "Parking Ticket", "Tenant" and "Lost & Found", but the pages archive under "Parking", "Tenant Lease" and "LostFound" | an archive entry of type "LostFound" appears under "All" and under no category tab | every stored type tag is listed under the one category tab it belongs to | not executed | ArchivePage.TabsMissStoredTags | ArchivePage.CorrectedTabsCoverStoredTags |
| frontend/src/pages/BusesTrips.jsx:479 | the archive description reads the field `templateno`, while the trip form stores `templateNo` | the row {id: "t1", templateNo: "T-01", route: "Iloilo"} is archived as "Trip: undefined - Iloilo" | the description names the trip's template number | not executed | BusTrips.ArchiveLosesTemplate | BusTrips.ArchiveKeepsTemplate |

=== FILE: archive_api.dfy ===
/** The archive controller: archived items are kept as a type tag plus a copy of
    the original document, and restore dispatches on the tag to one of five
    collections. Stores are values; every request is one store transition. */
module ArchiveApi {
  import opened Wrappers
  import opened Json
  import opened Http
  import Sorting

  type Id = string

  datatype ArchiveEntry = ArchiveEntry(
    kind: string,
    description: string,
    originalData: Doc,
    archivedBy: string,
    dateArchived: int)

  /** The collections restore can write to. */
  datatype Collection = TerminalFees | ParkingTickets | BusTrips | LostFoundItems | Reports

  datatype Store = Store(
    terminalFees: map<Id, Doc>,
    parking: map<Id, Doc>,
    busTrips: map<Id, Doc>,
    lostFound: map<Id, Doc>,
    reports: map<Id, Doc>,
    archives: map<Id, ArchiveEntry>)
  {
    function Get(c: Collection): map<Id, Doc> {
      match c
      case TerminalFees => terminalFees
      case ParkingTickets => parking
      case BusTrips => busTrips
      case LostFoundItems => lostFound
      case Reports => reports
    }

    function Put(c: Collection, m: map<Id, Doc>): (s: Store)
      ensures s.Get(c) == m
      ensures forall other :: other != c ==> s.Get(other) == Get(other)
      ensures s.archives == archives
    {
      match c
      case TerminalFees => this.(terminalFees := m)
      case ParkingTickets => this.(parking := m)
      case BusTrips => this.(busTrips := m)
      case LostFoundItems => this.(lostFound := m)
      case Reports => this.(reports := m)
    }

    /** The same collections with another archive. */
    function WithArchives(a: map<Id, ArchiveEntry>): (s: Store)
      ensures s.archives == a
      ensures forall c :: s.Get(c) == Get(c)
    {
      this.(archives := a)
    }

    /** `newId` is not used by any collection, as for a freshly generated ObjectId. */
    predicate Unused(newId: Id) {
      newId !in terminalFees && newId !in parking && newId !in busTrips
      && newId !in lostFound && newId !in reports
    }
  }

  /** The type tag under which restore recognises each collection. */
  function TagOf(c: Collection): string {
    match c
    case TerminalFees => "Terminal Fee"
    case ParkingTickets => "Parking"
    case BusTrips => "Bus Trip"
    case LostFoundItems => "LostFound"
    case Reports => "Report"
  }

  /** The collection a stored type tag restores into: exact string equality, and
      nothing for any other tag. */
  function CollectionOf(kind: string): (r: Option<Collection>)
    ensures r.Some? ==> TagOf(r.value) == kind
    ensures r.None? ==> forall c: Collection :: TagOf(c) != kind
  {
    if kind == "Terminal Fee" then Some(TerminalFees)
    else if kind == "Parking" then Some(ParkingTickets)
    else if kind == "Bus Trip" then Some(BusTrips)
    else if kind == "LostFound" then Some(LostFoundItems)
    else if kind == "Report" then Some(Reports)
    else None
  }

  /** A tag restores into a collection exactly when it is that collection's
      tag: each collection's tag leads back to it, and no other text does. */
  lemma TagRoundTrip(c: Collection, kind: string)
    ensures CollectionOf(TagOf(c)) == Some(c)
    ensures CollectionOf(kind) == Some(c) <==> kind == TagOf(c)
  {
  }

  /** The tags the deletion-request pages use are none of the five. */
  lemma RequestTagsAreUnknown()
    ensures CollectionOf("Parking Ticket").None?
    ensures CollectionOf("Lost & Found Item").None?
    ensures CollectionOf("Tenant Lease").None?
  {
  }

  /** The fields of a create-archive request body. */
  datatype ArchiveBody = ArchiveBody(kind: string, description: string, originalData: Doc, archivedBy: string)

  /** createArchive: stores the body as one new entry stamped `now`; a body the
      schema rejects (`valid` false) is a 400 and stores nothing. */
  function CreateArchive(s: Store, newId: Id, body: ArchiveBody, valid: bool, now: int)
    : (r: (Store, Reply<ArchiveEntry>))
    requires newId !in s.archives
    ensures !valid ==> r.0 == s && r.1.status == 400
    ensures valid ==> r.0.archives.Keys == s.archives.Keys + {newId}
    ensures valid ==> forall id :: id in s.archives ==> r.0.archives[id] == s.archives[id]
    ensures valid ==> var e := r.0.archives[newId];
                      && e.kind == body.kind && e.description == body.description
                      && e.originalData == body.originalData && e.archivedBy == body.archivedBy
                      && e.dateArchived == now
                      && r.1 == Payload(201, e)
    ensures forall c :: r.0.Get(c) == s.Get(c)
  {
    if !valid then
      (s, Message(400, "validation failed"))
    else
      var e := ArchiveEntry(body.kind, body.description, body.originalData, body.archivedBy, now);
      (s.(archives := s.archives[newId := e]), Payload(201, e))
  }

  /** deleteArchive: an id that does not cast to an ObjectId (`idCasts` false)
      is a 500 and deletes nothing; otherwise only the named entry is removed, if
      present, and the reply reports success either way. */
  function DeleteArchive(s: Store, id: Id, idCasts: bool): (r: (Store, Reply<()>))
    ensures !idCasts ==> r.0 == s && r.1.Message? && r.1.status == 500
    ensures idCasts ==> r.0.archives.Keys == s.archives.Keys - {id}
    ensures forall other :: other in r.0.archives ==> other in s.archives && r.0.archives[other] == s.archives[other]
    ensures forall c :: r.0.Get(c) == s.Get(c)
    ensures idCasts ==> r.1 == Message(200, "Permanently deleted")
  {
    if !idCasts then (s, Message(500, "cast failed"))
    else (s.(archives := s.archives - {id}), Message(200, "Permanently deleted"))
  }

  /** restoreArchive. An id that does not cast (`idCasts` false) makes the
      lookup throw: 500, and nothing changes. A missing entry is a 404 and changes nothing. For a recognised
      tag the original document, without its `_id`, is saved under a new id in the
      matching collection, keeping only the paths that collection's strict schema
      declares (`paths(c)`); a schema failure there is a 500 and changes nothing.
      For any other tag nothing is saved. In both successful cases the entry is
      removed from the archive and the reply is 200. */
  function Restore(s: Store, id: Id, idCasts: bool, newId: Id, paths: Collection -> set<string>, valid: bool)
    : (r: (Store, Reply<()>))
    requires s.Unused(newId)
    ensures !idCasts ==> r.0 == s && r.1.Message? && r.1.status == 500
    ensures idCasts && id !in s.archives ==> r == (s, Message(404, "Item not found"))
    ensures idCasts && id in s.archives && CollectionOf(s.archives[id].kind).Some? && !valid ==>
              r.0 == s && r.1.status == 500
    ensures idCasts && id in s.archives && (CollectionOf(s.archives[id].kind).None? || valid) ==>
              && r.0.archives.Keys == s.archives.Keys - {id}
              && (forall other :: other in r.0.archives ==> r.0.archives[other] == s.archives[other])
              && r.1 == Message(200, "Item restored successfully")
    ensures idCasts && id in s.archives && CollectionOf(s.archives[id].kind).Some? && valid ==>
              var c := CollectionOf(s.archives[id].kind).value;
              && r.0.Get(c).Keys == s.Get(c).Keys + {newId}
              && r.0.Get(c)[newId] == Strict(WithoutId(s.archives[id].originalData), paths(c))
              && (forall k :: k in s.Get(c) ==> r.0.Get(c)[k] == s.Get(c)[k])
              && (forall other :: other != c ==> r.0.Get(other) == s.Get(other))
    ensures id in s.archives && CollectionOf(s.archives[id].kind).None? ==>
              forall c :: r.0.Get(c) == s.Get(c)
  {
    if !idCasts then
      (s, Message(500, "cast failed"))
    else if id !in s.archives then
      (s, Message(404, "Item not found"))
    else
      var entry := s.archives[id];
      match CollectionOf(entry.kind)
      case None =>
        (s.(archives := s.archives - {id}), Message(200, "Item restored successfully"))
      case Some(c) =>
        if !valid then
          (s, Message(500, "validation failed"))
        else
          (RestoreInto(s, id, c, newId, paths(c)), Message(200, "Item restored successfully"))
  }

  /** The store after a successful restore into `c`: the original document,
      without its `_id` and cut down to the schema's `paths`, under the new id,
      and the entry gone from the archive. */
  function RestoreInto(s: Store, id: Id, c: Collection, newId: Id, paths: set<string>): (r: Store)
    requires id in s.archives
    ensures r.archives.Keys == s.archives.Keys - {id}
    ensures forall other :: other in r.archives ==> r.archives[other] == s.archives[other]
    ensures r.Get(c).Keys == s.Get(c).Keys + {newId}
    ensures r.Get(c)[newId].Keys == (s.archives[id].originalData.Keys - {"_id"}) * paths
    ensures forall k :: k in r.Get(c)[newId] ==> r.Get(c)[newId][k] == s.archives[id].originalData[k]
    ensures newId !in s.Get(c) ==> forall k :: k in s.Get(c) ==> r.Get(c)[k] == s.Get(c)[k]
    ensures forall other :: other != c ==> r.Get(other) == s.Get(other)
  {
    var m := s.Get(c)[newId := Strict(WithoutId(s.archives[id].originalData), paths)];
    s.Put(c, m).WithArchives(s.archives - {id})
  }

  /** A restored document never carries an `_id` of its own. */
  lemma RestoredHasNoArchivedId(s: Store, id: Id, newId: Id, c: Collection, paths: Collection -> set<string>)
    requires s.Unused(newId) && id in s.archives
    requires CollectionOf(s.archives[id].kind) == Some(c)
    ensures "_id" !in Restore(s, id, true, newId, paths, true).0.Get(c)[newId]
  {
  }

  /** Archiving a document under a recognised tag and then restoring that entry puts
      the document back, without `_id` and with only the paths the collection's
      schema declares, and leaves the archive as it was. A document holding only
      declared paths besides `_id` comes back whole. */
  lemma ArchiveThenRestore(s: Store, archiveId: Id, newId: Id, c: Collection, d: Doc,
                           description: string, archivedBy: string, now: int, paths: Collection -> set<string>)
    requires archiveId !in s.archives && s.Unused(newId)
    ensures var archived := CreateArchive(s, archiveId, ArchiveBody(TagOf(c), description, d, archivedBy), true, now).0;
            var restored := Restore(archived, archiveId, true, newId, paths, true).0;
            && restored.archives == s.archives
            && restored.Get(c) == s.Get(c)[newId := Strict(WithoutId(d), paths(c))]
            && (forall other :: other != c ==> restored.Get(other) == s.Get(other))
            && (d.Keys - {"_id"} <= paths(c) ==> restored.Get(c)[newId] == WithoutId(d))
  {
    var archived := CreateArchive(s, archiveId, ArchiveBody(TagOf(c), description, d, archivedBy), true, now).0;
    TagRoundTrip(c, TagOf(c));
    var restored := Restore(archived, archiveId, true, newId, paths, true).0;
    assert restored.archives == s.archives;
    assert restored.Get(c) == s.Get(c)[newId := Strict(WithoutId(d), paths(c))];
    if d.Keys - {"_id"} <= paths(c) {
      assert Strict(WithoutId(d), paths(c)) == WithoutId(d);
    }
  }

  /** Archiving under a tag restore does not know, then restoring, loses the document:
      the archive entry is gone and no collection received anything. */
  lemma UnknownTagRestoreLosesData(s: Store, archiveId: Id, newId: Id, body: ArchiveBody, now: int, valid: bool,
                                   paths: Collection -> set<string>)
    requires archiveId !in s.archives && s.Unused(newId)
    requires CollectionOf(body.kind).None?
    ensures var archived := CreateArchive(s, archiveId, body, true, now).0;
            var restored := Restore(archived, archiveId, true, newId, paths, valid);
            && restored.0.archives == s.archives
            && (forall c :: restored.0.Get(c) == s.Get(c))
            && restored.1.status == 200
  {
    var archived := CreateArchive(s, archiveId, body, true, now).0;
    assert archived.archives - {archiveId} == s.archives;
  }

  /** getArchives: every entry once, newest `dateArchived` first. */
  method ListArchives(s: Store) returns (reply: Reply<seq<(Id, ArchiveEntry)>>)
    ensures reply.Payload? && reply.status == 200
    ensures Sorting.SortedDesc(reply.value, (e: ArchiveEntry) => e.dateArchived)
    ensures Sorting.DistinctKeys(reply.value)
    ensures forall i :: 0 <= i < |reply.value| ==>
              reply.value[i].0 in s.archives && reply.value[i].1 == s.archives[reply.value[i].0]
    ensures Sorting.KeysOf(reply.value) == s.archives.Keys
  {
    var listed := Sorting.ListDesc(s.archives, (e: ArchiveEntry) => true, (e: ArchiveEntry) => e.dateArchived);
    reply := Payload(200, listed);
  }
}

=== FILE: archive_page.dfy ===
/** The archive browser: which tabs a role sees, which archived entries the
    current tab, search, date and time range let through, and how the date and
    range pickers interact. Calendar comparisons depend on the clock and locale
    and are parameters. */
module ArchivePage {
  import opened Wrappers
  import opened Json
  import opened Text
  import Rows

  const TicketRole := "ticket"
  const AllTab := "All"
  const AllTime := "All Time"

  /** availableTabs: the ticket role gets only its own tab; every other role,
      including a missing one, gets "All" and six category tabs. */
  function Tabs(role: Option<string>): (r: seq<string>)
    ensures role == Some(TicketRole) ==> r == ["Terminal Fee"]
    ensures role != Some(TicketRole) ==> |r| == 7 && r[0] == AllTab && "Terminal Fee" in r
  {
    if role == Some(TicketRole) then ["Terminal Fee"]
    else [AllTab, "Bus Trip", "Parking Ticket", "Tenant", "Report", "Lost & Found", "Terminal Fee"]
  }

  /** The filter and selection state of the page. */
  datatype View = View(tab: string, search: string, date: string, range: string, page: int,
                       selected: seq<Rows.Id>)

  /** The state the page starts in: the role's first tab, no search, no date,
      "All Time", page 1, nothing selected. */
  function Start(role: Option<string>): (v: View)
    ensures v.tab == Tabs(role)[0]
    ensures v.date == "" && v.range == AllTime && v.page == 1 && v.selected == []
  {
    View(if role == Some(TicketRole) then "Terminal Fee" else AllTab, "", "", AllTime, 1, [])
  }

  /** The ranges whose test needs the clock. */
  predicate ClockRange(range: string) {
    range == "Today" || range == "Last 7 Days" || range == "Last 30 Days"
    || range == "This Year" || range == "Last Year"
  }

  /** checkTimeRange: an entry without a date is never in range; "All Time" and any
      unknown range accept every dated entry; the other ranges ask the clock. */
  function InRange(range: string, itemDate: Option<Json>, clock: (string, Json) -> bool): (r: bool)
    ensures !TruthyOpt(itemDate) ==> !r
    ensures TruthyOpt(itemDate) && (range == "All Time" || !ClockRange(range)) ==> r
    ensures TruthyOpt(itemDate) && ClockRange(range) ==> (r <==> clock(range, itemDate.value))
  {
    TruthyOpt(itemDate) && (!ClockRange(range) || clock(range, itemDate.value))
  }

  /** The tab filter, as written: exact equality with the entry's type, or "All". */
  predicate TabMatches(tab: string, item: Doc) {
    tab == AllTab || Get(item, "type") == Some(JStr(tab))
  }

  /** The search filter: case-insensitive substring of the description or the type. */
  predicate SearchMatches(search: string, item: Doc) {
    ContainsIgnoreCase(StrOr(item, "description", ""), search)
    || ContainsIgnoreCase(StrOr(item, "type", ""), search)
  }

  /** The date filter: a chosen date wins; otherwise the time range decides. */
  predicate DateMatches(v: View, item: Doc, sameDay: (Option<Json>, string) -> bool,
                        clock: (string, Json) -> bool) {
    if v.date != "" then sameDay(Get(item, "dateArchived"), v.date)
    else InRange(v.range, Get(item, "dateArchived"), clock)
  }

  /** filteredItems' test for one entry. */
  predicate Visible(role: Option<string>, v: View, item: Doc, sameDay: (Option<Json>, string) -> bool,
                    clock: (string, Json) -> bool) {
    && !(role == Some(TicketRole) && Get(item, "type") != Some(JStr("Terminal Fee")))
    && TabMatches(v.tab, item)
    && SearchMatches(v.search, item)
    && DateMatches(v, item, sameDay, clock)
  }

  /** The test for one entry throws: past the role check, `(x || '').toLowerCase()`
      meets a truthy description that is not a string, or, when the description
      does not match, a truthy type that is not a string. */
  predicate FilterThrows(role: Option<string>, search: string, item: Doc) {
    && !(role == Some(TicketRole) && Get(item, "type") != Some(JStr("Terminal Fee")))
    && (|| (FieldTruthy(item, "description") && !IsStr(Get(item, "description")))
        || (!ContainsIgnoreCase(StrOr(item, "description", ""), search)
            && FieldTruthy(item, "type") && !IsStr(Get(item, "type"))))
  }

  /** filteredItems' test, as a function of the view. */
  function VisibleIn(role: Option<string>, v: View, sameDay: (Option<Json>, string) -> bool,
                     clock: (string, Json) -> bool): Doc -> bool {
    x => Visible(role, v, x, sameDay, clock)
  }

  /** filteredItems: the archived entries the page lists, in fetched order, or
      None when the test throws on some entry. */
  function Filtered(role: Option<string>, v: View, items: seq<Doc>, sameDay: (Option<Json>, string) -> bool,
                    clock: (string, Json) -> bool): (r: Option<seq<Doc>>)
    ensures r.None? <==> exists i :: 0 <= i < |items| && FilterThrows(role, v.search, items[i])
    ensures r.Some? ==> r.value == Rows.Where(items, VisibleIn(role, v, sameDay, clock))
    ensures r.Some? ==> forall x :: x in r.value <==> x in items && Visible(role, v, x, sameDay, clock)
  {
    Rows.TryWhere(items, x => FilterThrows(role, v.search, x), VisibleIn(role, v, sameDay, clock))
  }

  /** Outside the ticket role, one entry whose description is truthy but not
      a string breaks the list, whatever the view. */
  lemma OddDescriptionBreaksList(role: Option<string>, v: View, items: seq<Doc>, i: nat,
                                 sameDay: (Option<Json>, string) -> bool, clock: (string, Json) -> bool)
    requires role != Some(TicketRole) && i < |items|
    requires FieldTruthy(items[i], "description") && !IsStr(Get(items[i], "description"))
    ensures Filtered(role, v, items, sameDay, clock).None?
  {
    assert FilterThrows(role, v.search, items[i]);
  }

  /** Whatever the tab, search or dates, the ticket role sees only terminal
      fees, and entries of another type never make the list throw. */
  lemma TicketSeesOnlyTerminalFees(v: View, items: seq<Doc>, sameDay: (Option<Json>, string) -> bool,
                                   clock: (string, Json) -> bool)
    ensures forall x :: x in items && Get(x, "type") != Some(JStr("Terminal Fee")) ==>
              !FilterThrows(Some(TicketRole), v.search, x)
    ensures Filtered(Some(TicketRole), v, items, sameDay, clock).Some? ==>
              forall x :: x in Filtered(Some(TicketRole), v, items, sameDay, clock).value ==>
                Get(x, "type") == Some(JStr("Terminal Fee"))
  {
  }

  /** An empty search lets every entry through. */
  lemma EmptySearchKeepsAll(item: Doc)
    ensures SearchMatches("", item)
  {
    EmptySearchMatches(StrOr(item, "description", ""));
  }

  /** With a date chosen, the time range has no effect on what is listed. */
  lemma DateOverridesRange(role: Option<string>, v: View, range: string, item: Doc,
                           sameDay: (Option<Json>, string) -> bool, clock: (string, Json) -> bool)
    requires v.date != ""
    ensures Visible(role, v.(range := range), item, sameDay, clock) == Visible(role, v, item, sameDay, clock)
  {
  }

  /** handleTimeRangeChange: picks the range and clears the date. */
  function ChooseRange(v: View, range: string): (r: View)
    ensures r.date == "" && r.range == range
    ensures r.tab == v.tab && r.search == v.search && r.selected == v.selected
  {
    v.(range := range, date := "")
  }

  /** handleDateChange: picks the date; a non-empty date resets the range to
      "All Time", clearing the date keeps the range. */
  function ChooseDate(v: View, date: string): (r: View)
    ensures r.date == date
    ensures date != "" ==> r.range == AllTime
    ensures date == "" ==> r.range == v.range
    ensures r.tab == v.tab && r.search == v.search && r.selected == v.selected
  {
    v.(date := date, range := if date != "" then AllTime else v.range)
  }

  /** After choosing a range, the range alone decides the date filter, whatever date
      was chosen before. */
  lemma RangeReplacesDate(v: View, range: string, item: Doc, sameDay: (Option<Json>, string) -> bool,
                          clock: (string, Json) -> bool)
    ensures DateMatches(ChooseRange(v, range), item, sameDay, clock) ==
              InRange(range, Get(item, "dateArchived"), clock)
  {
  }

  /** After choosing a date, every dated entry passes the range test, so the date
      alone decides. */
  lemma DateReplacesRange(v: View, date: string, item: Doc, sameDay: (Option<Json>, string) -> bool,
                          clock: (string, Json) -> bool)
    requires date != ""
    ensures ChooseDate(v, date).range == AllTime
    ensures DateMatches(ChooseDate(v, date), item, sameDay, clock) == sameDay(Get(item, "dateArchived"), date)
    ensures ChooseDate(ChooseDate(v, date), "").range == AllTime
    ensures TruthyOpt(Get(item, "dateArchived")) ==>
              DateMatches(ChooseDate(ChooseDate(v, date), ""), item, sameDay, clock)
  {
  }

  /** A tab click: the tab changes, paging returns to page 1 and the selection is
      dropped. */
  function SwitchTab(v: View, tab: string): (r: View)
    ensures r.tab == tab && r.page == 1 && r.selected == []
    ensures r.search == v.search && r.date == v.date && r.range == v.range
  {
    v.(tab := tab, page := 1, selected := [])
  }

  /** The type tags the other pages archive under: their own archive handlers use
      "Terminal Fee", "Parking", "Bus Trip", "LostFound", "Tenant Lease" and
      "Report", and an approved deletion request uses its item type, one of
      "Terminal Fee", "Parking Ticket", "Bus Trip", "Lost & Found Item" and
      "Tenant Lease". */
  const StoredTags: set<string> :=
    {"Terminal Fee", "Parking", "Bus Trip", "LostFound", "Tenant Lease", "Report",
     "Parking Ticket", "Lost & Found Item"}

  /** As written, the "Tenant" and "Lost & Found" tabs match no tag any page stores,
      and the entries archived as "Parking", "LostFound" or "Tenant Lease" are listed
      under no tab but "All". */
  lemma TabsMissStoredTags(item: Doc, role: Option<string>)
    requires Get(item, "type").Some? && Get(item, "type").value.JStr?
    requires Get(item, "type").value.s in StoredTags
    ensures !TabMatches("Tenant", item) && !TabMatches("Lost & Found", item)
    ensures Get(item, "type").value.s in {"Parking", "LostFound", "Tenant Lease"} ==>
              forall i :: 1 <= i < |Tabs(role)| ==> !TabMatches(Tabs(role)[i], item)
  {
  }

  /** The tags each category tab is meant to gather. */
  function TabTags(tab: string): (r: set<string>)
    ensures r <= StoredTags
  {
    if tab == "Bus Trip" then {"Bus Trip"}
    else if tab == "Parking Ticket" then {"Parking", "Parking Ticket"}
    else if tab == "Tenant" then {"Tenant Lease"}
    else if tab == "Report" then {"Report"}
    else if tab == "Lost & Found" then {"LostFound", "Lost & Found Item"}
    else if tab == "Terminal Fee" then {"Terminal Fee"}
    else {}
  }

  /** The tab filter with each tab gathering its category's tags. */
  predicate CorrectedTabMatches(tab: string, item: Doc) {
    tab == AllTab || (Get(item, "type").Some? && Get(item, "type").value.JStr?
                      && Get(item, "type").value.s in TabTags(tab))
  }

  /** With the corrected filter every category tab of a non-ticket role can show
      something, and every stored entry is listed under exactly one category tab. */
  lemma CorrectedTabsCoverStoredTags(role: Option<string>, tag: string)
    requires role != Some(TicketRole)
    requires tag in StoredTags
    ensures forall i :: 1 <= i < 7 ==> TabTags(Tabs(role)[i]) != {}
    ensures exists i :: 1 <= i < 7 && tag in TabTags(Tabs(role)[i])
    ensures forall i, j :: 1 <= i < 7 && 1 <= j < 7 && tag in TabTags(Tabs(role)[i]) && tag in TabTags(Tabs(role)[j]) ==> i == j
    ensures forall item: Doc :: Get(item, "type") == Some(JStr(tag)) ==>
              exists i :: 1 <= i < 7 && CorrectedTabMatches(Tabs(role)[i], item)
  {
    CategoryTabsNonEmpty(role);
    var k := Category(tag);
    TagOnOneTab(role, tag);
    assert tag in TabTags(Tabs(role)[k]);
    forall item: Doc | Get(item, "type") == Some(JStr(tag))
      ensures exists i :: 1 <= i < 7 && CorrectedTabMatches(Tabs(role)[i], item)
    {
      assert CorrectedTabMatches(Tabs(role)[k], item);
    }
  }

  /** The category tab a stored tag belongs on. */
  function Category(tag: string): (k: int)
    ensures 1 <= k < 7
  {
    if tag == "Bus Trip" then 1
    else if tag == "Parking" || tag == "Parking Ticket" then 2
    else if tag == "Tenant Lease" then 3
    else if tag == "Report" then 4
    else if tag == "LostFound" || tag == "Lost & Found Item" then 5
    else 6
  }

  lemma CategoryTabsNonEmpty(role: Option<string>)
    requires role != Some(TicketRole)
    ensures forall i :: 1 <= i < 7 ==> TabTags(Tabs(role)[i]) != {}
  {
    var tabs := Tabs(role);
    assert "Bus Trip" in TabTags(tabs[1]) && "Parking" in TabTags(tabs[2]) && "Tenant Lease" in TabTags(tabs[3]);
    assert "Report" in TabTags(tabs[4]) && "LostFound" in TabTags(tabs[5]) && "Terminal Fee" in TabTags(tabs[6]);
  }

  lemma TagOnOneTab(role: Option<string>, tag: string)
    requires role != Some(TicketRole)
    requires tag in StoredTags
    ensures forall i :: 1 <= i < 7 ==> (tag in TabTags(Tabs(role)[i]) <==> i == Category(tag))
  {
    var tabs := Tabs(role);
    assert tabs == [AllTab, "Bus Trip", "Parking Ticket", "Tenant", "Report", "Lost & Found", "Terminal Fee"];
  }
}

=== FILE: bulk.dfy ===
/** Bulk actions over the selected ids of a table page. A role that may not delete
    files one deletion request per selected row instead. */
module Bulk {
  import opened Wrappers
  import opened Json
  import opened Calls
  import Rows

  /** `c` is the deletion request filed for the row `id` names: it carries the
      request's type, requester and reason, that row's description, and the row
      itself as its original data. */
  predicate FiledFor(c: Call, itemType: string, describe: Doc -> string, requestedBy: string, reason: string,
                     rows: seq<Doc>, id: Rows.Id) {
    && c.Post? && c.endpoint == DeletionRequests
    && Get(c.body, "itemType") == Some(JStr(itemType))
    && Get(c.body, "requestedBy") == Some(JStr(requestedBy))
    && Get(c.body, "reason") == Some(JStr(reason))
    && Rows.Find(rows, id).Some?
    && Get(c.body, "itemDescription") == Some(JStr(describe(rows[Rows.Find(rows, id).value])))
    && Get(c.body, "originalData") == Some(JObj(rows[Rows.Find(rows, id).value]))
  }

  /** `calls` are, in order, the requests filed for the selected ids that name a
      row, one each. */
  predicate FiledEach(calls: seq<Call>, ids: seq<Rows.Id>, rows: seq<Doc>, itemType: string,
                      describe: Doc -> string, requestedBy: string, reason: string) {
    && |calls| == |Rows.Found(ids, rows)|
    && forall i :: 0 <= i < |calls| ==>
         FiledFor(calls[i], itemType, describe, requestedBy, reason, rows, Rows.Found(ids, rows)[i])
  }

  /** A requester's bulk delete: for each selected id that names a row, in order, one
      deletion request carrying that row as its original data; ids with no row are
      skipped. */
  function RequestEach(ids: seq<Rows.Id>, rows: seq<Doc>, itemType: string, describe: Doc -> string,
                       requestedBy: string, reason: string): (calls: seq<Call>)
    ensures FiledEach(calls, ids, rows, itemType, describe, requestedBy, reason)
    decreases |ids|
  {
    if |ids| == 0 then []
    else
      var rest := RequestEach(ids[1..], rows, itemType, describe, requestedBy, reason);
      match Rows.Find(rows, ids[0])
      case None => rest
      case Some(k) =>
        var c := DeletionRequestPost(itemType, describe(rows[k]), requestedBy, rows[k], reason);
        FiledCons(c, rest, itemType, describe, requestedBy, reason, rows, ids[0], Rows.Found(ids[1..], rows));
        [c] + rest
  }

  lemma FiledCons(c: Call, rest: seq<Call>, itemType: string, describe: Doc -> string, requestedBy: string,
                  reason: string, rows: seq<Doc>, id: Rows.Id, found: seq<Rows.Id>)
    requires FiledFor(c, itemType, describe, requestedBy, reason, rows, id)
    requires |rest| == |found|
    requires forall i :: 0 <= i < |found| ==> FiledFor(rest[i], itemType, describe, requestedBy, reason, rows, found[i])
    ensures forall i :: 0 <= i < |found| + 1 ==>
              FiledFor(([c] + rest)[i], itemType, describe, requestedBy, reason, rows, ([id] + found)[i])
  {
    var all, ids := [c] + rest, [id] + found;
    forall i | 0 <= i < |found| + 1
      ensures FiledFor(all[i], itemType, describe, requestedBy, reason, rows, ids[i])
    {
      if i == 0 {
        assert all[0] == c && ids[0] == id;
      } else {
        Shifted(c, rest, id, found, i);
      }
    }
  }

  lemma Shifted(c: Call, rest: seq<Call>, id: Rows.Id, found: seq<Rows.Id>, i: int)
    requires 0 < i <= |found| == |rest|
    ensures ([c] + rest)[i] == rest[i - 1] && ([id] + found)[i] == found[i - 1]
  {
  }

  /** Requests filed in bulk are only deletion requests. */
  lemma FiledOnlyRequests(calls: seq<Call>, itemType: string, describe: Doc -> string, requestedBy: string,
                          reason: string, rows: seq<Doc>, ids: seq<Rows.Id>)
    requires |calls| == |ids|
    requires forall i :: 0 <= i < |calls| ==> FiledFor(calls[i], itemType, describe, requestedBy, reason, rows, ids[i])
    ensures OnlyDeletionRequests(calls) && DeletesNothing(calls)
  {
  }

  /** An administrator's bulk delete: one delete per selected id, found or not. */
  function DeleteEach(target: Endpoint, ids: seq<Rows.Id>): (calls: seq<Call>)
    ensures |calls| == |ids|
    ensures forall i :: 0 <= i < |ids| ==> calls[i] == Delete(target, ids[i])
  {
    seq(|ids|, i requires 0 <= i < |ids| => Delete(target, ids[i]))
  }

  /** handleBulkDelete of the module pages: the module's own role only files
      requests and never deletes; any other role deletes directly. */
  function BulkDelete(requester: bool, target: Endpoint, ids: seq<Rows.Id>, rows: seq<Doc>,
                      itemType: string, describe: Doc -> string, requestedBy: string, reason: string)
    : (calls: seq<Call>)
    ensures requester ==> DeletesNothing(calls) && OnlyDeletionRequests(calls)
                          && FiledEach(calls, ids, rows, itemType, describe, requestedBy, reason)
    ensures !requester ==> calls == DeleteEach(target, ids)
  {
    if requester then
      var calls := RequestEach(ids, rows, itemType, describe, requestedBy, reason);
      FiledOnlyRequests(calls, itemType, describe, requestedBy, reason, rows, Rows.Found(ids, rows));
      calls
    else DeleteEach(target, ids)
  }

  /** Bulk archive: for each selected id that names a row, the row's archive post and
      then its delete; ids with no row are skipped. */
  function ArchiveEach(ids: seq<Rows.Id>, rows: seq<Doc>, target: Endpoint, kind: string,
                       describe: Doc -> string, archivedBy: string): (calls: seq<Call>)
    ensures |calls| == 2 * |Rows.Found(ids, rows)|
    ensures forall i :: 0 <= i < |Rows.Found(ids, rows)| ==>
              ArchivedPair(calls[2 * i], calls[2 * i + 1], target, kind, rows, Rows.Found(ids, rows)[i])
    decreases |ids|
  {
    if |ids| == 0 then []
    else
      var rest := ArchiveEach(ids[1..], rows, target, kind, describe, archivedBy);
      match Rows.Find(rows, ids[0])
      case None => rest
      case Some(k) =>
        var pair := [ArchiveRow(kind, describe(rows[k]), rows[k], archivedBy), Delete(target, ids[0])];
        PairsCons(pair, rest, target, kind, rows, ids[0], Rows.Found(ids[1..], rows));
        pair + rest
  }

  /** `post` archives the row `id` names under `kind`, and `del` then deletes it. */
  predicate ArchivedPair(post: Call, del: Call, target: Endpoint, kind: string, rows: seq<Doc>, id: Rows.Id) {
    && post.Post? && post.endpoint == Archives
    && Get(post.body, "type") == Some(JStr(kind))
    && Rows.Find(rows, id).Some?
    && Get(post.body, "originalData") == Some(JObj(rows[Rows.Find(rows, id).value]))
    && del == Delete(target, id)
  }

  lemma PairsCons(pair: seq<Call>, rest: seq<Call>, target: Endpoint, kind: string, rows: seq<Doc>,
                  id: Rows.Id, found: seq<Rows.Id>)
    requires |pair| == 2 && ArchivedPair(pair[0], pair[1], target, kind, rows, id)
    requires |rest| == 2 * |found|
    requires forall i :: 0 <= i < |found| ==> ArchivedPair(rest[2 * i], rest[2 * i + 1], target, kind, rows, found[i])
    ensures forall i :: 0 <= i < |found| + 1 ==>
              ArchivedPair((pair + rest)[2 * i], (pair + rest)[2 * i + 1], target, kind, rows, ([id] + found)[i])
  {
    var all, ids := pair + rest, [id] + found;
    forall i | 0 <= i < |found| + 1
      ensures ArchivedPair(all[2 * i], all[2 * i + 1], target, kind, rows, ids[i])
    {
      if i == 0 {
        assert all[0] == pair[0] && all[1] == pair[1] && ids[0] == id;
      } else {
        var j := i - 1;
        var p, d := rest[2 * j], rest[2 * j + 1];
        assert ArchivedPair(p, d, target, kind, rows, found[j]);
        assert all[2 * i] == p && all[2 * i + 1] == d && ids[i] == found[j];
      }
    }
  }
}

=== FILE: bus_trips.dfy ===
/** The bus-trips page: the new-trip form and its template routes, departure, the
    list filter and stat cards, bulk delete, archive and the CSV export. Rows carry
    the backend's `_id` copied into `id`. */
module BusTrips {
  import opened Wrappers
  import opened Json
  import opened Text
  import opened Calls
  import Rows
  import Bulk
  import Csv

  // ---------------------------------------------------------------------
  // Templates and routes
  // ---------------------------------------------------------------------

  /** The companies whose route tables are merged, in merge order. */
  const CompanyKeys: seq<string> := ["dindo", "alga", "ceres", "lizamae"]

  /** TEMPLATE_ROUTES: the companies' tables spread one after the other, so a later
      company's route wins for a template number two companies share. */
  function MergeRoutes(keys: seq<string>, byCompany: map<string, map<string, string>>): (r: map<string, string>)
    ensures forall t :: t in r <==> exists c :: c in keys && c in byCompany && t in byCompany[c]
    decreases |keys|
  {
    if |keys| == 0 then map[]
    else
      var last := keys[|keys| - 1];
      var before := MergeRoutes(keys[..|keys| - 1], byCompany);
      assert forall c :: c in keys <==> c in keys[..|keys| - 1] || c == last;
      before + (if last in byCompany then byCompany[last] else map[])
  }

  /** A template number only one company lists keeps that company's route in the
      merged table. */
  lemma {:induction false} MergeKeepsUnique(keys: seq<string>, byCompany: map<string, map<string, string>>,
                                            c: string, t: string)
    requires c in keys && c in byCompany && t in byCompany[c]
    requires forall d :: d in keys && d in byCompany && d != c ==> t !in byCompany[d]
    ensures t in MergeRoutes(keys, byCompany) && MergeRoutes(keys, byCompany)[t] == byCompany[c][t]
    decreases |keys|
  {
    var last := keys[|keys| - 1];
    var init := keys[..|keys| - 1];
    if last == c {
      assert MergeRoutes(keys, byCompany) == MergeRoutes(init, byCompany) + byCompany[c];
    } else {
      assert c in init by { assert forall d :: d in keys ==> d in init || d == last; }
      MergeKeepsUnique(init, byCompany, c, t);
      assert forall d :: d in init ==> d in keys;
    }
  }

  /** The new-trip form. */
  datatype TripForm = TripForm(templateNo: string, route: string, company: string, time: string, date: string,
                               status: string)

  /** handleOpenAdd: a pending Dindo trip at the given time and date. */
  function OpenAdd(time: string, date: string): (f: TripForm)
    ensures f.templateNo == "" && f.route == "" && f.company == "Dindo" && f.status == "Pending"
  {
    TripForm("", "", "Dindo", time, date, "Pending")
  }

  /** The company buttons: switching company clears the template and its route. */
  function SwitchCompany(f: TripForm, company: string): (r: TripForm)
    ensures r.company == company && r.templateNo == "" && r.route == ""
    ensures r.time == f.time && r.date == f.date && r.status == f.status
  {
    f.(company := company, templateNo := "", route := "")
  }

  /** handleTemplateChange: the route is filled from the merged table, or left
      empty for a number it does not hold. */
  function ChooseTemplate(f: TripForm, templateNo: string, routes: map<string, string>): (r: TripForm)
    ensures r.templateNo == templateNo && r.company == f.company
    ensures templateNo in routes ==> r.route == routes[templateNo]
    ensures templateNo !in routes ==> r.route == ""
  {
    f.(templateNo := templateNo, route := if templateNo in routes then routes[templateNo] else "")
  }

  /** The templates the selector offers: those of the chosen company's table, looked
      up by the company's lower-cased name. */
  function TemplatesFor(company: string, byCompany: map<string, map<string, string>>): (r: set<string>)
    ensures Lower(company) !in byCompany ==> r == {}
    ensures Lower(company) in byCompany ==> r == byCompany[Lower(company)].Keys
  {
    if Lower(company) in byCompany then byCompany[Lower(company)].Keys else {}
  }

  /** Picking a company's own template fills in that company's route, as long as no
      other company lists the same number. */
  lemma TemplateFillsOwnRoute(f: TripForm, company: string, t: string, byCompany: map<string, map<string, string>>)
    requires Lower(company) in CompanyKeys && t in TemplatesFor(company, byCompany)
    requires forall d :: d in CompanyKeys && d in byCompany && d != Lower(company) ==> t !in byCompany[d]
    ensures ChooseTemplate(SwitchCompany(f, company), t, MergeRoutes(CompanyKeys, byCompany)).route
            == byCompany[Lower(company)][t]
  {
    MergeKeepsUnique(CompanyKeys, byCompany, Lower(company), t);
  }

  // ---------------------------------------------------------------------
  // Departure
  // ---------------------------------------------------------------------

  /** confirmLogout: with a row and a ticket reference, the trip is updated to paid
      with that reference and the departure time; otherwise nothing is sent. */
  function Depart(row: Option<Doc>, ticketRef: string, clock: string): (calls: seq<Call>)
    ensures row.None? || ticketRef == "" <==> calls == []
    ensures calls != [] ==>
              && |calls| == 1 && calls[0].Put? && calls[0].endpoint == BusTrips
              && calls[0].id == Show(Get(row.value, "id"))
              && calls[0].body.Keys == {"ticketReferenceNo", "status", "departureTime"}
              && Get(calls[0].body, "status") == Some(JStr("Paid"))
              && Get(calls[0].body, "ticketReferenceNo") == Some(JStr(ticketRef))
              && Get(calls[0].body, "departureTime") == Some(JStr(clock))
  {
    if row.None? || ticketRef == "" then []
    else [Put(BusTrips, Show(Get(row.value, "id")), DepartureChanges(ticketRef, clock))]
  }

  function DepartureChanges(ticketRef: string, clock: string): Doc {
    map["ticketReferenceNo" := JStr(ticketRef), "status" := JStr("Paid"), "departureTime" := JStr(clock)]
  }

  /** The list after a successful departure: the rows with the departed trip's id
      take on the changes, every other row stays as it was. */
  function AfterDepart(records: seq<Doc>, id: Option<Json>, ticketRef: string, clock: string): (r: seq<Doc>)
    ensures |r| == |records|
    ensures forall i :: 0 <= i < |records| && Get(records[i], "id") != id ==> r[i] == records[i]
    ensures forall i :: 0 <= i < |records| && Get(records[i], "id") == id ==>
              r[i] == ApplyPatch(records[i], DepartureChanges(ticketRef, clock)) && IsPaid(r[i])
  {
    seq(|records|, i requires 0 <= i < |records| =>
      if Get(records[i], "id") == id then ApplyPatch(records[i], DepartureChanges(ticketRef, clock)) else records[i])
  }

  /** The row as the list shows it after a successful departure: paid, and no
      longer pending. */
  lemma DepartedIsPaid(row: Doc, ticketRef: string, clock: string)
    ensures IsPaid(ApplyPatch(row, DepartureChanges(ticketRef, clock)))
    ensures !IsPending(ApplyPatch(row, DepartureChanges(ticketRef, clock)))
  {
  }

  // ---------------------------------------------------------------------
  // List filter and stat cards
  // ---------------------------------------------------------------------

  /** `templateNo || templateno || ""`. */
  function TemplateOf(t: Doc): (r: string)
    ensures FieldTruthy(t, "templateNo") && t["templateNo"].JStr? ==> r == t["templateNo"].s
    ensures !FieldTruthy(t, "templateNo") && FieldTruthy(t, "templateno") && t["templateno"].JStr? ==> r == t["templateno"].s
  {
    EitherStr(t, "templateNo", "templateno")
  }

  predicate Listed(search: string, date: string, company: string, t: Doc,
                   sameDay: (Option<Json>, string) -> bool) {
    && (ContainsIgnoreCase(TemplateOf(t), search) || ContainsIgnoreCase(StrOr(t, "route", ""), search))
    && (company == "" || Get(t, "company") == Some(JStr(company)))
    && (date == "" || sameDay(Get(t, "date"), date))
  }

  /** Filtering throws on `t`: `toLowerCase` is called on the template number
      when it is truthy, and on the route whenever the template does not match
      the search; on anything but a string it throws. */
  predicate FilterThrows(search: string, t: Doc) {
    var template := OrElse(Get(t, "templateNo"), Get(t, "templateno"));
    || (TruthyOpt(template) && !IsStr(template))
    || (!ContainsIgnoreCase(TemplateOf(t), search) && !IsStr(Get(t, "route")))
  }

  /** The page's test, as a function of the filter settings. */
  function ListedBy(search: string, date: string, company: string, sameDay: (Option<Json>, string) -> bool): Doc -> bool {
    t => Listed(search, date, company, t, sameDay)
  }

  /** The listed trips, in stored order; None when filtering throws on some trip, which leaves
      the page without a list. */
  function Filtered(records: seq<Doc>, search: string, date: string, company: string,
                    sameDay: (Option<Json>, string) -> bool): (r: Option<seq<Doc>>)
    ensures r.None? <==> exists i :: 0 <= i < |records| && FilterThrows(search, records[i])
    ensures r.Some? ==> r.value == Rows.Where(records, ListedBy(search, date, company, sameDay))
    ensures r.Some? ==> forall t :: t in r.value <==> t in records && Listed(search, date, company, t, sameDay)
  {
    Rows.TryWhere(records, t => FilterThrows(search, t), ListedBy(search, date, company, sameDay))
  }

  /** The route is read only when the template misses: with an empty search a
      trip without a route is listed like any other, while a search its template
      does not match breaks the list. */
  lemma MissingRouteBreaksMissedSearch(t: Doc, search: string)
    requires Get(t, "route").None?
    requires !TruthyOpt(OrElse(Get(t, "templateNo"), Get(t, "templateno")))
             || IsStr(OrElse(Get(t, "templateNo"), Get(t, "templateno")))
    ensures !FilterThrows("", t)
    ensures FilterThrows(search, t) <==> !ContainsIgnoreCase(TemplateOf(t), search)
  {
    EmptySearchMatches(Lower(TemplateOf(t)));
  }

  /** Choosing a company lists only that company's trips. */
  lemma CompanyFilterExact(records: seq<Doc>, search: string, date: string, company: string,
                           sameDay: (Option<Json>, string) -> bool)
    requires company != ""
    ensures Filtered(records, search, date, company, sameDay).Some? ==>
              forall t :: t in Filtered(records, search, date, company, sameDay).value ==> Get(t, "company") == Some(JStr(company))
  {
  }

  /** The company choices: each distinct company value of the list. */
  function Companies(records: seq<Doc>): (r: set<Option<Json>>)
    ensures forall i :: 0 <= i < |records| ==> Get(records[i], "company") in r
    ensures forall c :: c in r ==> exists i :: 0 <= i < |records| && Get(records[i], "company") == c
  {
    set i | 0 <= i < |records| :: Get(records[i], "company")
  }

  predicate IsPaid(t: Doc) { Get(t, "status") == Some(JStr("Paid")) }
  predicate IsPending(t: Doc) { Get(t, "status") == Some(JStr("Pending")) }

  /** `Number(price) || 75`: the price as `Number` reads it when that is a
      non-zero number; NaN and 0 count as the standard 75. A number is taken as
      it is, and so is a numeral text, with or without white space around it. */
  function TripPrice(t: Doc): (r: int)
    ensures Get(t, "price").None? ==> r == 75
    ensures NumberOf(Get(t, "price")).None? || NumberOf(Get(t, "price")) == Some(0) ==> r == 75
    ensures forall n: int :: n != 0 && (Get(t, "price") == Some(JNum(n)) || Get(t, "price") == Some(JStr(IntText(n))))
              ==> r == n
    ensures r != 75 ==> NumberOf(Get(t, "price")) == Some(r)
  {
    NumberOfAnyIntText(Get(t, "price"));
    match NumberOf(Get(t, "price"))
    case Some(n) => if n != 0 then n else 75
    case None => 75
  }

  /** The revenue card: the prices of the paid trips. */
  function Revenue(listed: seq<Doc>): (r: int)
    ensures (forall i :: 0 <= i < |listed| ==> !IsPaid(listed[i])) ==> r == 0
    ensures (forall i :: 0 <= i < |listed| && IsPaid(listed[i]) ==> TripPrice(listed[i]) >= 0) ==> r >= 0
    decreases |listed|
  {
    if |listed| == 0 then 0
    else (if IsPaid(listed[0]) then TripPrice(listed[0]) else 0) + Revenue(listed[1..])
  }

  /** The sum of the trips' prices. */
  function PriceSum(rows: seq<Doc>): int
    decreases |rows|
  {
    if |rows| == 0 then 0 else TripPrice(rows[0]) + PriceSum(rows[1..])
  }

  /** The revenue is the paid trips, kept in order, summed by price: the page's
      `filter` and then `reduce`. */
  lemma {:induction false} RevenueOverPaid(listed: seq<Doc>)
    ensures Revenue(listed) == PriceSum(Rows.Where(listed, IsPaid))
    decreases |listed|
  {
    if |listed| > 0 {
      RevenueOverPaid(listed[1..]);
      var rest := Rows.Where(listed[1..], IsPaid);
      assert Rows.Where(listed, IsPaid) == (if IsPaid(listed[0]) then [listed[0]] else []) + rest;
      if IsPaid(listed[0]) {
        assert ([listed[0]] + rest)[1..] == rest;
      } else {
        assert [] + rest == rest;
      }
    }
  }

  /** With no prices recorded, every paid trip earns the standard 75. */
  lemma {:induction false} UnpricedRevenue(listed: seq<Doc>)
    requires forall i :: 0 <= i < |listed| ==> "price" !in listed[i]
    ensures Revenue(listed) == 75 * |Rows.Where(listed, IsPaid)|
    decreases |listed|
  {
    if |listed| > 0 {
      UnpricedRevenue(listed[1..]);
      assert TripPrice(listed[0]) == 75;
      assert |Rows.Where(listed, IsPaid)| == (if IsPaid(listed[0]) then 1 else 0) + |Rows.Where(listed[1..], IsPaid)|;
    }
  }

  /** The paid and pending cards never add up to more than the trips listed. */
  lemma PaidAndPendingWithinTotal(listed: seq<Doc>)
    ensures |Rows.Where(listed, IsPaid)| + |Rows.Where(listed, IsPending)| <= |listed|
  {
    Rows.DisjointCounts(listed, IsPaid, IsPending);
  }

  // ---------------------------------------------------------------------
  // Bulk delete, archive, export
  // ---------------------------------------------------------------------

  /** handleBulkDelete: the bus role files one request per selected trip it still
      lists; any other role deletes every selected id. */
  function BulkDelete(role: string, ids: seq<Rows.Id>, records: seq<Doc>): (calls: seq<Call>)
    ensures role == "bus" ==> DeletesNothing(calls)
    ensures role == "bus" ==>
              Bulk.FiledEach(calls, ids, records, "Bus Trip", Describe, "Bus Admin", "Bulk deletion request")
    ensures role != "bus" ==>
              |calls| == |ids| && forall i :: 0 <= i < |ids| ==> calls[i] == Delete(BusTrips, ids[i])
  {
    Bulk.BulkDelete(role == "bus", BusTrips, ids, records, "Bus Trip", Describe, "Bus Admin", "Bulk deletion request")
  }

  /** A bulk deletion request's description of a trip. */
  function Describe(t: Doc): string {
    "Template: " + Show(OrElse(Get(t, "templateNo"), Get(t, "templateno"))) + " - " + Show(Get(t, "route"))
  }

  /** confirmArchive as written: the description reads the lower-case `templateno`
      field, which the page's own form never writes. The delete follows a
      successful archive post, addressed by the row's `id` with no check. */
  function ArchiveTripAsWritten(row: Doc, role: string, archiveOk: bool): (calls: seq<Call>)
    ensures |calls| >= 1 && calls[0].Post? && calls[0].endpoint == Archives
    ensures Get(calls[0].body, "type") == Some(JStr("Bus Trip"))
    ensures Get(calls[0].body, "originalData") == Some(JObj(row))
    ensures Get(calls[0].body, "archivedBy") == Some(JStr(role))
    ensures Get(calls[0].body, "description") ==
              Some(JStr("Trip: " + Show(Get(row, "templateno")) + " - " + Show(Get(row, "route"))))
    ensures |calls| == 2 <==> archiveOk
    ensures |calls| == 2 ==> calls[1] == Delete(BusTrips, Show(Get(row, "id")))
  {
    ConfirmArchive(IdLast, ArchiveRow("Bus Trip", "Trip: " + Show(Get(row, "templateno")) + " - " + Show(Get(row, "route")), row, role),
                   BusTrips, Some(Show(Get(row, "id"))), archiveOk)
  }

  /** A trip made by the page's form is archived as "Trip: undefined - …". */
  lemma ArchiveLosesTemplate(role: string)
    ensures var row := map["id" := JStr("t1"), "templateNo" := JStr("T-01"), "route" := JStr("Iloilo")];
            Get(ArchiveTripAsWritten(row, role, true)[0].body, "description") == Some(JStr("Trip: undefined - Iloilo"))
  {
    var row := map["id" := JStr("t1"), "templateNo" := JStr("T-01"), "route" := JStr("Iloilo")];
    assert Get(row, "templateno") == None;
    assert "Trip: " + Show(Get(row, "templateno")) + " - " + Show(Get(row, "route")) == "Trip: undefined - Iloilo";
  }

  /** The description with the template number read the way the rest of the page
      reads it. */
  function ArchiveDescription(row: Doc): string {
    "Trip: " + TemplateOf(row) + " - " + Show(Get(row, "route"))
  }

  /** confirmArchive with the template number read through `templateNo || templateno`. */
  function ArchiveTrip(row: Doc, role: string, archiveOk: bool): (calls: seq<Call>)
    ensures |calls| >= 1 && calls[0] == ArchiveRow("Bus Trip", ArchiveDescription(row), row, role)
    ensures |calls| == 2 <==> archiveOk
    ensures |calls| == 2 ==> calls[1] == Delete(BusTrips, Show(Get(row, "id")))
  {
    ConfirmArchive(IdLast, ArchiveRow("Bus Trip", ArchiveDescription(row), row, role),
                   BusTrips, Some(Show(Get(row, "id"))), archiveOk)
  }

  /** The corrected description carries the template number under either spelling. */
  lemma ArchiveKeepsTemplate(row: Doc, n: string)
    requires Get(row, "templateNo") == Some(JStr(n)) || (!FieldTruthy(row, "templateNo") && Get(row, "templateno") == Some(JStr(n)))
    requires n != ""
    ensures ArchiveDescription(row)[6..6 + |n|] == n
  {
  }

  const ExportHeaders: seq<string> := ["Template No", "Ticket Ref", "Route", "Price", "Time", "Departure", "Date", "Company", "Status"]

  /** One exported line: every missing text field shows "-"; the price, times and
      date are formatted by the given locale functions. The exported file
      is `Csv.Export` of the listed rows with these headers and cells. */
  function ExportCells(t: Doc, money: Option<Json> -> string, clockText: Option<Json> -> string,
                       dateText: Option<Json> -> string): (r: seq<string>)
    ensures |r| == |ExportHeaders|
    ensures !FieldTruthy(t, "templateNo") && !FieldTruthy(t, "templateno") ==> r[0] == "-"
    ensures !FieldTruthy(t, "ticketReferenceNo") ==> r[1] == "-"
    ensures !FieldTruthy(t, "route") ==> r[2] == "-"
    ensures !FieldTruthy(t, "company") ==> r[7] == "-"
    ensures !FieldTruthy(t, "status") ==> r[8] == "-"
  {
    [ Show(OrElse(OrElse(Get(t, "templateNo"), Get(t, "templateno")), Some(JStr("-")))),
      Show(OrElse(Get(t, "ticketReferenceNo"), Some(JStr("-")))),
      Show(OrElse(Get(t, "route"), Some(JStr("-")))),
      money(OrElse(Get(t, "price"), Some(JNum(75)))),
      clockText(Get(t, "time")),
      clockText(Get(t, "departureTime")),
      if FieldTruthy(t, "date") then dateText(Get(t, "date")) else "-",
      Show(OrElse(Get(t, "company"), Some(JStr("-")))),
      Show(OrElse(Get(t, "status"), Some(JStr("-")))) ]
  }
}

=== FILE: calls.dfy ===
/** The requests the pages send to the backend, as data. A handler's observable
    effect is the list of calls it makes, in order. */
module Calls {
  import opened Wrappers
  import opened Json

  type Id = string

  /** The REST collections the pages address. */
  datatype Endpoint =
    | Archives
    | DeletionRequests
    | ParkingTickets
    | TerminalFees
    | BusTrips
    | LostFoundItems
    | Reports
    | Tenants
    | Waitlist

  datatype Call =
    | Post(endpoint: Endpoint, body: Doc)
    | Put(endpoint: Endpoint, id: Id, body: Doc)
    | Delete(endpoint: Endpoint, id: Id)

  /** The body of an archive POST: `{ type, description, originalData, archivedBy }`;
      a field whose value is `undefined` is left out. */
  function ArchivePost(kind: Option<Json>, description: Option<Json>, original: Option<Json>,
                       archivedBy: string): (c: Call)
    ensures c.Post? && c.endpoint == Archives
    ensures c.body.Keys <= {"type", "description", "originalData", "archivedBy"}
    ensures Get(c.body, "type") == kind && Get(c.body, "originalData") == original
    ensures Get(c.body, "description") == description
    ensures Get(c.body, "archivedBy") == Some(JStr(archivedBy))
  {
    var body := SetField(SetField(SetField(map["archivedBy" := JStr(archivedBy)],
                                           "type", kind), "description", description), "originalData", original);
    Post(Archives, body)
  }

  /** An archive POST made by a page for one of its own rows. */
  function ArchiveRow(kind: string, description: string, row: Doc, archivedBy: string): (c: Call)
    ensures c.Post? && c.endpoint == Archives
    ensures Get(c.body, "type") == Some(JStr(kind))
    ensures Get(c.body, "originalData") == Some(JObj(row))
    ensures Get(c.body, "description") == Some(JStr(description))
    ensures Get(c.body, "archivedBy") == Some(JStr(archivedBy))
  {
    ArchivePost(Some(JStr(kind)), Some(JStr(description)), Some(JObj(row)), archivedBy)
  }

  /** The body of a deletion-request POST. */
  function DeletionRequestPost(itemType: string, description: string, requestedBy: string,
                               original: Doc, reason: string): (c: Call)
    ensures c.Post? && c.endpoint == DeletionRequests
    ensures Get(c.body, "itemType") == Some(JStr(itemType))
    ensures Get(c.body, "itemDescription") == Some(JStr(description))
    ensures Get(c.body, "originalData") == Some(JObj(original))
    ensures Get(c.body, "reason") == Some(JStr(reason))
    ensures Get(c.body, "requestedBy") == Some(JStr(requestedBy))
  {
    Post(DeletionRequests, map["itemType" := JStr(itemType), "itemDescription" := JStr(description),
                               "requestedBy" := JStr(requestedBy), "originalData" := JObj(original),
                               "reason" := JStr(reason)])
  }

  /** The calls in `calls` that would remove a record from a collection. */
  predicate DeletesNothing(calls: seq<Call>) {
    forall i :: 0 <= i < |calls| ==> !calls[i].Delete?
  }

  /** Every call in `calls` is a deletion-request POST. */
  predicate OnlyDeletionRequests(calls: seq<Call>) {
    forall i :: 0 <= i < |calls| ==> calls[i].Post? && calls[i].endpoint == DeletionRequests
  }

  /** When a page's archive handler checks the row's id: before any request, after
      the archive post, or not at all (the delete then follows whatever the archive
      reply said). */
  datatype IdCheck = IdFirst | IdLast | Unchecked

  /** confirmArchive: the archive post, then the delete of the row. An id check that
      fails stops the handler where it stands; with a check, the delete is sent only
      after a successful archive reply. */
  function ConfirmArchive(check: IdCheck, post: Call, target: Endpoint, id: Option<Id>, archiveOk: bool)
    : (calls: seq<Call>)
    ensures check == IdFirst && id.None? ==> calls == []
    ensures calls != [] ==> calls[0] == post
    ensures |calls| <= 2
    ensures |calls| == 2 ==> id.Some? && calls[1] == Delete(target, id.value)
    ensures check != Unchecked && !archiveOk ==> |calls| <= 1
    ensures id.Some? && (archiveOk || check == Unchecked) ==> |calls| == 2
  {
    match check
    case IdFirst =>
      if id.None? then [] else [post] + (if archiveOk then [Delete(target, id.value)] else [])
    case IdLast =>
      [post] + (if archiveOk && id.Some? then [Delete(target, id.value)] else [])
    case Unchecked =>
      [post] + (if id.Some? then [Delete(target, id.value)] else [])
  }
}

=== FILE: csv.dfy ===
/** The hand-written CSV export shared by the table pages. Every data cell is
    wrapped in double quotes with each inner quote doubled (rule 7 of section 2
    of RFC 4180); cells are joined by "," and lines by "\n". The header line is
    the export object's keys joined by "," without quoting. */
module Csv {
  import opened Wrappers

  /** `s.replace(/"/g, '""')`. */
  function EscapeQuotes(s: string): (r: string)
    ensures |r| >= |s|
  {
    if |s| == 0 then ""
    else (if s[0] == '"' then "\"\"" else [s[0]]) + EscapeQuotes(s[1..])
  }

  /** `"${String(val).replace(/"/g, '""')}"` for a value already turned into text. */
  function QuoteCell(s: string): string {
    "\"" + EscapeQuotes(s) + "\""
  }

  /** Reads the rest of a quoted cell (after its opening quote): a doubled quote
      stands for one quote and a single quote ends the cell. Returns the cell's text
      and what follows the closing quote. */
  function ReadQuoted(s: string): (r: Option<(string, string)>)
    ensures r.Some? ==> |r.value.1| < |s|
  {
    if |s| == 0 then None
    else if s[0] == '"' then
      if |s| >= 2 && s[1] == '"' then
        match ReadQuoted(s[2..])
        case None => None
        case Some(p) => Some(("\"" + p.0, p.1))
      else
        Some(("", s[1..]))
    else
      match ReadQuoted(s[1..])
      case None => None
      case Some(p) => Some(([s[0]] + p.0, p.1))
  }

  /** The text of a single quoted cell, if `q` is exactly one. */
  function UnquoteCell(q: string): Option<string> {
    if |q| >= 1 && q[0] == '"' then
      match ReadQuoted(q[1..])
      case Some(p) => if p.1 == "" then Some(p.0) else None
      case None => None
    else None
  }

  /** Reading an escaped text followed by the closing quote gives the text back and
      stops at the closing quote, provided the next character is not a quote. */
  lemma {:induction false} ReadEscaped(s: string, t: string)
    requires |t| == 0 || t[0] != '"'
    ensures ReadQuoted(EscapeQuotes(s) + "\"" + t) == Some((s, t))
    decreases |s|
  {
    var input := EscapeQuotes(s) + "\"" + t;
    if |s| == 0 {
      assert input == "\"" + t;
      assert input[1..] == t;
    } else if s[0] == '"' {
      ReadEscaped(s[1..], t);
      assert input == "\"\"" + (EscapeQuotes(s[1..]) + "\"" + t);
      assert input[2..] == EscapeQuotes(s[1..]) + "\"" + t;
      assert "\"" + s[1..] == s;
    } else {
      ReadEscaped(s[1..], t);
      assert input == [s[0]] + (EscapeQuotes(s[1..]) + "\"" + t);
      assert input[1..] == EscapeQuotes(s[1..]) + "\"" + t;
      assert [s[0]] + s[1..] == s;
    }
  }

  /** Quoting a cell and reading it back gives the original text, whatever quotes,
      commas or line breaks it contains. */
  lemma UnquoteQuote(s: string)
    ensures UnquoteCell(QuoteCell(s)) == Some(s)
  {
    ReadEscaped(s, "");
    assert QuoteCell(s)[1..] == EscapeQuotes(s) + "\"" + "";
  }

  /** `cells.map(quote).join(',')`. */
  function JoinRow(cells: seq<string>): string {
    if |cells| == 0 then ""
    else if |cells| == 1 then QuoteCell(cells[0])
    else QuoteCell(cells[0]) + "," + JoinRow(cells[1..])
  }

  /** Splits a line of quoted cells separated by commas. */
  function ParseRow(line: string): Option<seq<string>>
    decreases |line|
  {
    if |line| == 0 || line[0] != '"' then None
    else
      match ReadQuoted(line[1..])
      case None => None
      case Some(p) =>
        if p.1 == "" then Some([p.0])
        else if p.1[0] == ',' then
          match ParseRow(p.1[1..])
          case None => None
          case Some(rest) => Some([p.0] + rest)
        else None
  }

  /** A quoted data line splits back into exactly its cells. */
  lemma {:induction false} ParseJoinRow(cells: seq<string>)
    requires |cells| >= 1
    ensures ParseRow(JoinRow(cells)) == Some(cells)
    decreases |cells|
  {
    var line := JoinRow(cells);
    if |cells| == 1 {
      FirstCell(cells[0], "");
      assert line == QuoteCell(cells[0]) + "";
      assert [cells[0]] == cells;
    } else {
      var tail := "," + JoinRow(cells[1..]);
      FirstCell(cells[0], tail);
      assert line == QuoteCell(cells[0]) + tail;
      assert tail[1..] == JoinRow(cells[1..]);
      ParseJoinRow(cells[1..]);
      assert [cells[0]] + cells[1..] == cells;
    }
  }

  /** The first quoted cell of a line reads back as its text, followed by the rest
      of the line. */
  lemma FirstCell(cell: string, t: string)
    requires |t| == 0 || t[0] != '"'
    ensures |QuoteCell(cell) + t| > 0 && (QuoteCell(cell) + t)[0] == '"'
    ensures ReadQuoted((QuoteCell(cell) + t)[1..]) == Some((cell, t))
  {
    ReadEscaped(cell, t);
    assert (QuoteCell(cell) + t)[1..] == EscapeQuotes(cell) + "\"" + t;
  }

  /** `parts.join(sep)`. */
  function Join(parts: seq<string>, sep: string): string {
    if |parts| == 0 then ""
    else if |parts| == 1 then parts[0]
    else parts[0] + sep + Join(parts[1..], sep)
  }

  /** The data lines of a table: each row's cells quoted and joined by ",". A
      line of a row with at least one cell splits back into exactly that row. */
  function DataLines(rows: seq<seq<string>>): (r: seq<string>)
    ensures |r| == |rows|
    ensures forall i :: 0 <= i < |rows| && |rows[i]| >= 1 ==> ParseRow(r[i]) == Some(rows[i])
  {
    ParseJoinRows(rows);
    seq(|rows|, i requires 0 <= i < |rows| => JoinRow(rows[i]))
  }

  lemma ParseJoinRows(rows: seq<seq<string>>)
    ensures forall i :: 0 <= i < |rows| && |rows[i]| >= 1 ==> ParseRow(JoinRow(rows[i])) == Some(rows[i])
  {
    forall i | 0 <= i < |rows| && |rows[i]| >= 1
      ensures ParseRow(JoinRow(rows[i])) == Some(rows[i])
    {
      ParseJoinRow(rows[i]);
    }
  }

  /** The file content: the header line, "\n", then the data lines joined by "\n".
      Exporting an empty table is refused. */
  function CsvContent(headers: seq<string>, rows: seq<seq<string>>): (r: Option<string>)
    ensures |rows| == 0 <==> r.None?
    ensures r.Some? ==> r.value == Join(headers, ",") + "\n" + Join(DataLines(rows), "\n")
  {
    if |rows| == 0 then None
    else Some(Join(headers, ",") + "\n" + Join(DataLines(rows), "\n"))
  }

  /** A page's export of its listed rows, `cells` turning one row into its
      cells: refused for an empty list; otherwise the header line and then one
      line per listed row, in order, each splitting back into exactly that
      row's cells. */
  function Export<T>(headers: seq<string>, listed: seq<T>, cells: T -> seq<string>): (r: Option<string>)
    ensures r.None? <==> |listed| == 0
    ensures r.Some? ==> exists lines: seq<string> ::
              && r.value == Join(headers, ",") + "\n" + Join(lines, "\n")
              && |lines| == |listed|
              && forall i :: 0 <= i < |listed| && |cells(listed[i])| >= 1 ==> ParseRow(lines[i]) == Some(cells(listed[i]))
  {
    var rows := seq(|listed|, i requires 0 <= i < |listed| => cells(listed[i]));
    var lines := DataLines(rows);
    assert forall i :: 0 <= i < |listed| && |cells(listed[i])| >= 1 ==> ParseRow(lines[i]) == Some(cells(listed[i]));
    CsvContent(headers, rows)
  }
}

=== FILE: deletion_page.dfy ===
/** The superadmin's deletion-request console: approving a request archives the
    item's original data (when the request carries any) and then records the
    verdict; denying only records the verdict. A handler is modelled by the list
    of calls it sends. */
module DeletionPage {
  import opened Wrappers
  import opened Json
  import opened Calls
  import Rows
  import ArchiveApi

  /** The remark every bulk approval carries. */
  const BulkRemark := "Bulk Approved via Superadmin Console"

  /** The verdict body `{ action, adminRemarks }`. */
  function Verdict(action: string, remarks: string): Doc {
    map["action" := JStr(action), "adminRemarks" := JStr(remarks)]
  }

  /** The archive post made for a request before it is approved. */
  function ArchiveOf(req: Doc, role: string): Call {
    ArchivePost(Get(req, "itemType"), Get(req, "itemDescription"), Get(req, "originalData"), role)
  }

  /** The calls of approving one request with the given remarks. */
  function ApproveCalls(req: Doc, remarks: string, role: string): (calls: seq<Call>)
    ensures 1 <= |calls| <= 2
    ensures calls[|calls| - 1] == Put(DeletionRequests, Rows.RowId(req), Verdict("approve", remarks))
    ensures |calls| == 2 <==> FieldTruthy(req, "originalData")
    ensures |calls| == 2 ==> calls[0] == ArchiveOf(req, role)
  {
    (if FieldTruthy(req, "originalData") then [ArchiveOf(req, role)] else [])
      + [Put(DeletionRequests, Rows.RowId(req), Verdict("approve", remarks))]
  }

  /** handleApprove: nothing without a chosen request and non-empty remarks;
      otherwise the request's original data, when truthy, is posted to the
      archive first, and the approval verdict with the remarks is sent last. No
      call deletes anything directly. */
  function Approve(chosen: Option<Doc>, remarks: string, role: string): (calls: seq<Call>)
    ensures calls == [] <==> chosen.None? || remarks == ""
    ensures calls != [] ==>
              && calls[|calls| - 1] == Put(DeletionRequests, Rows.RowId(chosen.value), Verdict("approve", remarks))
              && (|calls| == 2 <==> FieldTruthy(chosen.value, "originalData"))
              && (|calls| == 2 ==> calls[0] == ArchiveOf(chosen.value, role))
              && |calls| <= 2
    ensures DeletesNothing(calls)
  {
    if chosen.None? || remarks == "" then [] else ApproveCalls(chosen.value, remarks, role)
  }

  /** handleDeny: nothing without a chosen request and non-empty remarks;
      otherwise the single deny verdict. Nothing is archived. */
  function Deny(chosen: Option<Doc>, remarks: string): (calls: seq<Call>)
    ensures calls == [] <==> chosen.None? || remarks == ""
    ensures calls != [] ==> calls == [Put(DeletionRequests, Rows.RowId(chosen.value), Verdict("deny", remarks))]
    ensures forall i :: 0 <= i < |calls| ==> calls[i].endpoint != Archives
  {
    if chosen.None? || remarks == "" then []
    else [Put(DeletionRequests, Rows.RowId(chosen.value), Verdict("deny", remarks))]
  }

  /** handleBulkApprove: each selected id in turn; an id with no matching request
      is skipped, the rest are approved with the fixed bulk remark. */
  function BulkApprove(ids: seq<Rows.Id>, requests: seq<Doc>, role: string): (calls: seq<Call>)
    ensures DeletesNothing(calls)
    ensures forall i :: 0 <= i < |calls| && calls[i].Put? ==> calls[i].body == Verdict("approve", BulkRemark)
  {
    if |ids| == 0 then []
    else
      var first := match Rows.Find(requests, ids[0])
                   case None => []
                   case Some(k) => ApproveCalls(requests[k], BulkRemark, role);
      first + BulkApprove(ids[1..], requests, role)
  }

  /** The targets of the verdicts in a list of calls, in order. */
  function PutTargets(calls: seq<Call>): seq<Rows.Id> {
    if |calls| == 0 then []
    else (if calls[0].Put? then [calls[0].id] else []) + PutTargets(calls[1..])
  }

  lemma {:induction false} PutTargetsAppend(a: seq<Call>, b: seq<Call>)
    ensures PutTargets(a + b) == PutTargets(a) + PutTargets(b)
    decreases |a|
  {
    if |a| == 0 {
      assert a + b == b;
    } else {
      assert (a + b)[1..] == a[1..] + b;
      PutTargetsAppend(a[1..], b);
    }
  }

  /** Bulk approval sends exactly one verdict per selected id that names a request,
      in selection order, and none for the ids it skips. */
  lemma {:induction false} BulkApproveVerdicts(ids: seq<Rows.Id>, requests: seq<Doc>, role: string)
    ensures PutTargets(BulkApprove(ids, requests, role)) == Rows.Found(ids, requests)
    decreases |ids|
  {
    if |ids| > 0 {
      var first := match Rows.Find(requests, ids[0])
                   case None => []
                   case Some(k) => ApproveCalls(requests[k], BulkRemark, role);
      assert BulkApprove(ids, requests, role) == first + BulkApprove(ids[1..], requests, role);
      PutTargetsAppend(first, BulkApprove(ids[1..], requests, role));
      BulkApproveVerdicts(ids[1..], requests, role);
      match Rows.Find(requests, ids[0])
      case None =>
        assert PutTargets(first) == [];
      case Some(k) =>
        var pre := if FieldTruthy(requests[k], "originalData") then [ArchiveOf(requests[k], role)] else [];
        var verdict := Put(DeletionRequests, Rows.RowId(requests[k]), Verdict("approve", BulkRemark));
        assert first == pre + [verdict];
        PutTargetsAppend(pre, [verdict]);
        assert PutTargets(pre) == [];
        assert PutTargets([verdict]) == [ids[0]];
    }
  }

  /** Approving one selected request in bulk is the single approval with the bulk
      remark. */
  lemma BulkOfOne(id: Rows.Id, requests: seq<Doc>, role: string, k: nat)
    requires Rows.Find(requests, id) == Some(k)
    ensures BulkApprove([id], requests, role) == Approve(Some(requests[k]), BulkRemark, role)
  {
    assert [id][1..] == [];
    assert BulkApprove([id], requests, role) == ApproveCalls(requests[k], BulkRemark, role) + [];
  }

  /** How the archive controller reads an archive POST: the type and description as
      text and the original data as a document. */
  function Received(c: Call): Option<ArchiveApi.ArchiveBody> {
    if c.Post? && c.endpoint == Archives
       && Get(c.body, "type").Some? && c.body["type"].JStr?
       && Get(c.body, "description").Some? && c.body["description"].JStr?
       && Get(c.body, "originalData").Some? && c.body["originalData"].JObj?
       && Get(c.body, "archivedBy").Some? && c.body["archivedBy"].JStr?
    then Some(ArchiveApi.ArchiveBody(c.body["type"].s, c.body["description"].s,
                                     c.body["originalData"].fields, c.body["archivedBy"].s))
    else None
  }

  /** Approving a request filed by the parking, lost-and-found or lease pages
      archives the item under a type restore does not know, so restoring that entry
      reports success, removes it, and brings nothing back. */
  lemma ApprovedRequestIsUnrestorable(req: Doc, kind: string, description: string, d: Doc,
                                      remarks: string, role: string, s: ArchiveApi.Store,
                                      archiveId: ArchiveApi.Id, newId: ArchiveApi.Id, now: int, valid: bool,
                                      paths: ArchiveApi.Collection -> set<string>)
    requires kind == "Parking Ticket" || kind == "Lost & Found Item" || kind == "Tenant Lease"
    requires Get(req, "itemType") == Some(JStr(kind))
    requires Get(req, "itemDescription") == Some(JStr(description))
    requires Get(req, "originalData") == Some(JObj(d))
    requires remarks != ""
    requires archiveId !in s.archives && s.Unused(newId)
    ensures var calls := Approve(Some(req), remarks, role);
            && |calls| == 2
            && Received(calls[0]) == Some(ArchiveApi.ArchiveBody(kind, description, d, role))
            && var archived := ArchiveApi.CreateArchive(s, archiveId, Received(calls[0]).value, true, now).0;
               var restored := ArchiveApi.Restore(archived, archiveId, true, newId, paths, valid);
               && restored.0.archives == s.archives
               && (forall c :: restored.0.Get(c) == s.Get(c))
               && restored.1.status == 200
  {
    var body := ArchiveApi.ArchiveBody(kind, description, d, role);
    ArchiveApi.RequestTagsAreUnknown();
    ArchiveApi.UnknownTagRestoreLosesData(s, archiveId, newId, body, now, valid, paths);
  }
}

=== FILE: employees.dfy ===
/** The employee-management page: the list of administrator accounts kept in the
    browser, seeded with one default account per role, and the add, remove and
    password-change actions. E-mail addresses are unique ignoring case. */
module Employees {
  import opened Wrappers
  import opened Text

  datatype Admin = Admin(id: int, email: string, password: string, role: string)

  /** The six default accounts, one per role. */
  const Defaults: seq<Admin> := [
    Admin(1, "admin@example.com", "admin123", "superadmin"),
    Admin(2, "parkingadmin@example.com", "parking123", "parking"),
    Admin(3, "lostfoundadmin@example.com", "lostfound123", "lostfound"),
    Admin(4, "ticketadmin@example.com", "ticket123", "ticket"),
    Admin(5, "busadmin@example.com", "bus123", "bus"),
    Admin(6, "leaseadmin@example.com", "lease123", "lease")
  ]

  /** No two accounts share an e-mail address, ignoring case. */
  predicate EmailsUnique(admins: seq<Admin>) {
    forall i, j :: 0 <= i < |admins| && 0 <= j < |admins| && i != j ==> Lower(admins[i].email) != Lower(admins[j].email)
  }

  /** The roles, in the order of the default accounts. */
  const Roles: seq<string> := ["superadmin", "parking", "lostfound", "ticket", "bus", "lease"]

  /** What the browser holds under the storage key. */
  datatype Stored = Missing | Parsed(admins: seq<Admin>) | Unreadable

  /** ensureDefaultAdmins: nothing stored yields the defaults; a stored list is
      used as it is; a list that cannot be read yields none. */
  function Load(stored: Stored): (r: seq<Admin>)
    ensures stored.Missing? ==> |r| == 6 && EmailsUnique(r)
    ensures stored.Missing? ==> forall i :: 0 <= i < |r| ==> r[i].role == Roles[i] && r[i].id == i + 1
    ensures stored.Parsed? ==> r == stored.admins
    ensures stored.Unreadable? ==> r == []
  {
    match stored
    case Missing => DefaultsUnique(); Defaults
    case Parsed(admins) => admins
    case Unreadable => []
  }

  /** The default addresses differ even in length, so no two coincide ignoring case. */
  lemma DefaultsUnique()
    ensures EmailsUnique(Defaults)
  {
    forall i, j | 0 <= i < |Defaults| && 0 <= j < |Defaults| && i != j
      ensures Lower(Defaults[i].email) != Lower(Defaults[j].email)
    {
      assert |Lower(Defaults[i].email)| == |Defaults[i].email|;
      assert |Defaults[i].email| != |Defaults[j].email|;
    }
  }

  /** `(stored role || "superadmin") === "superadmin"`: the page offers its
      actions to the superadmin, and also when no role, or an empty one, is
      stored; every other stored role is refused. */
  function CanManage(role: Option<string>): (r: bool)
    ensures r <==> role.None? || role.value == "" || role.value == "superadmin"
  {
    role.GetOr("superadmin") == "superadmin" || role == Some("")
  }

  datatype Added = Incomplete | EmailTaken | Added(admins: seq<Admin>)

  /** addAdmin: both an e-mail and a password are required; an address already
      used, ignoring case, is refused; otherwise exactly one account is appended,
      identified by the clock value `now`. */
  function AddAdmin(admins: seq<Admin>, email: string, password: string, role: string, now: int): (r: Added)
    ensures email == "" || password == "" <==> r.Incomplete?
    ensures r.EmailTaken? <==>
              email != "" && password != "" && exists i :: 0 <= i < |admins| && Lower(admins[i].email) == Lower(email)
    ensures r.Added? ==> r.admins == admins + [Admin(now, email, password, role)]
    ensures r.Added? && EmailsUnique(admins) ==> EmailsUnique(r.admins)
  {
    if email == "" || password == "" then Incomplete
    else if exists i :: 0 <= i < |admins| && Lower(admins[i].email) == Lower(email) then EmailTaken
    else
      var next := admins + [Admin(now, email, password, role)];
      assert forall i :: 0 <= i < |admins| ==> next[i] == admins[i];
      Added(next)
  }

  /** handleDeleteConfirm: every account with the target's id goes; all others
      stay, in order. */
  function Remove(admins: seq<Admin>, id: int): (r: seq<Admin>)
    ensures |r| <= |admins|
    ensures forall a :: a in r <==> a in admins && a.id != id
    decreases |admins|
  {
    if |admins| == 0 then []
    else (if admins[0].id == id then [] else [admins[0]]) + Remove(admins[1..], id)
  }

  lemma {:induction false} RemoveKeepsUnique(admins: seq<Admin>, id: int)
    requires EmailsUnique(admins)
    ensures EmailsUnique(Remove(admins, id))
    decreases |admins|
  {
    if |admins| > 0 {
      UniqueTail(admins);
      RemoveKeepsUnique(admins[1..], id);
      if admins[0].id != id {
        HeadDiffersFromKept(admins, id);
        UniqueCons(admins[0], Remove(admins[1..], id));
      }
    }
  }

  lemma UniqueTail(admins: seq<Admin>)
    requires |admins| > 0 && EmailsUnique(admins)
    ensures EmailsUnique(admins[1..])
  {
    var tail := admins[1..];
    forall i, j | 0 <= i < |tail| && 0 <= j < |tail| && i != j
      ensures Lower(tail[i].email) != Lower(tail[j].email)
    {
      assert tail[i] == admins[i + 1] && tail[j] == admins[j + 1];
    }
  }

  lemma HeadDiffersFromKept(admins: seq<Admin>, id: int)
    requires |admins| > 0 && EmailsUnique(admins)
    ensures forall k :: 0 <= k < |Remove(admins[1..], id)| ==> Lower(admins[0].email) != Lower(Remove(admins[1..], id)[k].email)
  {
    var tail := admins[1..];
    var rest := Remove(tail, id);
    forall k | 0 <= k < |rest|
      ensures Lower(admins[0].email) != Lower(rest[k].email)
    {
      assert rest[k] in tail;
      var m :| 0 <= m < |tail| && tail[m] == rest[k];
      assert admins[m + 1] == rest[k];
    }
  }

  lemma UniqueCons(a: Admin, rest: seq<Admin>)
    requires EmailsUnique(rest)
    requires forall k :: 0 <= k < |rest| ==> Lower(a.email) != Lower(rest[k].email)
    ensures EmailsUnique([a] + rest)
  {
    var r := [a] + rest;
    forall i, j | 0 <= i < |r| && 0 <= j < |r| && i != j
      ensures Lower(r[i].email) != Lower(r[j].email)
    {
      if i > 0 && j > 0 {
        assert r[i] == rest[i - 1] && r[j] == rest[j - 1];
      } else if i == 0 {
        assert r[j] == rest[j - 1];
      } else {
        assert r[i] == rest[i - 1];
      }
    }
  }

  /** applyPasswordChange: an empty password changes nothing; otherwise only the
      accounts with the target's id get the new password, and nothing else about
      any account changes. */
  function ChangePassword(admins: seq<Admin>, id: int, password: string): (r: seq<Admin>)
    ensures password == "" ==> r == admins
    ensures |r| == |admins|
    ensures forall i :: 0 <= i < |admins| ==>
              r[i].id == admins[i].id && r[i].email == admins[i].email && r[i].role == admins[i].role
    ensures forall i :: 0 <= i < |admins| ==>
              r[i].password == if password != "" && admins[i].id == id then password else admins[i].password
    ensures EmailsUnique(admins) ==> EmailsUnique(r)
  {
    if password == "" then admins
    else seq(|admins|, i requires 0 <= i < |admins| => if admins[i].id == id then admins[i].(password := password) else admins[i])
  }

  /** A fresh address can be added once; the same address in another case is then
      refused. */
  lemma AddTwiceRefused(admins: seq<Admin>, email: string, password: string, role: string, now: int, later: int)
    requires AddAdmin(admins, email, password, role, now).Added?
    ensures AddAdmin(AddAdmin(admins, email, password, role, now).admins, Upper(email), password, role, later).EmailTaken?
  {
    var next := AddAdmin(admins, email, password, role, now).admins;
    assert next[|admins|].email == email;
    LowerOfUpper(email);
  }
}

=== FILE: http.dfy ===
/** What an Express handler sends back: a status code with a JSON payload,
    a JSON `null`, or a `{ message }` object. */
module Http {

  datatype Reply<T> =
    | Payload(status: nat, value: T)
    | NullBody(status: nat)
    | Message(status: nat, text: string)
  {
    predicate IsSuccess() { 200 <= status < 300 }
  }
}

=== FILE: json.dfy ===
/** JSON values as the backend stores and the pages send them: a MongoDB
    document is a map from field names to values. */
module Json {
  import opened Wrappers
  import opened Text

  datatype Json =
    | JNull
    | JBool(b: bool)
    | JNum(n: int)
    | JStr(s: string)
    | JArr(items: seq<Json>)
    | JObj(fields: map<string, Json>)

  /** A stored document or a request body. */
  type Doc = map<string, Json>

  /** JavaScript truthiness: null, false, 0 and "" are falsy. */
  predicate Truthy(j: Json) {
    match j
    case JNull => false
    case JBool(b) => b
    case JNum(n) => n != 0
    case JStr(s) => |s| > 0
    case JArr(_) => true
    case JObj(_) => true
  }

  /** `doc.k`: None stands for `undefined`. */
  function Get(d: Doc, k: string): (r: Option<Json>)
    ensures r.Some? <==> k in d
    ensures r.Some? ==> r.value == d[k]
  {
    if k in d then Some(d[k]) else None
  }

  /** Truthiness of a value that may be `undefined` (which is falsy). */
  predicate TruthyOpt(v: Option<Json>) {
    v.Some? && Truthy(v.value)
  }

  /** `doc.k` is truthy. */
  predicate FieldTruthy(d: Doc, k: string) {
    k in d && Truthy(d[k])
  }

  /** `d[a] || d[b]` read as text: the first field when it is truthy, otherwise
      the second; a result that is not a string (or is missing) reads as "". */
  function EitherStr(d: Doc, a: string, b: string): (r: string)
    ensures FieldTruthy(d, a) && d[a].JStr? ==> r == d[a].s
    ensures !FieldTruthy(d, a) && FieldTruthy(d, b) && d[b].JStr? ==> r == d[b].s
    ensures r != "" ==> (FieldTruthy(d, a) && d[a] == JStr(r)) || (!FieldTruthy(d, a) && FieldTruthy(d, b) && d[b] == JStr(r))
  {
    match OrElse(Get(d, a), Get(d, b))
    case Some(JStr(s)) => s
    case _ => ""
  }

  /** `a || b`: the first operand when it is truthy, otherwise the second. */
  function OrElse(a: Option<Json>, b: Option<Json>): (r: Option<Json>)
    ensures TruthyOpt(a) ==> r == a
    ensures !TruthyOpt(a) ==> r == b
  {
    if TruthyOpt(a) then a else b
  }

  /** The text of a non-negative or negative integer, as `String(n)` writes it. */
  function IntText(n: int): string {
    if n >= 0 then Decimal(n) else "-" + Decimal(-n)
  }

  /** `${v}` in a template literal. Arrays and objects are not rendered element by
      element; every array or object shows as "[object Object]". */
  function Show(v: Option<Json>): string {
    match v
    case None => "undefined"
    case Some(JNull) => "null"
    case Some(JBool(b)) => if b then "true" else "false"
    case Some(JNum(n)) => IntText(n)
    case Some(JStr(s)) => s
    case Some(JArr(_)) => "[object Object]"
    case Some(JObj(_)) => "[object Object]"
  }

  /** Adds `k: v` to a body that will go through `JSON.stringify`, which drops
      fields whose value is `undefined`. */
  function SetField(d: Doc, k: string, v: Option<Json>): (r: Doc)
    ensures v.Some? ==> r == d[k := v.value]
    ensures v.None? ==> r == d
  {
    if v.Some? then d[k := v.value] else d
  }

  /** `doc.k || dflt` for a string field: the field's text when it is a non-empty string. */
  function StrOr(d: Doc, k: string, dflt: string): (r: string)
    ensures FieldTruthy(d, k) && d[k].JStr? ==> r == d[k].s
    ensures !FieldTruthy(d, k) ==> r == dflt
  {
    if k in d && d[k].JStr? && |d[k].s| > 0 then d[k].s
    else if FieldTruthy(d, k) then ""
    else dflt
  }

  /** The value is a string, so string methods such as `toLowerCase` can be
      called on it; on `undefined`, `null`, a number or a boolean they throw. */
  predicate IsStr(v: Option<Json>) {
    v.Some? && v.value.JStr?
  }

  // ---------------------------------------------------------------------
  // `Number(v)`
  // ---------------------------------------------------------------------

  /** A decimal integer literal, optionally signed. */
  predicate IsNumeral(t: string) {
    (|t| > 0 && AllDigits(t))
    || (|t| >= 2 && (t[0] == '-' || t[0] == '+') && AllDigits(t[1..]))
  }

  /** The value of a numeral. */
  function NumeralValue(t: string): int
    requires IsNumeral(t)
  {
    if AllDigits(t) then ParseDecimal(t)
    else if t[0] == '-' then -(ParseDecimal(t[1..]) as int)
    else ParseDecimal(t[1..])
  }

  /** `Number(s)` on a string: white space around the text is ignored, an empty
      or blank text is 0, a signed or unsigned run of decimal digits is its value,
      and any other text is NaN (None). */
  function NumberOfText(s: string): (r: Option<int>)
    ensures Trim(s) == "" ==> r == Some(0)
    ensures r.Some? <==> Trim(s) == "" || IsNumeral(Trim(s))
    ensures r.Some? && r.value < 0 ==> Trim(s)[0] == '-'
  {
    var t := Trim(s);
    if |t| == 0 then Some(0)
    else if IsNumeral(t) then Some(NumeralValue(t))
    else None
  }

  /** `Number(v)`: `undefined` is NaN (None), `null` and `false` are 0, `true`
      is 1, a number is itself and a string is read as a numeral. Arrays and
      objects are NaN here. */
  function NumberOf(v: Option<Json>): (r: Option<int>)
    ensures v.None? ==> r.None?
    ensures v.Some? && v.value.JNum? ==> r == Some(v.value.n)
    ensures v.Some? && v.value.JStr? ==> r == NumberOfText(v.value.s)
    ensures r.Some? ==> v.Some? && (v.value.JNull? || v.value.JBool? || v.value.JNum? || v.value.JStr?)
  {
    match v
    case None => None
    case Some(JNull) => Some(0)
    case Some(JBool(b)) => Some(if b then 1 else 0)
    case Some(JNum(n)) => Some(n)
    case Some(JStr(s)) => NumberOfText(s)
    case Some(_) => None
  }

  /** The text of an integer is a numeral whose value is the integer, and it
      neither starts nor ends with white space. */
  lemma IntTextIsNumeral(n: int)
    ensures IsNumeral(IntText(n)) && NumeralValue(IntText(n)) == n
    ensures !IsSpace(IntText(n)[0]) && !IsSpace(IntText(n)[|IntText(n)| - 1])
  {
    var x := IntText(n);
    var d := Decimal(if n >= 0 then n else -n);
    DigitIsNotSpace(d[0]);
    DigitIsNotSpace(d[|d| - 1]);
    ParseDecimalOfDecimal(if n >= 0 then n else -n);
    if n < 0 {
      assert x[1..] == d;
      assert x[|x| - 1] == d[|d| - 1];
      assert !IsDigit(x[0]);
    }
  }

  /** `Number(String(n))` is `n`, and so is `Number` of the text with white
      space around it. */
  lemma NumberOfIntText(n: int, pre: string, post: string)
    requires forall k :: 0 <= k < |pre| ==> IsSpace(pre[k])
    requires forall k :: 0 <= k < |post| ==> IsSpace(post[k])
    ensures NumberOf(Some(JStr(pre + IntText(n) + post))) == Some(n)
  {
    IntTextIsNumeral(n);
    TrimOfPadded(pre, IntText(n), post);
  }

  /** A value holding the text of some integer reads back as that integer. */
  lemma NumberOfAnyIntText(v: Option<Json>)
    ensures forall n: int :: v == Some(JStr(IntText(n))) ==> NumberOf(v) == Some(n)
  {
    forall n: int | v == Some(JStr(IntText(n)))
      ensures NumberOf(v) == Some(n)
    {
      IntTextIsNumeral(n);
      TrimmedAlready(IntText(n));
    }
  }

  /** `Number(v) || 0`: the value `Number` reads, with NaN and 0 both giving 0.
      A number counts as itself and a numeral text, with or without white space
      around it, as its value. */
  function NumberOrZero(v: Option<Json>): (r: int)
    ensures v.None? ==> r == 0
    ensures v.Some? && v.value.JNum? ==> r == v.value.n
    ensures forall n: int :: v == Some(JStr(IntText(n))) ==> r == n
    ensures NumberOf(v).None? ==> r == 0
    ensures r != 0 ==> NumberOf(v) == Some(r)
  {
    NumberOfAnyIntText(v);
    match NumberOf(v)
    case Some(n) => n
    case None => 0
  }

  /** `const { _id, ...rest } = doc`: every field except the identifier. */
  function WithoutId(d: Doc): (r: Doc)
    ensures "_id" !in r
    ensures forall k :: k in d && k != "_id" ==> k in r && r[k] == d[k]
    ensures r.Keys <= d.Keys
  {
    d - {"_id"}
  }

  /** A Mongoose update with a plain object: each field of the patch replaces
      the stored one; fields the patch does not name are kept. */
  function ApplyPatch(d: Doc, patch: Doc): (r: Doc)
    ensures r.Keys == d.Keys + patch.Keys
    ensures forall k :: k in patch ==> r[k] == patch[k]
    ensures forall k :: k in d && k !in patch ==> r[k] == d[k]
  {
    d + patch
  }

  /** What a strict Mongoose schema keeps of an update body: the fields whose
      names are among the schema's `paths`; every other field is dropped. */
  function Strict(body: Doc, paths: set<string>): (r: Doc)
    ensures r.Keys == body.Keys * paths
    ensures forall k :: k in r ==> r[k] == body[k]
  {
    map k | k in body && k in paths :: body[k]
  }

  /** Applying the same patch twice changes nothing more. */
  lemma ApplyPatchIdempotent(d: Doc, patch: Doc)
    ensures ApplyPatch(ApplyPatch(d, patch), patch) == ApplyPatch(d, patch)
  {
  }
}

=== FILE: lost_found.dfy ===
/** The lost-and-found page: new items and their tracking numbers, the list filter
    and counts, bulk delete, archive, the CSV export and the report that clears the
    listed items. Rows carry the backend's `_id` copied into `id`. */
module LostFound {
  import opened Wrappers
  import opened Json
  import opened Text
  import opened Calls
  import Rows
  import Bulk
  import Csv

  /** The tracking number for the clock value `now` (milliseconds): "LF-" and the
      numeral's last six digits. The digits read back as `now` modulo one million. */
  function TrackingNo(now: nat): (r: string)
    ensures 3 < |r| <= 9 && r[..3] == "LF-"
    ensures AllDigits(r[3..]) && ParseDecimal(r[3..]) == now % 1000000
  {
    var digits := LastChars(Decimal(now), 6);
    LastDigitsOfDecimal(now, 6);
    assert Pow10(6) == 1000000;
    assert ("LF-" + digits)[3..] == digits;
    "LF-" + digits
  }

  /** handleAddClick: a blank unclaimed item under the given tracking number. */
  function BlankItem(trackingNo: string, nowText: string): (item: Doc)
    ensures "status" in item && item["status"] == JStr("Unclaimed")
    ensures "trackingNo" in item && item["trackingNo"] == JStr(trackingNo)
    ensures "description" in item && item["description"] == JStr("")
    ensures "itemType" in item && item["itemType"] == JStr("")
    ensures "location" in item && item["location"] == JStr("")
    ensures "dateTime" in item && item["dateTime"] == JStr(nowText)
  {
    map["trackingNo" := JStr(trackingNo), "description" := JStr(""), "itemType" := JStr(""),
        "location" := JStr(""), "dateTime" := JStr(nowText), "status" := JStr("Unclaimed")]
  }

  /** The item the add dialog opens with at clock value `now`. */
  function NewItem(now: nat, nowText: string): Doc {
    BlankItem(TrackingNo(now), nowText)
  }

  /** Two items logged within the same million milliseconds of each other (about
      sixteen minutes) at different times get different tracking numbers. */
  lemma NearbyClocksDiffer(a: nat, b: nat)
    requires a < b < a + 1000000
    ensures TrackingNo(a) != TrackingNo(b)
  {
    ModDiff(a, b);
    assert ParseDecimal(TrackingNo(a)[3..]) != ParseDecimal(TrackingNo(b)[3..]);
  }

  /** Two clock values less than a million apart leave different remainders. */
  lemma ModDiff(a: nat, b: nat)
    requires a < b < a + 1000000
    ensures a % 1000000 != b % 1000000
  {
    var m := 1000000;
    var q, r, d := a / m, a % m, b - a;
    if r + d < m {
      ModOfDecomposition(b, m, q, r + d);
    } else {
      assert b == (q + 1) * m + (r + d - m);
      ModOfDecomposition(b, m, q + 1, r + d - m);
    }
  }

  // ---------------------------------------------------------------------
  // List filter and counts
  // ---------------------------------------------------------------------

  /** The search looks, ignoring case, in the description, the tracking number and
      (when it has one) the item type. */
  predicate SearchMatches(search: string, item: Doc) {
    || ContainsIgnoreCase(StrOr(item, "description", ""), search)
    || ContainsIgnoreCase(StrOr(item, "trackingNo", ""), search)
    || (FieldTruthy(item, "itemType") && ContainsIgnoreCase(StrOr(item, "itemType", ""), search))
  }

  /** "All" passes every status; any other choice is compared ignoring case. */
  predicate StatusMatches(activeStatus: string, item: Doc) {
    activeStatus == "All" || Lower(StrOr(item, "status", "")) == Lower(activeStatus)
  }

  predicate Listed(search: string, date: string, activeStatus: string, item: Doc,
                   sameDay: (Option<Json>, string) -> bool) {
    && SearchMatches(search, item)
    && (date == "" || sameDay(Get(item, "dateTime"), date))
    && StatusMatches(activeStatus, item)
  }

  /** Filtering throws on `item`: `toLowerCase` is called on the description
      always, on the tracking number when the description misses, on a truthy
      item type when both miss, and on the status whenever a status tab other
      than "All" is active; on anything but a string it throws. */
  predicate FilterThrows(search: string, activeStatus: string, item: Doc) {
    || !IsStr(Get(item, "description"))
    || (!ContainsIgnoreCase(StrOr(item, "description", ""), search)
        && (|| !IsStr(Get(item, "trackingNo"))
            || (!ContainsIgnoreCase(StrOr(item, "trackingNo", ""), search)
                && FieldTruthy(item, "itemType") && !IsStr(Get(item, "itemType")))))
    || (activeStatus != "All" && !IsStr(Get(item, "status")))
  }

  /** The page's test, as a function of the filter settings. */
  function ListedBy(search: string, date: string, activeStatus: string, sameDay: (Option<Json>, string) -> bool): Doc -> bool {
    x => Listed(search, date, activeStatus, x, sameDay)
  }

  /** The listed items, in stored order; None when filtering throws on some item, which leaves
      the page without a list. */
  function Filtered(records: seq<Doc>, search: string, date: string, activeStatus: string,
                    sameDay: (Option<Json>, string) -> bool): (r: Option<seq<Doc>>)
    ensures r.None? <==> exists i :: 0 <= i < |records| && FilterThrows(search, activeStatus, records[i])
    ensures r.Some? ==> r.value == Rows.Where(records, ListedBy(search, date, activeStatus, sameDay))
    ensures r.Some? ==> forall x :: x in r.value <==> x in records && Listed(search, date, activeStatus, x, sameDay)
  {
    Rows.TryWhere(records, x => FilterThrows(search, activeStatus, x), ListedBy(search, date, activeStatus, sameDay))
  }

  /** With no query, no date and "All", the list is every item, and it breaks
      exactly when some item's description is not a string. */
  lemma NoFilterListsAll(records: seq<Doc>, sameDay: (Option<Json>, string) -> bool)
    ensures Filtered(records, "", "", "All", sameDay).Some?
            <==> forall i :: 0 <= i < |records| ==> IsStr(Get(records[i], "description"))
    ensures Filtered(records, "", "", "All", sameDay).Some? ==>
              forall x :: x in records ==> x in Filtered(records, "", "", "All", sameDay).value
  {
    forall x | x in records
      ensures Listed("", "", "All", x, sameDay)
      ensures FilterThrows("", "All", x) <==> !IsStr(Get(x, "description"))
    {
      EmptySearchMatches(Lower(StrOr(x, "description", "")));
    }
  }

  /** A query matching an item's type in another case still finds it. */
  lemma TypeSearchIgnoresCase(item: Doc, kind: string)
    requires Get(item, "itemType") == Some(JStr(kind)) && kind != ""
    ensures SearchMatches(Upper(kind), item)
  {
    LowerOfUpper(kind);
    assert OccursAt(Lower(kind), Lower(Upper(kind)), 0);
  }

  predicate IsUnclaimed(item: Doc) { Get(item, "status") == Some(JStr("Unclaimed")) }
  predicate IsClaimed(item: Doc) { Get(item, "status") == Some(JStr("Claimed")) }

  lemma CountsWithinTotal(listed: seq<Doc>)
    ensures |Rows.Where(listed, IsUnclaimed)| + |Rows.Where(listed, IsClaimed)| <= |listed|
  {
    Rows.DisjointCounts(listed, IsUnclaimed, IsClaimed);
  }

  // ---------------------------------------------------------------------
  // Bulk delete, archive, export and report
  // ---------------------------------------------------------------------

  function Describe(item: Doc): string {
    "Item #" + Show(Get(item, "trackingNo")) + " - " + Show(Get(item, "description"))
  }

  /** handleBulkDelete: the lost-and-found role files one request per selected item
      it still lists; any other role deletes every selected id. */
  function BulkDelete(role: string, ids: seq<Rows.Id>, records: seq<Doc>): (calls: seq<Call>)
    ensures role == "lostfound" ==> DeletesNothing(calls)
    ensures role == "lostfound" ==>
              Bulk.FiledEach(calls, ids, records, "Lost & Found Item", Describe, "LostFound Admin", "Bulk deletion request")
    ensures role != "lostfound" ==>
              |calls| == |ids| && forall i :: 0 <= i < |ids| ==> calls[i] == Delete(LostFoundItems, ids[i])
  {
    Bulk.BulkDelete(role == "lostfound", LostFoundItems, ids, records, "Lost & Found Item", Describe,
                    "LostFound Admin", "Bulk deletion request")
  }

  /** confirmArchive: archived under "LostFound", then deleted by its `id` once the
      archive post succeeded. */
  function ArchiveItem(row: Doc, role: string, archiveOk: bool): (calls: seq<Call>)
    ensures |calls| >= 1 && calls[0] == ArchiveRow("LostFound", Describe(row), row, role)
    ensures |calls| == 2 <==> archiveOk
    ensures |calls| == 2 ==> calls[1] == Delete(LostFoundItems, Show(Get(row, "id")))
  {
    ConfirmArchive(IdLast, ArchiveRow("LostFound", Describe(row), row, role), LostFoundItems,
                   Some(Show(Get(row, "id"))), archiveOk)
  }

  const ExportHeaders: seq<string> := ["Tracking No", "Item Type", "Description", "Location", "DateTime", "Status"]

  /** One exported line: only a missing item type is replaced by "-"; the other
      fields are written as they are. The exported file
      is `Csv.Export` of the listed rows with these headers and cells. */
  function ExportCells(item: Doc, dateText: Option<Json> -> string): (r: seq<string>)
    ensures |r| == |ExportHeaders|
    ensures !FieldTruthy(item, "itemType") ==> r[1] == "-"
    ensures FieldTruthy(item, "itemType") ==> r[1] == Show(Get(item, "itemType"))
    ensures r[0] == Show(Get(item, "trackingNo")) && r[2] == Show(Get(item, "description"))
  {
    [ Show(Get(item, "trackingNo")),
      Show(OrElse(Get(item, "itemType"), Some(JStr("-")))),
      Show(Get(item, "description")),
      Show(Get(item, "location")),
      dateText(Get(item, "dateTime")),
      Show(Get(item, "status")) ]
  }


  /** The fields a report row leaves out. */
  const Internal: set<string> := {"createdAt", "updatedAt", "isArchived", "__v", "_id"}

  /** A listed item as the report shows it: internal fields dropped, the date-time
      formatted, or "-" when missing. */
  function ReportRow(item: Doc, dateText: Option<Json> -> string): (r: Doc)
    ensures forall k :: k in Internal ==> k !in r
    ensures forall k :: k in item && k !in Internal && k != "dateTime" ==> k in r && r[k] == item[k]
    ensures "dateTime" in r && r["dateTime"] == JStr(if FieldTruthy(item, "dateTime") then dateText(Get(item, "dateTime")) else "-")
  {
    var kept := map k | k in item && k !in Internal :: item[k];
    kept["dateTime" := JStr(if FieldTruthy(item, "dateTime") then dateText(Get(item, "dateTime")) else "-")]
  }

  /** The report's page data: the screen name, the clock's text, the filter
      settings, the statistics over all and over the listed items, and one report
      row per listed item. The selected date shows as `dayText` of it, or "None". */
  function ReportPayload(records: seq<Doc>, listed: seq<Doc>, search: string, date: string,
                         activeStatus: string, dayText: string -> string, generated: string,
                         dateText: Option<Json> -> string): (r: Doc)
    ensures r.Keys == {"screen", "generatedDate", "filters", "statistics", "data"}
    ensures r["screen"] == JStr("Lost & Found Log") && r["generatedDate"] == JStr(generated)
    ensures r["filters"] == JObj(map["searchQuery" := JStr(search),
                                     "selectedDate" := JStr(if date == "" then "None" else dayText(date)),
                                     "activeStatus" := JStr(activeStatus)])
    ensures r["statistics"] == JObj(map["totalItems" := JNum(|records|),
                                        "displayedItems" := JNum(|listed|),
                                        "unclaimed" := JNum(|Rows.Where(listed, IsUnclaimed)|),
                                        "claimed" := JNum(|Rows.Where(listed, IsClaimed)|)])
    ensures r["data"].JArr? && |r["data"].items| == |listed|
    ensures forall i :: 0 <= i < |listed| ==> r["data"].items[i] == JObj(ReportRow(listed[i], dateText))
  {
    map["screen" := JStr("Lost & Found Log"),
        "generatedDate" := JStr(generated),
        "filters" := JObj(map["searchQuery" := JStr(search),
                              "selectedDate" := JStr(if date == "" then "None" else dayText(date)),
                              "activeStatus" := JStr(activeStatus)]),
        "statistics" := JObj(map["totalItems" := JNum(|records|),
                                 "displayedItems" := JNum(|listed|),
                                 "unclaimed" := JNum(|Rows.Where(listed, IsUnclaimed)|),
                                 "claimed" := JNum(|Rows.Where(listed, IsClaimed)|)]),
        "data" := JArr(seq(|listed|, i requires 0 <= i < |listed| => JObj(ReportRow(listed[i], dateText))))]
  }

  /** On items filtered from the records (as Filtered lists them), the report's
      statistics add up: the unclaimed and claimed counts together are at most the
      displayed count, which is at most the total. */
  lemma ReportStatisticsAddUp(records: seq<Doc>, p: Doc -> bool, search: string, date: string,
                              activeStatus: string, dayText: string -> string, generated: string,
                              dateText: Option<Json> -> string)
    ensures var listed := Rows.Where(records, p);
            var st := ReportPayload(records, listed, search, date, activeStatus, dayText, generated, dateText)["statistics"].fields;
            st["unclaimed"].n + st["claimed"].n <= st["displayedItems"].n <= st["totalItems"].n
  {
    var listed := Rows.Where(records, p);
    var st := ReportPayload(records, listed, search, date, activeStatus, dayText, generated, dateText)["statistics"].fields;
    assert st["unclaimed"].n == |Rows.Where(listed, IsUnclaimed)|;
    assert st["claimed"].n == |Rows.Where(listed, IsClaimed)|;
    assert st["displayedItems"].n == |listed| && st["totalItems"].n == |records|;
    CountsWithinTotal(listed);
  }

  /** handleSubmitReport: the report of the listed items is posted, typed "Lost &
      Found" and authored by "LostFound Admin"; only when it was accepted are the
      listed items deleted, every one of them and nothing else. */
  function SubmitReport(records: seq<Doc>, listed: seq<Doc>, search: string, date: string,
                        activeStatus: string, dayText: string -> string, generated: string,
                        dateText: Option<Json> -> string, reportOk: bool): (calls: seq<Call>)
    ensures |calls| >= 1 && calls[0].Post? && calls[0].endpoint == Reports
    ensures calls[0].body == map["type" := JStr("Lost & Found"), "author" := JStr("LostFound Admin"),
                                 "status" := JStr("Submitted"),
                                 "data" := JObj(ReportPayload(records, listed, search, date, activeStatus,
                                                              dayText, generated, dateText))]
    ensures !reportOk ==> |calls| == 1
    ensures reportOk ==>
              |calls| == 1 + |listed| && forall i :: 0 <= i < |listed| ==> calls[1 + i] == Delete(LostFoundItems, Show(Get(listed[i], "id")))
  {
    var payload := ReportPayload(records, listed, search, date, activeStatus, dayText, generated, dateText);
    var report := Post(Reports, map["type" := JStr("Lost & Found"), "author" := JStr("LostFound Admin"),
                                    "status" := JStr("Submitted"), "data" := JObj(payload)]);
    [report] + (if reportOk then seq(|listed|, i requires 0 <= i < |listed| => Delete(LostFoundItems, Show(Get(listed[i], "id")))) else [])
  }
}

=== FILE: pagination.dfy ===
/** Paging of the table pages: the window of at most five page buttons, the
    "start-end of total" item range, the page slice and the arrow buttons. */
module Pagination {

  const MaxVisible: int := 5

  /** The integers lo, lo + 1, ..., hi (empty when hi < lo). */
  function Range(lo: int, hi: int): (r: seq<int>)
    ensures |r| == if hi < lo then 0 else hi - lo + 1
    ensures forall i :: 0 <= i < |r| ==> r[i] == lo + i
  {
    if hi < lo then [] else seq(hi - lo + 1, i => lo + i)
  }

  predicate StrictlyIncreasing(r: seq<int>) {
    forall i, j :: 0 <= i < j < |r| ==> r[i] < r[j]
  }

  /** getPageNumbers: all pages when there are at most five, otherwise a window of
      five consecutive pages: the first five, the last five, or the current page
      with two on each side. */
  function PageNumbers(current: int, total: int): (r: seq<int>)
    ensures total <= MaxVisible ==> r == Range(1, total)
    ensures total > MaxVisible ==> |r| == MaxVisible && forall i :: 0 < i < |r| ==> r[i] == r[i - 1] + 1
    ensures total > MaxVisible ==> forall i :: 0 <= i < |r| ==> 1 <= r[i] <= total
    ensures 1 <= current <= total ==> current in r
    ensures StrictlyIncreasing(r)
  {
    var lo := if total <= MaxVisible || current <= 3 then 1
              else if current >= total - 2 then total - 4
              else current - 2;
    var hi := if total <= MaxVisible then total else lo + 4;
    RangeHas(lo, hi, current);
    Range(lo, hi)
  }

  lemma RangeHas(lo: int, hi: int, x: int)
    ensures lo <= x <= hi ==> x in Range(lo, hi)
  {
    if lo <= x <= hi {
      assert Range(lo, hi)[x - lo] == x;
    }
  }

  /** Math.ceil(n / per): the number of pages needed for `n` items. */
  function TotalPages(n: nat, per: int): (t: nat)
    requires per >= 1
    ensures (t - 1) * per < n <= t * per || (n == 0 && t == 0)
  {
    (n + per - 1) / per
  }

  /** The first item number shown ("start"), 0 when there are no items. */
  function StartItem(current: int, per: int, totalItems: nat): int {
    if totalItems == 0 then 0 else (current - 1) * per + 1
  }

  /** The last item number shown ("end"). */
  function EndItem(current: int, per: int, totalItems: nat): int {
    if current * per < totalItems then current * per else totalItems
  }

  /** On any existing page the range shown is a non-empty part of 1..total; with no
      items it starts at 0. */
  lemma ItemRangeValid(current: int, per: int, totalItems: nat)
    requires per >= 1
    ensures totalItems == 0 ==> StartItem(current, per, totalItems) == 0
    ensures 1 <= current <= TotalPages(totalItems, per) ==>
              1 <= StartItem(current, per, totalItems) <= EndItem(current, per, totalItems) <= totalItems
  {
    var t := TotalPages(totalItems, per);
    if 1 <= current <= t {
      assert (current - 1) * per <= (t - 1) * per by {
        MulLe(current - 1, t - 1, per);
      }
      assert (current - 1) * per + per == current * per;
    }
  }

  lemma MulLe(a: int, b: int, k: int)
    requires a <= b && k >= 0
    ensures a * k <= b * k
  {
  }

  /** Array.prototype.slice(start, end): negative positions count from the end and
      positions past the end are clamped. */
  function Slice<T>(xs: seq<T>, start: int, end: int): (r: seq<T>)
    ensures |r| <= |xs|
    ensures 0 <= start <= end ==> |r| <= end - start
    ensures 0 <= start <= |xs| && start <= end <= |xs| ==> r == xs[start..end]
  {
    var s := Clamp(start, |xs|);
    var e := Clamp(end, |xs|);
    if e <= s then [] else xs[s..e]
  }

  function Clamp(i: int, len: nat): (r: nat)
    ensures r <= len
    ensures 0 <= i <= len ==> r == i
  {
    if i < 0 then (if len + i < 0 then 0 else len + i)
    else if i > len then len
    else i
  }

  /** The items of page `current`. */
  function PageSlice<T>(xs: seq<T>, current: int, per: int): (r: seq<T>)
    requires per >= 1
    ensures |r| <= per
    ensures current >= 1 && current * per <= |xs| ==> r == xs[(current - 1) * per..current * per]
  {
    var start := (current - 1) * per;
    MulStep(current, per);
    Slice(xs, start, start + per)
  }

  lemma MulStep(c: int, k: int)
    ensures (c - 1) * k + k == c * k
    ensures c >= 1 && k >= 0 ==> (c - 1) * k >= 0
  {
    if c >= 1 && k >= 0 {
      MulLe(0, c - 1, k);
    }
  }

  /** Every item is on exactly the page its position says, and that page exists. */
  lemma ItemOnPage<T>(xs: seq<T>, per: int, i: int)
    requires per >= 1 && 0 <= i < |xs|
    ensures var p := i / per + 1;
            && 1 <= p <= TotalPages(|xs|, per)
            && i % per < |PageSlice(xs, p, per)|
            && PageSlice(xs, p, per)[i % per] == xs[i]
  {
    var p := i / per + 1;
    var t := TotalPages(|xs|, per);
    var start := (p - 1) * per;
    assert start == (i / per) * per;
    assert start + i % per == i;
    assert start <= i < start + per;
    if t < p {
      MulLe(t, p - 1, per);
      assert false;
    }
    var end := if start + per <= |xs| then start + per else |xs|;
    assert PageSlice(xs, p, per) == xs[start..end];
  }

  /** The position of the first item of page `current`. */
  function PageStart(current: int, per: int): (s: int)
    requires per >= 1
    ensures current >= 1 ==> s >= 0
  {
    MulStep(current, per);
    (current - 1) * per
  }

  /** From page 1 on, a non-empty page is the run of items starting at PageStart. */
  lemma PageAt<T>(xs: seq<T>, current: int, per: int)
    requires per >= 1 && current >= 1
    ensures var start := PageStart(current, per);
            var page := PageSlice(xs, current, per);
            |page| > 0 ==> start + |page| <= |xs| && page == xs[start..start + |page|]
  {
    var start := PageStart(current, per);
    MulStep(current, per);
    if start < |xs| {
      var end := if start + per <= |xs| then start + per else |xs|;
      assert PageSlice(xs, current, per) == xs[start..end];
    }
  }

  /** `disabled={currentPage === 1}` on the previous-page arrow. */
  predicate PrevDisabled(current: int) {
    current == 1
  }

  /** `disabled={currentPage === totalPages || totalPages === 0}` on the next-page arrow. */
  predicate NextDisabled(current: int, total: int) {
    current == total || total == 0
  }

  /** On an existing page the arrows are enabled exactly when there is a page in that
      direction; with no pages the next arrow is disabled. */
  lemma ArrowsMatchNeighbours(current: int, total: int)
    ensures 1 <= current <= total ==> (!PrevDisabled(current) <==> current > 1)
    ensures 1 <= current <= total ==> (!NextDisabled(current, total) <==> current < total)
    ensures total == 0 ==> NextDisabled(current, total)
  {
  }
}

=== FILE: parking_api.dfy ===
/** The parking-ticket controller: a ticket enters as "Parked" and leaves as
    "Departed", billed per started hour with a one-hour minimum. The clock is a
    parameter (`now`, in milliseconds) and the collection is a map from ids to
    tickets. */
module ParkingApi {
  import opened Wrappers
  import opened Text
  import opened Http
  import Sorting

  type Id = string

  /** 1000 * 60 * 60 milliseconds. */
  const MsPerHour: int := 3600000

  datatype Ticket = Ticket(
    ticketNo: string,
    plateNo: string,
    vehicleType: string,
    baseRate: int,
    timeIn: int,
    timeOut: Option<int>,
    duration: string,
    finalPrice: int,
    status: string,
    isArchived: bool,
    createdAt: int)

  type Tickets = map<Id, Ticket>

  /** The fields a create request may carry; `timeIn` is None when it is absent or null. */
  datatype NewTicket = NewTicket(
    ticketNo: string, plateNo: string, vehicleType: string, baseRate: int, timeIn: Option<int>)

  /** An update body, after the schema dropped the fields a ticket does not
      have: each present field replaces the stored one. `timeOut` may be sent as
      null, which clears it (Some(None)). `createdAt` is kept by the timestamps. */
  datatype TicketPatch = TicketPatch(
    ticketNo: Option<string>,
    plateNo: Option<string>,
    vehicleType: Option<string>,
    baseRate: Option<int>,
    timeIn: Option<int>,
    timeOut: Option<Option<int>>,
    duration: Option<string>,
    finalPrice: Option<int>,
    status: Option<string>,
    isArchived: Option<bool>)

  // ---------------------------------------------------------------------
  // Billing
  // ---------------------------------------------------------------------

  /** `Math.ceil(a / b)` for a positive divisor, in exact integer arithmetic. */
  function CeilDiv(a: int, b: int): (q: int)
    requires b > 0
    ensures (q - 1) * b < a <= q * b
  {
    var f := (-a) / b;
    assert f * b <= -a < (f + 1) * b;
    -f
  }

  /** The hours billed for a stay of `elapsed` milliseconds: the started hours,
      and never fewer than one. */
  function BilledHours(elapsed: int): (h: int)
    ensures h >= 1
    ensures elapsed <= MsPerHour ==> h == 1
    ensures elapsed > 0 ==> (h - 1) * MsPerHour < elapsed <= h * MsPerHour
  {
    var billed := CeilDiv(elapsed, MsPerHour);
    if billed < 1 then 1 else billed
  }

  /** The price of a stay: one base rate for a stay of at most an hour, and
      otherwise the time-proportional price rounded up to a whole number of
      base rates. */
  function Charge(elapsed: int, baseRate: int): (r: int)
    ensures elapsed <= MsPerHour ==> r == baseRate
    ensures baseRate > 0 && elapsed > 0 ==> (r - baseRate) * MsPerHour < elapsed * baseRate <= r * MsPerHour
  {
    var h := BilledHours(elapsed);
    ScaleBounds(h, elapsed, baseRate);
    h * baseRate
  }

  lemma ScaleBounds(h: int, elapsed: int, rate: int)
    ensures (h - 1) * MsPerHour < elapsed <= h * MsPerHour && rate > 0 ==>
              (h * rate - rate) * MsPerHour < elapsed * rate <= h * rate * MsPerHour
  {
    if (h - 1) * MsPerHour < elapsed <= h * MsPerHour && rate > 0 {
      assert (h - 1) * MsPerHour * rate < elapsed * rate;
      assert elapsed * rate <= h * MsPerHour * rate;
    }
  }

  /** The text stored in `duration`: the hours' numeral followed by " hour(s)";
      the numeral reads back as the hours. */
  function DurationText(hours: nat): (r: string)
    ensures |r| > |" hour(s)"| && EndsWith(r, " hour(s)")
    ensures AllDigits(r[..|r| - |" hour(s)"|]) && ParseDecimal(r[..|r| - |" hour(s)"|]) == hours
  {
    var r := Decimal(hours) + " hour(s)";
    assert r[..|r| - |" hour(s)"|] == Decimal(hours);
    ParseDecimalOfDecimal(hours);
    r
  }

  /** A longer stay is billed at least as many hours. */
  lemma BilledHoursMonotone(a: int, b: int)
    requires a <= b
    ensures BilledHours(a) <= BilledHours(b)
  {
  }

  /** For a fixed non-negative rate, a longer stay never costs less. */
  lemma ChargeMonotone(a: int, b: int, rate: int)
    requires a <= b && rate >= 0
    ensures Charge(a, rate) <= Charge(b, rate)
  {
    BilledHoursMonotone(a, b);
    MulMonotone(BilledHours(a), BilledHours(b), rate);
  }

  lemma MulMonotone(x: int, y: int, k: int)
    requires x <= y && k >= 0
    ensures x * k <= y * k
  {
  }

  /** Any stay of at most an hour, including a clock that went backwards, costs one base rate. */
  lemma ShortStayCostsOneRate(elapsed: int, rate: int)
    requires elapsed <= MsPerHour
    ensures Charge(elapsed, rate) == rate
  {
  }

  /** Any part of an hour past `h` whole hours bills `h + 1` hours: two hours
      and one minute bill three. */
  lemma PartHourBillsWhole(h: nat, d: int)
    requires 0 < d <= MsPerHour
    ensures BilledHours(h * MsPerHour + d) == h + 1
  {
  }

  // ---------------------------------------------------------------------
  // Controller operations
  // ---------------------------------------------------------------------

  /** getParkingTickets: the tickets that are not archived, newest `createdAt` first. */
  method ListTickets(tickets: Tickets) returns (reply: Reply<seq<(Id, Ticket)>>)
    ensures reply.Payload? && reply.status == 200
    ensures Sorting.SortedDesc(reply.value, (t: Ticket) => t.createdAt)
    ensures Sorting.DistinctKeys(reply.value)
    ensures forall i :: 0 <= i < |reply.value| ==>
              reply.value[i].0 in tickets && reply.value[i].1 == tickets[reply.value[i].0]
              && !reply.value[i].1.isArchived
    ensures forall id :: id in tickets && !tickets[id].isArchived ==> id in Sorting.KeysOf(reply.value)
  {
    var listed := Sorting.ListDesc(tickets, (t: Ticket) => !t.isArchived, (t: Ticket) => t.createdAt);
    reply := Payload(200, listed);
  }

  /** createParking: a new "Parked" ticket with price 0, stored under the newId id;
      a missing or zero `timeIn` means `now`. When the document does not pass the
      schema (`valid` is false) nothing is stored and the reply is 400. */
  function CreateParking(tickets: Tickets, newId: Id, body: NewTicket, valid: bool, now: int)
    : (r: (Tickets, Reply<Ticket>))
    requires newId !in tickets
    ensures !valid ==> r.0 == tickets && r.1.Message? && r.1.status == 400
    ensures valid ==> r.0.Keys == tickets.Keys + {newId}
                      && (forall id :: id in tickets ==> r.0[id] == tickets[id])
                      && r.1 == Payload(201, r.0[newId])
    ensures valid ==> var t := r.0[newId];
                      t.status == "Parked" && t.finalPrice == 0 && t.timeOut.None? && !t.isArchived
                      && t.ticketNo == body.ticketNo && t.plateNo == body.plateNo
                      && t.vehicleType == body.vehicleType && t.baseRate == body.baseRate
                      && t.createdAt == now
                      && (body.timeIn.None? || body.timeIn == Some(0) ==> t.timeIn == now)
                      && (body.timeIn.Some? && body.timeIn.value != 0 ==> t.timeIn == body.timeIn.value)
  {
    if !valid then
      (tickets, Message(400, "validation failed"))
    else
      var timeIn := if body.timeIn.Some? && body.timeIn.value != 0 then body.timeIn.value else now;
      var t := Ticket(body.ticketNo, body.plateNo, body.vehicleType, body.baseRate, timeIn,
                      None, "", 0, "Parked", false, now);
      (tickets[newId := t], Payload(201, t))
  }

  /** departParking: closes the ticket at `now`. The price and the duration text use
      the same billed hours. An id that does not cast to an ObjectId (`idCasts`
      false) makes the lookup throw: the reply is 500 and nothing changes. An
      unknown id is a 404 and changes nothing. */
  function Depart(tickets: Tickets, id: Id, idCasts: bool, now: int): (r: (Tickets, Reply<Ticket>))
    ensures !idCasts ==> r.0 == tickets && r.1.Message? && r.1.status == 500
    ensures idCasts && id !in tickets ==> r.0 == tickets && r.1 == Message(404, "Ticket not found")
    ensures idCasts && id in tickets ==> r.0.Keys == tickets.Keys
    ensures idCasts && id in tickets ==>
              var old_ := tickets[id];
              var t := r.0[id];
              var hours := BilledHours(now - old_.timeIn);
              && (forall other :: other in tickets && other != id ==> r.0[other] == tickets[other])
              && r.1 == Payload(200, t)
              && t.status == "Departed"
              && t.timeOut == Some(now)
              && t.finalPrice == hours * old_.baseRate
              && t.duration == DurationText(hours)
              && t.ticketNo == old_.ticketNo && t.plateNo == old_.plateNo
              && t.vehicleType == old_.vehicleType && t.baseRate == old_.baseRate
              && t.timeIn == old_.timeIn && t.createdAt == old_.createdAt
              && t.isArchived == old_.isArchived
  {
    if !idCasts then
      (tickets, Message(500, "cast failed"))
    else if id !in tickets then
      (tickets, Message(404, "Ticket not found"))
    else
      var t := tickets[id];
      var hours := BilledHours(now - t.timeIn);
      var departed := t.(timeOut := Some(now), duration := DurationText(hours),
                         finalPrice := hours * t.baseRate, status := "Departed");
      (tickets[id := departed], Payload(200, departed))
  }

  /** The duration text starts with the numeral of the billed hours, which reads back
      as the same number the price was multiplied by. */
  lemma DurationMatchesPrice(tickets: Tickets, id: Id, now: int)
    requires id in tickets
    ensures var t := Depart(tickets, id, true, now).0[id];
            var n := |t.duration| - |" hour(s)"|;
            && EndsWith(t.duration, " hour(s)")
            && 1 <= n
            && AllDigits(t.duration[..n])
            && t.finalPrice == ParseDecimal(t.duration[..n]) * t.baseRate
  {
    var t := Depart(tickets, id, true, now).0[id];
    assert t.duration == DurationText(BilledHours(now - tickets[id].timeIn));
  }

  /** Departing the same ticket again later (the controller does not refuse it)
      re-bills from the original entry time, so the price never goes down. */
  lemma DepartAgainNeverCheaper(tickets: Tickets, id: Id, now1: int, now2: int)
    requires id in tickets && now1 <= now2 && tickets[id].baseRate >= 0
    ensures var once := Depart(tickets, id, true, now1).0;
            var twice := Depart(once, id, true, now2).0;
            twice[id].finalPrice >= once[id].finalPrice && twice[id].status == "Departed"
  {
    ChargeMonotone(now1 - tickets[id].timeIn, now2 - tickets[id].timeIn, tickets[id].baseRate);
  }

  function ApplyTicketPatch(t: Ticket, p: TicketPatch): Ticket {
    t.(ticketNo := p.ticketNo.GetOr(t.ticketNo),
       plateNo := p.plateNo.GetOr(t.plateNo),
       vehicleType := p.vehicleType.GetOr(t.vehicleType),
       baseRate := p.baseRate.GetOr(t.baseRate),
       timeIn := p.timeIn.GetOr(t.timeIn),
       timeOut := p.timeOut.GetOr(t.timeOut),
       duration := p.duration.GetOr(t.duration),
       finalPrice := p.finalPrice.GetOr(t.finalPrice),
       status := p.status.GetOr(t.status),
       isArchived := p.isArchived.GetOr(t.isArchived))
  }

  /** `u` is `t` with the patch applied: every field the patch carries is
      written, every other field is kept, and so is the creation time. */
  predicate Patched(t: Ticket, p: TicketPatch, u: Ticket) {
    && (if p.ticketNo.Some? then u.ticketNo == p.ticketNo.value else u.ticketNo == t.ticketNo)
    && (if p.plateNo.Some? then u.plateNo == p.plateNo.value else u.plateNo == t.plateNo)
    && (if p.vehicleType.Some? then u.vehicleType == p.vehicleType.value else u.vehicleType == t.vehicleType)
    && (if p.baseRate.Some? then u.baseRate == p.baseRate.value else u.baseRate == t.baseRate)
    && (if p.timeIn.Some? then u.timeIn == p.timeIn.value else u.timeIn == t.timeIn)
    && (if p.timeOut.Some? then u.timeOut == p.timeOut.value else u.timeOut == t.timeOut)
    && (if p.duration.Some? then u.duration == p.duration.value else u.duration == t.duration)
    && (if p.finalPrice.Some? then u.finalPrice == p.finalPrice.value else u.finalPrice == t.finalPrice)
    && (if p.status.Some? then u.status == p.status.value else u.status == t.status)
    && (if p.isArchived.Some? then u.isArchived == p.isArchived.value else u.isArchived == t.isArchived)
    && u.createdAt == t.createdAt
  }

  /** updateParking: when the body or the id does not cast (`valid` is false)
      the reply is 400 and nothing is stored. There is no not-found check, so a
      missing id still answers 200, with a null body, and stores nothing. */
  function UpdateParking(tickets: Tickets, id: Id, patch: TicketPatch, valid: bool): (r: (Tickets, Reply<Ticket>))
    ensures !valid ==> r.0 == tickets && r.1.Message? && r.1.status == 400
    ensures valid && id !in tickets ==> r.0 == tickets && r.1 == NullBody(200)
    ensures valid && id in tickets ==>
              && r.0.Keys == tickets.Keys
              && (forall other :: other in tickets && other != id ==> r.0[other] == tickets[other])
              && r.1 == Payload(200, r.0[id])
              && Patched(tickets[id], patch, r.0[id])
  {
    if !valid then
      (tickets, Message(400, "cast failed"))
    else if id !in tickets then
      (tickets, NullBody(200))
    else
      var t := ApplyTicketPatch(tickets[id], patch);
      (tickets[id := t], Payload(200, t))
  }

  /** Sending the same update twice stores what sending it once did. */
  lemma UpdateParkingIdempotent(tickets: Tickets, id: Id, patch: TicketPatch, valid: bool)
    ensures var once := UpdateParking(tickets, id, patch, valid).0;
            UpdateParking(once, id, patch, valid).0 == once
  {
  }

  /** deleteParking: an id that does not cast is a 500 and deletes nothing;
      otherwise the id is removed if present and the reply is 200 either way. */
  function DeleteParking(tickets: Tickets, id: Id, idCasts: bool): (r: (Tickets, Reply<Ticket>))
    ensures !idCasts ==> r.0 == tickets && r.1.Message? && r.1.status == 500
    ensures idCasts ==> id !in r.0 && r.0.Keys == tickets.Keys - {id}
    ensures forall other :: other in r.0 ==> other in tickets && r.0[other] == tickets[other]
    ensures idCasts ==> r.1 == Message(200, "Deleted successfully")
  {
    if !idCasts then (tickets, Message(500, "cast failed"))
    else (tickets - {id}, Message(200, "Deleted successfully"))
  }

  /** A ticket created and then departed is billed from the entry time the create
      chose, and is still listed (it is not archived). */
  lemma CreateThenDepart(tickets: Tickets, newId: Id, body: NewTicket, created: int, left: int)
    requires newId !in tickets
    requires body.timeIn.None?
    ensures var after := Depart(CreateParking(tickets, newId, body, true, created).0, newId, true, left).0;
            && after[newId].status == "Departed"
            && after[newId].finalPrice == Charge(left - created, body.baseRate)
            && !after[newId].isArchived
  {
  }
}

=== FILE: parking_page.dfy ===
/** The parking page: the two-step new-ticket form, its duplicate check, the list
    filter and counts, bulk delete and archive. Rows carry the id the backend
    lists them under. */
module ParkingPage {
  import opened Wrappers
  import opened Json
  import opened Text
  import opened Calls
  import Rows
  import Bulk
  import Csv

  /** The vehicle types and their hourly rates: a car pays 10, anything else 5. */
  function RateFor(vehicle: string): (rate: int)
    ensures vehicle == "Car" <==> rate == 10
    ensures rate == 5 || rate == 10
  {
    if vehicle == "Car" then 10 else 5
  }

  /** The new-ticket form and the step of the dialog it is on. */
  datatype Form = Form(ticketNo: string, vehicle: string, plateNo: string, baseRate: int, timeIn: string)
  datatype Dialog = Dialog(step: nat, form: Form)

  /** handleAddClick: a blank car form on step 1, time-in set to `now`. Its rate is
      the motorcycle rate until a type is chosen on step 1. */
  function OpenAdd(now: string): (d: Dialog)
    ensures d.step == 1 && d.form.ticketNo == "" && d.form.plateNo == "" && d.form.timeIn == now
    ensures d.form.vehicle == "Car" && d.form.baseRate == RateFor("Motorcycle") != RateFor(d.form.vehicle)
  {
    Dialog(1, Form("", "Car", "", 5, now))
  }

  /** handleSelectType: choosing a type sets its rate and moves to step 2. */
  function SelectType(d: Dialog, vehicle: string): (r: Dialog)
    ensures r.step == 2 && r.form.vehicle == vehicle && r.form.baseRate == RateFor(vehicle)
    ensures r.form.ticketNo == d.form.ticketNo && r.form.plateNo == d.form.plateNo && r.form.timeIn == d.form.timeIn
  {
    Dialog(2, d.form.(vehicle := vehicle, baseRate := RateFor(vehicle)))
  }

  /** handleBack: back to step 1 with type, plate and ticket number cleared. */
  function Back(d: Dialog): (r: Dialog)
    ensures r.step == 1 && r.form.vehicle == "" && r.form.plateNo == "" && r.form.ticketNo == ""
    ensures r.form.baseRate == d.form.baseRate && r.form.timeIn == d.form.timeIn
  {
    Dialog(1, d.form.(vehicle := "", plateNo := "", ticketNo := ""))
  }

  /** Going forward and back forgets the typed plate and number but keeps the rate
      of the type last chosen. */
  lemma SelectThenBack(d: Dialog, vehicle: string)
    ensures Back(SelectType(d, vehicle)).form.baseRate == RateFor(vehicle)
    ensures Back(SelectType(d, vehicle)).form.plateNo == ""
  {
  }

  /** The ticket numbers already in use: every truthy `ticketNo` of the list. */
  function ExistingTicketNumbers(records: seq<Doc>): (r: set<Json>)
    ensures forall j :: j in r <==> exists i :: 0 <= i < |records| && FieldTruthy(records[i], "ticketNo") && records[i]["ticketNo"] == j
  {
    set i | 0 <= i < |records| && FieldTruthy(records[i], "ticketNo") :: records[i]["ticketNo"]
  }

  /** The body the form is posted as. */
  function FormBody(f: Form): Doc {
    map["ticketNo" := JStr(f.ticketNo), "type" := JStr(f.vehicle), "plateNo" := JStr(f.plateNo),
        "baseRate" := JNum(f.baseRate), "timeIn" := JStr(f.timeIn)]
  }

  datatype Created = MissingFields | Duplicate(ticketNo: string) | Posted(call: Call)

  /** handleCreateTicket: both the plate and the ticket number are required, and a
      ticket number already held by a listed ticket is refused. The comparison is
      strict, so a listed number stored as a number never matches the typed text. */
  function CreateTicket(f: Form, records: seq<Doc>): (r: Created)
    ensures f.plateNo == "" || f.ticketNo == "" <==> r == MissingFields
    ensures r.Duplicate? <==>
              f.plateNo != "" && f.ticketNo != "" &&
              exists i :: 0 <= i < |records| && Get(records[i], "ticketNo") == Some(JStr(f.ticketNo))
    ensures r.Posted? ==> r.call == Post(ParkingTickets, FormBody(f))
  {
    if f.plateNo == "" || f.ticketNo == "" then MissingFields
    else if JStr(f.ticketNo) in ExistingTicketNumbers(records) then Duplicate(f.ticketNo)
    else Posted(Post(ParkingTickets, FormBody(f)))
  }

  /** A posted ticket never repeats a listed ticket's number. */
  lemma PostedIsFresh(f: Form, records: seq<Doc>)
    requires CreateTicket(f, records).Posted?
    ensures forall i :: 0 <= i < |records| ==> Get(records[i], "ticketNo") != Some(JStr(f.ticketNo))
  {
  }

  // ---------------------------------------------------------------------
  // List filter and counts
  // ---------------------------------------------------------------------

  /** A ticket matches the search when its number's text contains the query as
      typed, or its plate contains it ignoring case. */
  predicate SearchMatches(search: string, t: Doc) {
    || (FieldTruthy(t, "ticketNo") && Contains(Show(Get(t, "ticketNo")), search))
    || (FieldTruthy(t, "plateNo") && ContainsIgnoreCase(StrOr(t, "plateNo", ""), search))
  }

  /** "All" passes every type; any other choice is compared ignoring case. */
  predicate TypeMatches(activeType: string, t: Doc) {
    activeType == "All" || Lower(StrOr(t, "type", "")) == Lower(activeType)
  }

  predicate Listed(search: string, date: string, activeType: string, t: Doc,
                   sameDay: (Option<Json>, string) -> bool) {
    && SearchMatches(search, t)
    && TypeMatches(activeType, t)
    && (date == "" || (FieldTruthy(t, "timeIn") && sameDay(Get(t, "timeIn"), date)))
  }

  /** Filtering throws on `t`: `toLowerCase` is called on the plate when the
      number does not match and the plate is truthy, and on the type whenever a
      type tab other than "All" is active; on anything but a string it throws. */
  predicate FilterThrows(search: string, activeType: string, t: Doc) {
    || (!(FieldTruthy(t, "ticketNo") && Contains(Show(Get(t, "ticketNo")), search))
        && FieldTruthy(t, "plateNo") && !IsStr(Get(t, "plateNo")))
    || (activeType != "All" && !IsStr(Get(t, "type")))
  }

  /** The page's test, as a function of the filter settings. */
  function ListedBy(search: string, date: string, activeType: string, sameDay: (Option<Json>, string) -> bool): Doc -> bool {
    t => Listed(search, date, activeType, t, sameDay)
  }

  /** The listed tickets, in stored order; None when filtering throws on some ticket, which
      leaves the page without a list. */
  function Filtered(records: seq<Doc>, search: string, date: string, activeType: string,
                    sameDay: (Option<Json>, string) -> bool): (r: Option<seq<Doc>>)
    ensures r.None? <==> exists i :: 0 <= i < |records| && FilterThrows(search, activeType, records[i])
    ensures r.Some? ==> r.value == Rows.Where(records, ListedBy(search, date, activeType, sameDay))
    ensures r.Some? ==> forall t :: t in r.value <==> t in records && Listed(search, date, activeType, t, sameDay)
  {
    Rows.TryWhere(records, t => FilterThrows(search, activeType, t), ListedBy(search, date, activeType, sameDay))
  }

  /** A ticket without a type breaks the list as soon as a type tab is chosen,
      whatever the search; under "All" the type is never read. */
  lemma UntypedTicketBreaksTypeTab(records: seq<Doc>, i: int, search: string, date: string,
                                   activeType: string, sameDay: (Option<Json>, string) -> bool)
    requires 0 <= i < |records| && Get(records[i], "type").None?
    ensures activeType != "All" ==> Filtered(records, search, date, activeType, sameDay).None?
    ensures (forall j :: 0 <= j < |records| ==> !FieldTruthy(records[j], "plateNo") || IsStr(Get(records[j], "plateNo")))
            ==> Filtered(records, search, date, "All", sameDay).Some?
  {
    if activeType != "All" {
      assert FilterThrows(search, activeType, records[i]);
    }
  }

  /** With no query, no date and the "All" type, every ticket with a number or a
      plate is listed; a ticket with neither never is. */
  lemma EmptyFilterListsNumbered(t: Doc, sameDay: (Option<Json>, string) -> bool)
    ensures Listed("", "", "All", t, sameDay) <==> FieldTruthy(t, "ticketNo") || FieldTruthy(t, "plateNo")
  {
    EmptySearchMatches(Show(Get(t, "ticketNo")));
    assert ContainsIgnoreCase(StrOr(t, "plateNo", ""), "") by {
      EmptySearchMatches(Lower(StrOr(t, "plateNo", "")));
    }
  }

  /** The car and motorcycle counts: exact matches on the type. */
  predicate IsCar(t: Doc) { Get(t, "type") == Some(JStr("Car")) }
  predicate IsMotorcycle(t: Doc) { Get(t, "type") == Some(JStr("Motorcycle")) }

  lemma CountsWithinTotal(listed: seq<Doc>)
    ensures |Rows.Where(listed, IsCar)| + |Rows.Where(listed, IsMotorcycle)| <= |listed|
  {
    Rows.DisjointCounts(listed, IsCar, IsMotorcycle);
  }

  /** The revenue card: the sum of the listed tickets' numeric final prices, a
      missing or non-numeric price counting 0. */
  function Revenue(listed: seq<Doc>): (r: int)
    ensures (forall i :: 0 <= i < |listed| ==> Price(listed[i]) >= 0) ==> r >= 0
    ensures (forall i :: 0 <= i < |listed| ==> Price(listed[i]) == 0) ==> r == 0
  {
    if |listed| == 0 then 0 else Price(listed[0]) + Revenue(listed[1..])
  }

  /** `Number(t.finalPrice) || 0`: the price as `Number` reads it, 0 when that is
      NaN. A number counts as itself and a numeral text, with or without white
      space around it, as its value. */
  function Price(t: Doc): (r: int)
    ensures Get(t, "finalPrice").None? ==> r == 0
    ensures Get(t, "finalPrice").Some? && Get(t, "finalPrice").value.JNum? ==> r == Get(t, "finalPrice").value.n
    ensures forall n: int :: Get(t, "finalPrice") == Some(JStr(IntText(n))) ==> r == n
    ensures NumberOf(Get(t, "finalPrice")).None? ==> r == 0
  {
    NumberOrZero(Get(t, "finalPrice"))
  }

  /** The revenue of two lists together is the sum of their revenues. */
  lemma {:induction false} RevenueAppend(a: seq<Doc>, b: seq<Doc>)
    ensures Revenue(a + b) == Revenue(a) + Revenue(b)
  {
    if |a| == 0 {
      assert a + b == b;
    } else {
      assert (a + b)[1..] == a[1..] + b;
      RevenueAppend(a[1..], b);
    }
  }

  /** One ticket's revenue is its price. */
  lemma RevenueOfOne(t: Doc)
    ensures Revenue([t]) == Price(t)
  {
    assert [t][1..] == [];
  }

  // ---------------------------------------------------------------------
  // Bulk delete and archive
  // ---------------------------------------------------------------------

  function Describe(t: Doc): string {
    "Ticket #" + Show(Get(t, "ticketNo")) + " - " + Show(Get(t, "plateNo"))
  }

  /** handleBulkDelete: the parking role files one request per selected ticket it
      still lists; any other role deletes every selected id. */
  function BulkDelete(role: string, ids: seq<Rows.Id>, records: seq<Doc>): (calls: seq<Call>)
    ensures role == "parking" ==> DeletesNothing(calls)
    ensures role == "parking" ==>
              Bulk.FiledEach(calls, ids, records, "Parking Ticket", Describe, "Parking Admin", "Bulk deletion request")
    ensures role != "parking" ==>
              |calls| == |ids| && forall i :: 0 <= i < |ids| ==> calls[i] == Delete(ParkingTickets, ids[i])
  {
    Bulk.BulkDelete(role == "parking", ParkingTickets, ids, records, "Parking Ticket", Describe,
                    "Parking Admin", "Bulk deletion request")
  }

  /** The archive description: the ticket number and the vehicle type. */
  function ArchiveDescription(t: Doc): string {
    "Ticket #" + Show(Get(t, "ticketNo")) + " - " + Show(Get(t, "type"))
  }

  /** confirmArchive: the id is checked before anything is sent; the ticket is
      archived under "Parking", whole, with its description and the archiving
      role, and deleted once the archive succeeded. */
  function ArchiveTicket(row: Option<Doc>, role: string, archiveOk: bool): (calls: seq<Call>)
    ensures row.None? || (row.Some? && Rows.RowId(row.value) == "") ==> calls == []
    ensures calls != [] ==> calls[0].Post? && calls[0].endpoint == Archives
                            && Get(calls[0].body, "type") == Some(JStr("Parking"))
    ensures row.Some? && Rows.RowId(row.value) != "" ==>
              |calls| >= 1 && calls[0] == ArchiveRow("Parking", ArchiveDescription(row.value), row.value, role)
    ensures |calls| == 2 <==> row.Some? && Rows.RowId(row.value) != "" && archiveOk
    ensures |calls| == 2 ==> calls[1] == Delete(ParkingTickets, Rows.RowId(row.value))
  {
    if row.None? then []
    else
      var t := row.value;
      var id := if Rows.RowId(t) == "" then None else Some(Rows.RowId(t));
      ConfirmArchive(IdFirst, ArchiveRow("Parking", ArchiveDescription(t), t, role),
                     ParkingTickets, id, archiveOk)
  }
  const ExportHeaders: seq<string> := ["Ticket No", "Plate No", "Type", "Fee/Hr", "Total", "Time In", "Time Out", "Duration", "Status"]

  /** One exported line; the fee and total carry the peso sign, every missing value
      but the type and status shows "-", and date-times use the given format. The exported file
      is `Csv.Export` of the listed rows with these headers and cells. */
  function ExportCells(t: Doc, dateText: Option<Json> -> string): (r: seq<string>)
    ensures |r| == |ExportHeaders|
    ensures !FieldTruthy(t, "ticketNo") ==> r[0] == "-"
    ensures !FieldTruthy(t, "plateNo") ==> r[1] == "-"
    ensures r[2] == Show(Get(t, "type")) && r[8] == Show(Get(t, "status"))
    ensures FieldTruthy(t, "baseRate") ==> r[3] == "\U{20B1}" + Show(Get(t, "baseRate"))
    ensures !FieldTruthy(t, "baseRate") ==> r[3] == "-"
    ensures !FieldTruthy(t, "duration") ==> r[7] == "-"
  {
    [ Show(OrElse(Get(t, "ticketNo"), Some(JStr("-")))),
      Show(OrElse(Get(t, "plateNo"), Some(JStr("-")))),
      Show(Get(t, "type")),
      if FieldTruthy(t, "baseRate") then "\U{20B1}" + Show(Get(t, "baseRate")) else "-",
      if FieldTruthy(t, "finalPrice") then "\U{20B1}" + Show(Get(t, "finalPrice")) else "-",
      if FieldTruthy(t, "timeIn") then dateText(Get(t, "timeIn")) else "-",
      if FieldTruthy(t, "timeOut") then dateText(Get(t, "timeOut")) else "-",
      Show(OrElse(Get(t, "duration"), Some(JStr("-")))),
      Show(Get(t, "status")) ]
  }
}

=== FILE: reports.dfy ===
/** The reports page: header labels derived from field names, the data table's
    columns, the short report id, the list filter, and archiving a report before
    deleting it, one at a time or in bulk. */
module Reports {
  import opened Wrappers
  import opened Json
  import opened Text
  import opened Calls
  import Rows
  import Bulk

  // ---------------------------------------------------------------------
  // Header labels
  // ---------------------------------------------------------------------

  /** `replace(/([A-Z])/g, " $1")`: a space before every upper-case letter. */
  function SpaceBeforeUpper(s: string): (r: string)
    ensures |r| >= |s|
    decreases |s|
  {
    if |s| == 0 then ""
    else (if IsUpper(s[0]) then [' ', s[0]] else [s[0]]) + SpaceBeforeUpper(s[1..])
  }

  /** A field name as a column or statistic label: spaced before capitals, then
      trimmed. */
  function Humanize(key: string): string {
    Trim(SpaceBeforeUpper(key))
  }

  /** The text with its plain spaces removed. */
  function DropSpaces(s: string): string
    decreases |s|
  {
    if |s| == 0 then "" else (if s[0] == ' ' then "" else [s[0]]) + DropSpaces(s[1..])
  }

  lemma {:induction false} DropSpacesAppend(a: string, b: string)
    ensures DropSpaces(a + b) == DropSpaces(a) + DropSpaces(b)
    decreases |a|
  {
    if |a| > 0 {
      assert (a + b)[0] == a[0];
      assert (a + b)[1..] == a[1..] + b;
      DropSpacesAppend(a[1..], b);
      var h: string := if a[0] == ' ' then "" else [a[0]];
      assert DropSpaces(a + b) == h + DropSpaces(a[1..] + b);
      assert DropSpaces(a) == h + DropSpaces(a[1..]);
      assert h + (DropSpaces(a[1..]) + DropSpaces(b)) == (h + DropSpaces(a[1..])) + DropSpaces(b);
    } else {
      assert a + b == b;
    }
  }

  lemma {:induction false} DropSpacesOfSpaces(s: string)
    requires forall k :: 0 <= k < |s| ==> s[k] == ' '
    ensures DropSpaces(s) == ""
    decreases |s|
  {
    if |s| > 0 {
      DropSpacesOfSpaces(s[1..]);
    }
  }

  lemma {:induction false} DropSpacesOfWord(s: string)
    requires forall k :: 0 <= k < |s| ==> !IsSpace(s[k])
    ensures DropSpaces(s) == s
    decreases |s|
  {
    if |s| > 0 {
      DropSpacesOfWord(s[1..]);
      assert [s[0]] + s[1..] == s;
    }
  }

  /** Spacing a field name inserts plain spaces and nothing else. */
  lemma {:induction false} SpacingOnlyAddsSpaces(s: string)
    ensures DropSpaces(SpaceBeforeUpper(s)) == DropSpaces(s)
    ensures (forall k :: 0 <= k < |s| ==> !IsSpace(s[k])) ==>
              forall k :: 0 <= k < |SpaceBeforeUpper(s)| && IsSpace(SpaceBeforeUpper(s)[k]) ==> SpaceBeforeUpper(s)[k] == ' '
    decreases |s|
  {
    if |s| > 0 {
      var head := if IsUpper(s[0]) then [' ', s[0]] else [s[0]];
      var tail := SpaceBeforeUpper(s[1..]);
      SpacingOnlyAddsSpaces(s[1..]);
      DropSpacesAppend(head, tail);
      assert SpaceBeforeUpper(s) == head + tail;
      if forall k :: 0 <= k < |s| ==> !IsSpace(s[k]) {
        assert forall k :: 0 <= k < |s[1..]| ==> !IsSpace(s[1..][k]);
        forall k | 0 <= k < |head + tail| && IsSpace((head + tail)[k])
          ensures (head + tail)[k] == ' '
        {
          if k >= |head| {
            assert (head + tail)[k] == tail[k - |head|];
          }
        }
      }
    }
  }

  /** Trimming text whose only white space is plain spaces removes spaces only. */
  lemma DropSpacesOfTrim(x: string)
    requires forall k :: 0 <= k < |x| && IsSpace(x[k]) ==> x[k] == ' '
    ensures DropSpaces(Trim(x)) == DropSpaces(x)
  {
    var r := Trim(x);
    var i :| TrimmedAt(x, r, i);
    SpacesAround(x, r, i);
  }

  lemma SpacesAround(x: string, r: string, i: int)
    requires TrimmedAt(x, r, i)
    requires forall k :: 0 <= k < |x| && IsSpace(x[k]) ==> x[k] == ' '
    ensures DropSpaces(x) == DropSpaces(r)
  {
    var pre, post := x[..i], x[i + |r|..];
    assert x == pre + r + post;
    DropSpacesOfSpaces(pre);
    DropSpacesOfSpaces(post);
    DropSpacesAppend(pre + r, post);
    DropSpacesAppend(pre, r);
  }

  /** A field name without white space is recovered from its label by removing the
      spaces: the label only splits the name into words. */
  lemma HumanizeKeepsLetters(key: string)
    requires forall k :: 0 <= k < |key| ==> !IsSpace(key[k])
    ensures DropSpaces(Humanize(key)) == key
  {
    SpacingOnlyAddsSpaces(key);
    DropSpacesOfTrim(SpaceBeforeUpper(key));
    DropSpacesOfWord(key);
  }

  lemma {:induction false} SpaceBeforeUpperAppend(a: string, b: string)
    ensures SpaceBeforeUpper(a + b) == SpaceBeforeUpper(a) + SpaceBeforeUpper(b)
    decreases |a|
  {
    if |a| > 0 {
      assert (a + b)[0] == a[0];
      assert (a + b)[1..] == a[1..] + b;
      SpaceBeforeUpperAppend(a[1..], b);
      var h: string := if IsUpper(a[0]) then [' ', a[0]] else [a[0]];
      assert SpaceBeforeUpper(a + b) == h + SpaceBeforeUpper(a[1..] + b);
      assert SpaceBeforeUpper(a) == h + SpaceBeforeUpper(a[1..]);
      assert h + (SpaceBeforeUpper(a[1..]) + SpaceBeforeUpper(b)) == (h + SpaceBeforeUpper(a[1..])) + SpaceBeforeUpper(b);
    } else {
      assert a + b == b;
    }
  }

  lemma {:induction false} NoCapitalsUnchanged(s: string)
    requires forall k :: 0 <= k < |s| ==> !IsUpper(s[k])
    ensures SpaceBeforeUpper(s) == s
    decreases |s|
  {
    if |s| > 0 {
      NoCapitalsUnchanged(s[1..]);
      assert [s[0]] + s[1..] == s;
    }
  }

  lemma SpaceBeforeCapital(c: char, s: string)
    requires IsUpper(c)
    ensures SpaceBeforeUpper([c] + s) == [' ', c] + SpaceBeforeUpper(s)
  {
    assert ([c] + s)[1..] == s;
  }

  /** A camel-case name splits at its capital: "totalRevenue" reads "total Revenue". */
  lemma {:induction false} HumanizeCamelCase(head: string, c: char, tail: string)
    requires |head| > 0 && |tail| > 0 && IsUpper(c)
    requires forall k :: 0 <= k < |head| ==> IsLower(head[k])
    requires forall k :: 0 <= k < |tail| ==> IsLower(tail[k])
    ensures Humanize(head + [c] + tail) == head + " " + [c] + tail
  {
    SpaceBeforeUpperAppend(head, [c] + tail);
    NoCapitalsUnchanged(head);
    NoCapitalsUnchanged(tail);
    SpaceBeforeCapital(c, tail);
    assert head + [c] + tail == head + ([c] + tail);
    var x := head + ([' ', c] + tail);
    assert x == head + " " + [c] + tail;
    assert x[0] == head[0] && x[|x| - 1] == tail[|tail| - 1];
    TrimmedAlready(x);
  }

  // ---------------------------------------------------------------------
  // Data table and report ids
  // ---------------------------------------------------------------------

  /** The data table's columns: the first row's field names, in order, without
      "id" and "_id". */
  function Headers(keys: seq<string>): (r: seq<string>)
    ensures |r| <= |keys|
    ensures forall h :: h in r <==> h in keys && h != "id" && h != "_id"
    decreases |keys|
  {
    if |keys| == 0 then []
    else (if keys[0] == "id" || keys[0] == "_id" then [] else [keys[0]]) + Headers(keys[1..])
  }

  /** Column order follows field order. */
  lemma {:induction false} HeadersAppend(a: seq<string>, b: seq<string>)
    ensures Headers(a + b) == Headers(a) + Headers(b)
    decreases |a|
  {
    if |a| > 0 {
      assert (a + b)[0] == a[0];
      assert (a + b)[1..] == a[1..] + b;
      HeadersAppend(a[1..], b);
      var h: seq<string> := if a[0] == "id" || a[0] == "_id" then [] else [a[0]];
      assert Headers(a + b) == h + Headers(a[1..] + b);
      assert Headers(a) == h + Headers(a[1..]);
      assert h + (Headers(a[1..]) + Headers(b)) == (h + Headers(a[1..])) + Headers(b);
    } else {
      assert a + b == b;
    }
  }

  /** The id column: the first eight characters of the id, upper-cased, or "ERR"
      when the report has no id. */
  function ShortId(id: Option<Json>): (r: string)
    ensures !TruthyOpt(id) || !id.value.JStr? ==> r == "ERR"
    ensures TruthyOpt(id) && id.value.JStr? ==>
              |r| == (if |id.value.s| < 8 then |id.value.s| else 8)
              && r == Upper(id.value.s[..|r|])
  {
    match id
    case Some(JStr(s)) => if s == "" then "ERR" else Upper(s[..if |s| < 8 then |s| else 8])
    case _ => "ERR"
  }

  /** Two reports whose ids differ only after the eighth character show the same
      short id. */
  lemma ShortIdPrefix(a: string, b: string)
    requires |a| >= 8 && |b| >= 8 && a[..8] == b[..8]
    ensures ShortId(Some(JStr(a))) == ShortId(Some(JStr(b)))
  {
  }

  // ---------------------------------------------------------------------
  // List filter
  // ---------------------------------------------------------------------

  /** `v` is `undefined` or `null`, where `?.` stops. */
  predicate Nullish(v: Option<Json>) {
    v.None? || v == Some(JNull)
  }

  /** `report.id?.toString().includes(search)`: the id's text contains the
      search exactly as typed. */
  predicate IdMatches(search: string, report: Doc) {
    !Nullish(Get(report, "id")) && Contains(Show(Get(report, "id")), search)
  }

  /** The search matches the id exactly as typed, or the type or author ignoring
      case; a missing field matches nothing. */
  predicate SearchMatches(search: string, report: Doc) {
    || IdMatches(search, report)
    || (StrField(report, "type").Some? && ContainsIgnoreCase(StrField(report, "type").value, search))
    || (StrField(report, "author").Some? && ContainsIgnoreCase(StrField(report, "author").value, search))
  }

  function StrField(d: Doc, k: string): Option<string> {
    match Get(d, k)
    case Some(JStr(s)) => Some(s)
    case _ => None
  }

  /** "All" passes every report; any other category is compared exactly. */
  predicate CategoryMatches(category: string, report: Doc) {
    category == "All" || Get(report, "type") == Some(JStr(category))
  }

  predicate Listed(search: string, date: string, category: string, report: Doc,
                   sameDay: (Option<Json>, string) -> bool, inRange: Option<Json> -> bool) {
    var when := OrElse(Get(report, "createdAt"), Get(report, "date"));
    && SearchMatches(search, report)
    && (date == "" || sameDay(when, date))
    && CategoryMatches(category, report)
    && inRange(when)
  }

  /** The search throws: `?.toLowerCase()` reaches a type, or (when the type
      does not match) an author, that is neither nullish nor a string. The id is
      tried first and a match stops the search. */
  predicate FilterThrows(search: string, report: Doc) {
    && !IdMatches(search, report)
    && (|| (!Nullish(Get(report, "type")) && !IsStr(Get(report, "type")))
        || (!(StrField(report, "type").Some? && ContainsIgnoreCase(StrField(report, "type").value, search))
            && !Nullish(Get(report, "author")) && !IsStr(Get(report, "author"))))
  }

  /** The page's test, as a function of the filter settings. */
  function ListedBy(search: string, date: string, category: string,
                    sameDay: (Option<Json>, string) -> bool, inRange: Option<Json> -> bool): Doc -> bool {
    x => Listed(search, date, category, x, sameDay, inRange)
  }

  /** The reports the page lists, in stored order, or None when the search
      throws on some report. */
  function Filtered(records: seq<Doc>, search: string, date: string, category: string,
                    sameDay: (Option<Json>, string) -> bool, inRange: Option<Json> -> bool): (r: Option<seq<Doc>>)
    ensures r.None? <==> exists i :: 0 <= i < |records| && FilterThrows(search, records[i])
    ensures r.Some? ==> r.value == Rows.Where(records, ListedBy(search, date, category, sameDay, inRange))
    ensures r.Some? ==> forall x :: x in r.value <==> x in records && Listed(search, date, category, x, sameDay, inRange)
  {
    Rows.TryWhere(records, x => FilterThrows(search, x), ListedBy(search, date, category, sameDay, inRange))
  }

  /** A report whose type was stored as a number breaks the list unless its id
      already matches the search. */
  lemma NumericTypeBreaksList(records: seq<Doc>, i: nat, n: int, search: string, date: string, category: string,
                              sameDay: (Option<Json>, string) -> bool, inRange: Option<Json> -> bool)
    requires i < |records| && Get(records[i], "type") == Some(JNum(n)) && !IdMatches(search, records[i])
    ensures Filtered(records, search, date, category, sameDay, inRange).None?
  {
    assert FilterThrows(search, records[i]);
  }

  /** The type search ignores case: a query found in the type is found again in
      upper or lower case. The id search does not: for a report with no type and
      no author the search is a plain substring test on the id, so "abc" does not
      find the id "ABC". */
  lemma SearchCaseRules(report: Doc, q: string)
    ensures StrField(report, "type").Some? && ContainsIgnoreCase(StrField(report, "type").value, q) ==>
              SearchMatches(Upper(q), report) && SearchMatches(Lower(q), report)
    ensures StrField(report, "type").None? && StrField(report, "author").None? ==>
              (SearchMatches(q, report) <==> IdMatches(q, report))
    ensures !SearchMatches("abc", map["id" := JStr("ABC")])
  {
    LowerOfUpper(q);
    LowerProperties(q);
    var r: Doc := map["id" := JStr("ABC")];
    assert Get(r, "type") == None && Get(r, "author") == None;
    assert forall i :: OccursAt("ABC", "abc", i) ==> i == 0;
    assert "ABC"[0..3][0] != "abc"[0];
  }

  // ---------------------------------------------------------------------
  // Archive then delete
  // ---------------------------------------------------------------------

  function Describe(report: Doc): string {
    Show(Get(report, "type")) + " Report by " + Show(Get(report, "author"))
  }

  /** confirmArchive: the report is archived under "Report" and then deleted
      whatever the archive reply said. */
  function ArchiveReport(row: Doc, role: string): (calls: seq<Call>)
    ensures |calls| == 2
    ensures calls[0] == ArchiveRow("Report", Describe(row), row, role)
    ensures calls[1] == Delete(Reports, Show(Get(row, "id")))
  {
    ConfirmArchive(Unchecked, ArchiveRow("Report", Describe(row), row, role), Reports, Some(Show(Get(row, "id"))), true)
  }

  /** The delete does not wait for the archive: a failed archive reply still
      deletes the report. */
  lemma ArchiveFailureStillDeletes(row: Doc, role: string)
    ensures ConfirmArchive(Unchecked, ArchiveRow("Report", Describe(row), row, role), Reports,
                           Some(Show(Get(row, "id"))), false) == ArchiveReport(row, role)
  {
  }

  /** handleBulkDelete: for every selected id that names a listed report, its
      archive post and then its delete; other ids are skipped. */
  function BulkArchive(ids: seq<Rows.Id>, records: seq<Doc>, role: string): (calls: seq<Call>)
    ensures |calls| == 2 * |Rows.Found(ids, records)|
    ensures forall i :: 0 <= i < |Rows.Found(ids, records)| ==>
              Bulk.ArchivedPair(calls[2 * i], calls[2 * i + 1], Reports, "Report", records, Rows.Found(ids, records)[i])
  {
    Bulk.ArchiveEach(ids, records, Reports, "Report", Describe, role)
  }
}

=== FILE: review.dfy ===
/** The application review dialog: which single next step it offers for an
    applicant's status, and which document slots it shows. */
module Review {
  import opened Wrappers
  import opened Json
  import opened Text

  /** The buttons of the dialog's footer. */
  datatype Action = UnlockPayment | RequestContract | CreateLease

  /** `reviewData.status || "Pending"`. */
  function EffectiveStatus(app: Doc): (r: string)
    ensures !FieldTruthy(app, "status") ==> r == "Pending"
  {
    StrOr(app, "status", "Pending")
  }

  /** A permanent-slot applicant: floor or tenant type is exactly "Permanent". */
  predicate IsPermanent(app: Doc) {
    Get(app, "floor") == Some(JStr("Permanent")) || Get(app, "tenantType") == Some(JStr("Permanent"))
  }

  /** The actions offered for a status and slot kind. */
  function Offered(status: string, permanent: bool): (r: set<Action>)
    ensures UnlockPayment in r <==> status == "VERIFICATION_PENDING"
    ensures RequestContract in r <==> status == "PAYMENT_REVIEW" && permanent
    ensures CreateLease in r <==> (status == "PAYMENT_REVIEW" && !permanent) || status == "CONTRACT_REVIEW"
    ensures |r| <= 1
  {
    if status == "VERIFICATION_PENDING" then {UnlockPayment}
    else if status == "PAYMENT_REVIEW" then (if permanent then {RequestContract} else {CreateLease})
    else if status == "CONTRACT_REVIEW" then {CreateLease}
    else {}
  }

  /** The statuses in which the applicant, not the admin, has to act next, and the
      final status, offer nothing. */
  lemma WaitingStatusesOfferNothing(status: string, permanent: bool)
    requires status in {"Pending", "PAYMENT_UNLOCKED", "CONTRACT_PENDING", "TENANT"}
    ensures Offered(status, permanent) == {}
  {
  }

  /** The actions the dialog shows for an application. */
  function OfferedFor(app: Doc): (r: set<Action>)
    ensures !FieldTruthy(app, "status") ==> r == {}
    ensures |r| <= 1
  {
    Offered(EffectiveStatus(app), IsPermanent(app))
  }

  /** A document slot: its title and the URL field it shows. */
  datatype Slot = Slot(title: string, url: Option<Json>)

  /** The document slots: ID, permit, clearance and receipt always, then the signed
      contract when the applicant is permanent or already has a contract URL. */
  function DocumentSlots(app: Doc): (r: seq<Slot>)
    ensures |r| == 4 || |r| == 5
    ensures |r| == 5 <==> IsPermanent(app) || FieldTruthy(app, "contractUrl")
    ensures r[0] == Slot("Valid ID", Get(app, "validIdUrl"))
    ensures r[1] == Slot("Business Permit", Get(app, "permitUrl"))
    ensures r[2] == Slot("Brgy Clearance", Get(app, "clearanceUrl"))
    ensures r[3] == Slot("Payment Receipt", Get(app, "receiptUrl"))
    ensures |r| == 5 ==> r[4] == Slot("Signed Contract", Get(app, "contractUrl"))
  {
    [Slot("Valid ID", Get(app, "validIdUrl")), Slot("Business Permit", Get(app, "permitUrl")),
     Slot("Brgy Clearance", Get(app, "clearanceUrl")), Slot("Payment Receipt", Get(app, "receiptUrl"))]
    + (if IsPermanent(app) || FieldTruthy(app, "contractUrl")
       then [Slot("Signed Contract", Get(app, "contractUrl"))] else [])
  }

  /** The short id in the header: the last six characters of `_id`, upper-cased, or
      "---" without one. */
  function DisplayId(app: Doc): (r: string)
    ensures !FieldTruthy(app, "_id") ==> r == "---"
    ensures FieldTruthy(app, "_id") ==> |r| <= 6
  {
    if FieldTruthy(app, "_id") then Upper(LastChars(Show(Get(app, "_id")), 6)) else "---"
  }

  /** What the dialog shows: nothing when closed or without an application. */
  datatype Shown = Shown(id: string, status: string, actions: set<Action>, slots: seq<Slot>)

  function Render(isOpen: bool, app: Option<Doc>): (r: Option<Shown>)
    ensures r.Some? <==> isOpen && app.Some?
    ensures r.Some? ==> r.value.actions == OfferedFor(app.value) && r.value.slots == DocumentSlots(app.value)
  {
    if !isOpen || app.None? then None
    else Some(Shown(DisplayId(app.value), EffectiveStatus(app.value), OfferedFor(app.value), DocumentSlots(app.value)))
  }
}

=== FILE: rows.dfy ===
/** Table rows as the pages hold them: the JSON documents the backend returned,
    addressed by `row._id || row.id`. */
module Rows {
  import opened Wrappers
  import opened Json

  type Id = string

  /** `row._id || row.id` as a key. Identifiers are strings; a row whose identifier
      is missing or not a string is keyed by "". */
  function RowId(row: Doc): (r: Id)
    ensures FieldTruthy(row, "_id") && row["_id"].JStr? ==> r == row["_id"].s
    ensures !FieldTruthy(row, "_id") && FieldTruthy(row, "id") && row["id"].JStr? ==> r == row["id"].s
  {
    EitherStr(row, "_id", "id")
  }

  /** `rows.find(r => (r._id || r.id) === id)`, as a position. */
  function Find(rows: seq<Doc>, id: Id): (r: Option<nat>)
    ensures r.None? <==> forall i :: 0 <= i < |rows| ==> RowId(rows[i]) != id
    ensures r.Some? ==> r.value < |rows| && RowId(rows[r.value]) == id
    ensures r.Some? ==> forall i :: 0 <= i < r.value ==> RowId(rows[i]) != id
  {
    if |rows| == 0 then None
    else if RowId(rows[0]) == id then Some(0)
    else match Find(rows[1..], id)
      case None => None
      case Some(k) => Some(k + 1)
  }

  /** The identifiers of a list of rows, in order (`rows.map(r => r._id || r.id)`). */
  function Ids(rows: seq<Doc>): (r: seq<Id>)
    ensures |r| == |rows|
    ensures forall i :: 0 <= i < |rows| ==> r[i] == RowId(rows[i])
  {
    seq(|rows|, i requires 0 <= i < |rows| => RowId(rows[i]))
  }

  /** The ids among `ids` that name some row, in order (the ones a bulk action
      does not skip). */
  function Found(ids: seq<Id>, rows: seq<Doc>): (r: seq<Id>)
    ensures |r| <= |ids|
    ensures forall x :: x in r <==> x in ids && Find(rows, x).Some?
  {
    if |ids| == 0 then []
    else (if Find(rows, ids[0]).Some? then [ids[0]] else []) + Found(ids[1..], rows)
  }

  /** `Found` of a concatenation is the concatenation of `Found`s. */
  lemma {:induction false} FoundAppend(a: seq<Id>, b: seq<Id>, rows: seq<Doc>)
    ensures Found(a + b, rows) == Found(a, rows) + Found(b, rows)
    decreases |a|
  {
    if |a| == 0 {
      assert a + b == b;
    } else {
      assert (a + b)[1..] == a[1..] + b;
      FoundAppend(a[1..], b, rows);
    }
  }

  /** `rows.filter(p)`: the rows satisfying `p`, in their original order. */
  function Where(rows: seq<Doc>, p: Doc -> bool): (r: seq<Doc>)
    ensures |r| <= |rows|
    ensures forall x :: x in r <==> x in rows && p(x)
  {
    if |rows| == 0 then []
    else (if p(rows[0]) then [rows[0]] else []) + Where(rows[1..], p)
  }

  /** Filtering a concatenation filters each part and keeps the parts in
      order: together with WhereOfOne this fixes the result's order and
      multiplicity, not only its members. */
  lemma {:induction false} WhereAppend(a: seq<Doc>, b: seq<Doc>, p: Doc -> bool)
    ensures Where(a + b, p) == Where(a, p) + Where(b, p)
    decreases |a|
  {
    if |a| == 0 {
      assert a + b == b;
    } else {
      assert (a + b)[1..] == a[1..] + b;
      WhereAppend(a[1..], b, p);
    }
  }

  /** A single row is kept exactly when it passes the test. */
  lemma WhereOfOne(x: Doc, p: Doc -> bool)
    ensures Where([x], p) == if p(x) then [x] else []
  {
    assert [x][1..] == [];
  }

  /** Two tests that agree on every row filter alike. */
  lemma {:induction false} WhereSame(rows: seq<Doc>, p: Doc -> bool, q: Doc -> bool)
    requires forall i :: 0 <= i < |rows| ==> p(rows[i]) == q(rows[i])
    ensures Where(rows, p) == Where(rows, q)
    decreases |rows|
  {
    if |rows| > 0 {
      assert p(rows[0]) == q(rows[0]);
      WhereSame(rows[1..], p, q);
    }
  }

  /** `rows.filter(p)` where evaluating `p` on some rows throws (`throws`): the
      first such row makes the whole call throw (None); otherwise the rows
      satisfying `p`, in order. */
  function TryWhere(rows: seq<Doc>, throws: Doc -> bool, p: Doc -> bool): (r: Option<seq<Doc>>)
    ensures r.None? <==> exists i :: 0 <= i < |rows| && throws(rows[i])
    ensures r.Some? ==> r.value == Where(rows, p)
  {
    if |rows| == 0 then Some([])
    else if throws(rows[0]) then None
    else
      match TryWhere(rows[1..], throws, p)
      case None =>
        var i :| 0 <= i < |rows[1..]| && throws(rows[1..][i]);
        assert throws(rows[i + 1]);
        None
      case Some(rest) =>
        assert forall i :: 1 <= i < |rows| ==> rows[i] == rows[1..][i - 1];
        Some((if p(rows[0]) then [rows[0]] else []) + rest)
  }

  /** Two counts over predicates no row satisfies together never exceed the total,
      as for a "car" and a "motorcycle" count over the same table. */
  lemma {:induction false} DisjointCounts(rows: seq<Doc>, p: Doc -> bool, q: Doc -> bool)
    requires forall i :: 0 <= i < |rows| ==> !(p(rows[i]) && q(rows[i]))
    ensures |Where(rows, p)| + |Where(rows, q)| <= |rows|
    decreases |rows|
  {
    if |rows| > 0 {
      assert !(p(rows[0]) && q(rows[0]));
      DisjointCounts(rows[1..], p, q);
    }
  }
}

=== FILE: selection.dfy ===
/** The row-selection lists of the table pages: toggling one id, selecting every
    id of the current page, and clearing the current page's ids. A selection is
    a sequence of ids in the order they were picked. */
module Selection {

  type Id = string

  predicate NoDuplicates(xs: seq<Id>) {
    forall i, j :: 0 <= i < j < |xs| ==> xs[i] != xs[j]
  }

  /** `xs.filter(x => !drop.includes(x))`. */
  function Without(xs: seq<Id>, drop: seq<Id>): (r: seq<Id>)
    ensures |r| <= |xs|
    ensures forall y :: y in r <==> y in xs && y !in drop
    ensures (forall i :: 0 <= i < |xs| ==> xs[i] !in drop) ==> r == xs
    ensures NoDuplicates(xs) ==> NoDuplicates(r)
  {
    if |xs| == 0 then []
    else
      var rest := Without(xs[..|xs| - 1], drop);
      var last := xs[|xs| - 1];
      assert xs == xs[..|xs| - 1] + [last];
      if last in drop then rest else rest + [last]
  }

  /** Filtering distributes over concatenation. */
  lemma {:induction false} WithoutAppend(a: seq<Id>, b: seq<Id>, drop: seq<Id>)
    ensures Without(a + b, drop) == Without(a, drop) + Without(b, drop)
    decreases |b|
  {
    if |b| == 0 {
      assert a + b == a;
    } else {
      var b' := b[..|b| - 1];
      assert (a + b)[..|a + b| - 1] == a + b';
      assert (a + b)[|a + b| - 1] == b[|b| - 1];
      WithoutAppend(a, b', drop);
    }
  }

  /** The distinct elements of `xs`, each at its first occurrence
      (`[...new Set(xs)]`). */
  function Dedup(xs: seq<Id>): (r: seq<Id>)
    ensures NoDuplicates(r)
    ensures forall y :: y in r <==> y in xs
    ensures |r| <= |xs|
  {
    if |xs| == 0 then []
    else
      var d := Dedup(xs[..|xs| - 1]);
      var last := xs[|xs| - 1];
      assert xs == xs[..|xs| - 1] + [last];
      if last in d then d else d + [last]
  }

  /** Deduplicating an extended list keeps the deduplicated prefix in front. */
  lemma {:induction false} DedupExtends(a: seq<Id>, b: seq<Id>)
    ensures |Dedup(a)| <= |Dedup(a + b)|
    ensures Dedup(a + b)[..|Dedup(a)|] == Dedup(a)
    ensures forall i :: |Dedup(a)| <= i < |Dedup(a + b)| ==> Dedup(a + b)[i] in b
    decreases |b|
  {
    if |b| == 0 {
      assert a + b == a;
    } else {
      var b' := b[..|b| - 1];
      assert (a + b)[..|a + b| - 1] == a + b';
      DedupExtends(a, b');
    }
  }

  /** A list without duplicates is its own deduplication. */
  lemma {:induction false} DedupOfDistinct(xs: seq<Id>)
    ensures NoDuplicates(xs) ==> Dedup(xs) == xs
    decreases |xs|
  {
    if NoDuplicates(xs) && |xs| > 0 {
      var init := xs[..|xs| - 1];
      DedupOfDistinct(init);
      assert xs[|xs| - 1] !in init;
      assert xs == init + [xs[|xs| - 1]];
    }
  }

  /** Clicking a row's checkbox: removes every copy of the id when it is selected,
      otherwise appends it. */
  function Toggle(sel: seq<Id>, id: Id): (r: seq<Id>)
    ensures id in sel ==> id !in r && forall y :: y != id ==> (y in r <==> y in sel)
    ensures id !in sel ==> r == sel + [id]
  {
    if id in sel then Without(sel, [id]) else sel + [id]
  }

  /** Toggling an unselected id twice gives back the same list; toggling a selected
      id twice gives back the same set of ids. */
  lemma ToggleTwice(sel: seq<Id>, id: Id)
    ensures id !in sel ==> Toggle(Toggle(sel, id), id) == sel
    ensures forall y :: y in Toggle(Toggle(sel, id), id) <==> y in sel
  {
    if id !in sel {
      WithoutAppend(sel, [id], [id]);
      assert Without([id], [id]) == [];
    }
  }

  /** "Select all" on a page: the old selection followed by the page's new ids,
      without duplicates. */
  function SelectPage(sel: seq<Id>, page: seq<Id>): (r: seq<Id>)
    ensures NoDuplicates(r)
    ensures forall y :: y in r <==> y in sel || y in page
    ensures NoDuplicates(sel) ==> |sel| <= |r| && r[..|sel|] == sel
  {
    DedupExtends(sel, page);
    DedupOfDistinct(sel);
    Dedup(sel + page)
  }

  /** Unchecking "select all": removes exactly the page's ids and keeps the rest. */
  function DeselectPage(sel: seq<Id>, page: seq<Id>): (r: seq<Id>)
    ensures forall y :: y in r <==> y in sel && y !in page
    ensures NoDuplicates(sel) ==> NoDuplicates(r)
  {
    Without(sel, page)
  }

  lemma WithoutAllDropped(xs: seq<Id>, drop: seq<Id>)
    requires forall i :: 0 <= i < |xs| ==> xs[i] in drop
    ensures Without(xs, drop) == []
  {
  }

  /** Selecting a page and then unchecking it gives back the earlier selection when
      that held no id of the page. */
  lemma SelectThenDeselect(sel: seq<Id>, page: seq<Id>)
    requires NoDuplicates(sel)
    requires forall i :: 0 <= i < |sel| ==> sel[i] !in page
    ensures DeselectPage(SelectPage(sel, page), page) == sel
  {
    var all := Dedup(sel + page);
    assert SelectPage(sel, page) == all;
    DedupExtends(sel, page);
    DedupOfDistinct(sel);
    assert |sel| <= |all| && all[..|sel|] == sel;
    var added := all[|sel|..];
    assert all == sel + added;
    forall i | 0 <= i < |added| ensures added[i] in page {
      assert added[i] == all[|sel| + i];
    }
    WithoutAppend(sel, added, page);
    WithoutAllDropped(added, page);
    assert Without(sel, page) == sel;
  }
}

=== FILE: sidebar.dfy ===
/** The side bar: which pages each administrator role is offered. */
module Sidebar {
  import opened Wrappers

  /** The roles a session can hold. */
  datatype Role = Superadmin | Bus | Ticket | Lease | Parking | LostFound

  /** The stored role: a missing or empty value reads as the superadmin; a string
      naming no role is no role at all. */
  function RoleOf(stored: Option<string>): (r: Option<Role>)
    ensures stored.None? || stored == Some("") || stored == Some("superadmin") <==> r == Some(Superadmin)
    ensures r.None? <==> stored.Some? && stored.value !in {"", "superadmin", "bus", "ticket", "lease", "parking", "lostfound"}
  {
    if stored.None? then Some(Superadmin)
    else match stored.value
      case "" => Some(Superadmin)
      case "superadmin" => Some(Superadmin)
      case "bus" => Some(Bus)
      case "ticket" => Some(Ticket)
      case "lease" => Some(Lease)
      case "parking" => Some(Parking)
      case "lostfound" => Some(LostFound)
      case _ => None
  }

  /** The ten entries of the bar. */
  datatype Page =
    | Dashboard | BusTrips | Tickets | TenantsLease | ParkingPage | LostAndFound
    | Reports | DeletionRequests | Notifications | ManageEmployee

  /** The entries in display order. */
  const AllMenus: seq<Page> := [Dashboard, BusTrips, Tickets, TenantsLease, ParkingPage, LostAndFound,
                                Reports, DeletionRequests, Notifications, ManageEmployee]

  function Path(p: Page): string {
    match p
    case Dashboard => "/dashboard"
    case BusTrips => "/buses-trips"
    case Tickets => "/tickets"
    case TenantsLease => "/tenant-lease"
    case ParkingPage => "/parking"
    case LostAndFound => "/lost-found"
    case Reports => "/reports"
    case DeletionRequests => "/deletion-requests"
    case Notifications => "/notifications"
    case ManageEmployee => "/employee-management"
  }

  /** The roles an entry lists. */
  function RolesOf(p: Page): set<Role> {
    match p
    case Dashboard => {Superadmin}
    case BusTrips => {Bus, Superadmin}
    case Tickets => {Ticket, Superadmin}
    case TenantsLease => {Lease, Superadmin}
    case ParkingPage => {Superadmin, Parking}
    case LostAndFound => {LostFound, Superadmin}
    case Reports => {Superadmin}
    case DeletionRequests => {Superadmin}
    case Notifications => {Parking, LostFound, Bus, Ticket, Lease, Superadmin}
    case ManageEmployee => {Superadmin}
  }

  /** `m.roles.includes(role)`. */
  predicate Shows(p: Page, role: Option<Role>) {
    role.Some? && role.value in RolesOf(p)
  }

  /** The entries whose role list names the role, in their original order. */
  function Visible(menus: seq<Page>, role: Option<Role>): seq<Page>
    decreases |menus|
  {
    if |menus| == 0 then []
    else (if Shows(menus[0], role) then [menus[0]] else []) + Visible(menus[1..], role)
  }

  /** An entry is shown exactly when it is in the bar and lists the role; the
      filter never adds entries. */
  lemma {:induction false} VisibleMembers(menus: seq<Page>, role: Option<Role>)
    ensures |Visible(menus, role)| <= |menus|
    ensures forall p :: p in Visible(menus, role) <==> p in menus && Shows(p, role)
    decreases |menus|
  {
    if |menus| > 0 {
      VisibleMembers(menus[1..], role);
      assert menus == [menus[0]] + menus[1..];
    }
  }

  /** The menu shown for the stored role. */
  function MenuFor(stored: Option<string>): seq<Page> {
    Visible(AllMenus, RoleOf(stored))
  }

  /** Entries every one of which lists the role are all shown, in order. */
  lemma {:induction false} AllListed(menus: seq<Page>, role: Role)
    requires forall i :: 0 <= i < |menus| ==> Shows(menus[i], Some(role))
    ensures Visible(menus, Some(role)) == menus
    decreases |menus|
  {
    if |menus| > 0 {
      AllListed(menus[1..], role);
      assert [menus[0]] + menus[1..] == menus;
    }
  }

  /** A superadmin, or a session with no role stored, sees all ten entries. */
  lemma SuperadminSeesAll()
    ensures MenuFor(None) == AllMenus && MenuFor(Some("superadmin")) == AllMenus
  {
    forall i | 0 <= i < |AllMenus| ensures Shows(AllMenus[i], Some(Superadmin)) {
    }
    AllListed(AllMenus, Superadmin);
    assert RoleOf(None) == Some(Superadmin) && RoleOf(Some("superadmin")) == Some(Superadmin);
  }

  /** A role string the bar does not know sees an empty menu. */
  lemma UnknownRoleSeesNothing(stored: string)
    requires stored !in {"", "superadmin", "bus", "ticket", "lease", "parking", "lostfound"}
    ensures MenuFor(Some(stored)) == []
  {
    VisibleMembers(AllMenus, RoleOf(Some(stored)));
  }

  /** The administration pages are the superadmin's alone. */
  lemma AdminPagesOnlyForSuperadmin(stored: Option<string>, p: Page)
    requires p in MenuFor(stored)
    requires p in {Dashboard, Reports, DeletionRequests, ManageEmployee}
    ensures RoleOf(stored) == Some(Superadmin)
  {
    VisibleMembers(AllMenus, RoleOf(stored));
  }

  /** The page of a module administrator's own module. */
  function ModulePage(role: Role): Page {
    match role
    case Superadmin => Dashboard
    case Bus => BusTrips
    case Ticket => Tickets
    case Lease => TenantsLease
    case Parking => ParkingPage
    case LostFound => LostAndFound
  }

  /** A module administrator sees the module's own page and the notifications,
      nothing else. */
  lemma ModuleRoleMenu(role: Role)
    requires role != Superadmin
    ensures Visible(AllMenus, Some(role)) == [ModulePage(role), Notifications]
  {
    match role
    case Bus => BusMenu();
    case Ticket => TicketMenu();
    case Lease => LeaseMenu();
    case Parking => ParkingMenu();
    case LostFound => LostFoundMenu();
  }

  lemma BusMenu() ensures Visible(AllMenus, Some(Bus)) == [BusTrips, Notifications] {}
  lemma TicketMenu() ensures Visible(AllMenus, Some(Ticket)) == [Tickets, Notifications] {}
  lemma LeaseMenu() ensures Visible(AllMenus, Some(Lease)) == [TenantsLease, Notifications] {}
  lemma ParkingMenu() ensures Visible(AllMenus, Some(Parking)) == [ParkingPage, Notifications] {}
  lemma LostFoundMenu() ensures Visible(AllMenus, Some(LostFound)) == [LostAndFound, Notifications] {}
}

=== FILE: sorting.dfy ===
/** Listing a collection the way `find(filter).sort({ field: -1 })` returns it:
    the matching documents, each once, newest (largest key) first. */
module Sorting {

  predicate SortedDesc<K, V>(xs: seq<(K, V)>, key: V -> int) {
    forall i, j :: 0 <= i < j < |xs| ==> key(xs[i].1) >= key(xs[j].1)
  }

  function KeysOf<K, V>(xs: seq<(K, V)>): set<K> {
    set i | 0 <= i < |xs| :: xs[i].0
  }

  predicate DistinctKeys<K(==), V>(xs: seq<(K, V)>) {
    forall i, j :: 0 <= i < j < |xs| ==> xs[i].0 != xs[j].0
  }

  /** Inserts `x` in front of the first entry whose key is not larger. */
  function InsertDesc<K(==), V(==)>(x: (K, V), xs: seq<(K, V)>, key: V -> int): (r: seq<(K, V)>)
    requires SortedDesc(xs, key)
    ensures |r| == |xs| + 1
    ensures SortedDesc(r, key)
    ensures forall i :: 0 <= i < |r| ==> r[i] in xs || r[i] == x
    ensures KeysOf(r) == KeysOf(xs) + {x.0}
    ensures DistinctKeys(xs) && x.0 !in KeysOf(xs) ==> DistinctKeys(r)
  {
    if |xs| == 0 then
      assert KeysOf([x]) == {x.0} by {
        KeysOfCons(x, xs);
      }
      [x]
    else if key(x.1) >= key(xs[0].1) then
      ConsSorted(x, xs, key);
      KeysOfCons(x, xs);
      ConsDistinct(x, xs);
      [x] + xs
    else
      var rest := InsertDesc(x, xs[1..], key);
      InsertBehind(x, xs, rest, key);
      [xs[0]] + rest
  }

  /** The step of `InsertDesc` that keeps the head and inserts into the tail. */
  lemma InsertBehind<K, V>(x: (K, V), xs: seq<(K, V)>, rest: seq<(K, V)>, key: V -> int)
    requires |xs| > 0 && SortedDesc(xs, key) && key(x.1) < key(xs[0].1)
    requires |rest| == |xs| && SortedDesc(rest, key)
    requires forall i :: 0 <= i < |rest| ==> rest[i] in xs[1..] || rest[i] == x
    requires KeysOf(rest) == KeysOf(xs[1..]) + {x.0}
    requires DistinctKeys(xs[1..]) && x.0 !in KeysOf(xs[1..]) ==> DistinctKeys(rest)
    ensures SortedDesc([xs[0]] + rest, key)
    ensures forall i :: 0 <= i < |rest| + 1 ==> ([xs[0]] + rest)[i] in xs || ([xs[0]] + rest)[i] == x
    ensures KeysOf([xs[0]] + rest) == KeysOf(xs) + {x.0}
    ensures DistinctKeys(xs) && x.0 !in KeysOf(xs) ==> DistinctKeys([xs[0]] + rest)
  {
    forall i | 0 <= i < |rest| ensures key(rest[i].1) <= key(xs[0].1) {
      if rest[i] != x {
        var j :| 0 <= j < |xs[1..]| && xs[1..][j] == rest[i];
        assert xs[j + 1] == rest[i];
      }
    }
    ConsSorted(xs[0], rest, key);
    KeysOfCons(xs[0], rest);
    KeysOfCons(xs[0], xs[1..]);
    assert xs == [xs[0]] + xs[1..];
    assert DistinctKeys(xs) ==> DistinctKeys(xs[1..]);
    ConsDistinct(xs[0], rest);
    var r := [xs[0]] + rest;
    forall i | 0 <= i < |r| ensures r[i] in xs || r[i] == x {
      if i > 0 {
        assert r[i] == rest[i - 1];
      }
    }
  }

  lemma ConsSorted<K, V>(x: (K, V), xs: seq<(K, V)>, key: V -> int)
    requires SortedDesc(xs, key)
    requires forall i :: 0 <= i < |xs| ==> key(xs[i].1) <= key(x.1)
    ensures SortedDesc([x] + xs, key)
  {
    var ys := [x] + xs;
    forall i, j | 0 <= i < j < |ys| ensures key(ys[i].1) >= key(ys[j].1) {
      assert ys[j] == xs[j - 1];
      if i > 0 {
        assert ys[i] == xs[i - 1];
      }
    }
  }

  lemma ConsDistinct<K, V>(x: (K, V), xs: seq<(K, V)>)
    ensures DistinctKeys(xs) && x.0 !in KeysOf(xs) ==> DistinctKeys([x] + xs)
  {
    var ys := [x] + xs;
    if DistinctKeys(xs) && x.0 !in KeysOf(xs) {
      forall i, j | 0 <= i < j < |ys| ensures ys[i].0 != ys[j].0 {
        assert ys[j] == xs[j - 1];
        if i > 0 {
          assert ys[i] == xs[i - 1];
        }
      }
    }
  }

  lemma KeysOfCons<K, V>(x: (K, V), xs: seq<(K, V)>)
    ensures KeysOf([x] + xs) == {x.0} + KeysOf(xs)
  {
    var ys := [x] + xs;
    forall k | k in KeysOf(ys) ensures k in {x.0} + KeysOf(xs) {
      var i :| 0 <= i < |ys| && ys[i].0 == k;
      if i > 0 {
        assert xs[i - 1].0 == k;
      }
    }
    forall k | k in KeysOf(xs) ensures k in KeysOf(ys) {
      var i :| 0 <= i < |xs| && xs[i].0 == k;
      assert ys[i + 1].0 == k;
    }
    assert ys[0].0 == x.0;
  }

  /** The entries of `m` whose value satisfies `keep`, each exactly once,
      in descending order of `key` (the order among equal keys is unspecified). */
  method ListDesc<K(==), V(==)>(m: map<K, V>, keep: V -> bool, key: V -> int) returns (out: seq<(K, V)>)
    ensures SortedDesc(out, key)
    ensures DistinctKeys(out)
    ensures forall i :: 0 <= i < |out| ==> out[i].0 in m && out[i].1 == m[out[i].0] && keep(out[i].1)
    ensures forall k :: k in m && keep(m[k]) ==> k in KeysOf(out)
  {
    out := [];
    var rest := m.Keys;
    while rest != {}
      invariant rest <= m.Keys
      invariant SortedDesc(out, key)
      invariant DistinctKeys(out)
      invariant forall i :: 0 <= i < |out| ==> out[i].0 in m && out[i].1 == m[out[i].0] && keep(out[i].1)
      invariant KeysOf(out) !! rest
      invariant forall k :: k in m && k !in rest && keep(m[k]) ==> k in KeysOf(out)
      decreases |rest|
    {
      var k :| k in rest;
      if keep(m[k]) {
        var prev := out;
        out := InsertDesc((k, m[k]), out, key);
        forall i | 0 <= i < |out| ensures out[i].0 in m && out[i].1 == m[out[i].0] && keep(out[i].1) {
          assert out[i] in prev || out[i] == (k, m[k]);
          if out[i] in prev {
            var j :| 0 <= j < |prev| && prev[j] == out[i];
          }
        }
      }
      rest := rest - {k};
    }
  }
}

=== FILE: stat_cards.dfy ===
/** The dashboard's summary cards: the placeholder cards shown without data, the
    trend badge read off the sign of the change text, and the colour palette. */
module StatCards {
  import opened Wrappers
  import opened Text

  /** One card's data (`name` holds the card's `label` field). `change` is None when the
      field is missing. */
  datatype Stat = Stat(name: string, value: string, change: Option<string>, subtitle: string, color: string)

  /** The four placeholder cards. */
  const DefaultStats: seq<Stat> := [
    Stat("Tickets", "0", Some("+0%"), "No Data", "red"),
    Stat("Bus", "0", Some("+0%"), "No Data", "yellow"),
    Stat("Tenants/Lease", "0", Some("+0%"), "No Data", "green"),
    Stat("Parking", "0", Some("+0%"), "No Data", "blue")
  ]

  /** `statsData && statsData.length > 0 ? statsData : defaultStats`. */
  function Stats(statsData: Option<seq<Stat>>): (r: seq<Stat>)
    ensures |r| > 0
    ensures statsData.None? || statsData == Some([]) ==> r == DefaultStats
    ensures statsData.Some? && |statsData.value| > 0 ==> r == statsData.value
  {
    if statsData.Some? && |statsData.value| > 0 then statsData.value else DefaultStats
  }

  // ---------------------------------------------------------------------
  // Colour
  // ---------------------------------------------------------------------

  datatype Palette = Red | Yellow | Green | Blue

  /** `colorMap[stat.color] || colorMap.red`. */
  function PaletteOf(color: string): (p: Palette)
    ensures p == Yellow <==> color == "yellow"
    ensures p == Green <==> color == "green"
    ensures p == Blue <==> color == "blue"
    ensures color !in {"yellow", "green", "blue"} <==> p == Red
  {
    match color
    case "yellow" => Yellow
    case "green" => Green
    case "blue" => Blue
    case _ => Red
  }

  // ---------------------------------------------------------------------
  // Trend badge
  // ---------------------------------------------------------------------

  datatype Trend = Up | Down | Neutral

  /** `stat.change || ""`. */
  function ChangeText(change: Option<string>): string {
    change.GetOr("")
  }

  /** Up for a leading "+", down for a leading "-", neutral otherwise. */
  function TrendOf(changeText: string): (t: Trend)
    ensures t == Up <==> |changeText| > 0 && changeText[0] == '+'
    ensures t == Down <==> |changeText| > 0 && changeText[0] == '-'
    ensures t == Neutral <==> |changeText| == 0 || changeText[0] !in {'+', '-'}
  {
    if StartsWith(changeText, "+") then Up
    else if StartsWith(changeText, "-") then Down
    else Neutral
  }

  /** `changeText.replace("+", "").replace("-", "")`: the first plus sign and
      then the first minus sign are removed, nothing else. */
  function CleanChange(changeText: string): (r: string)
    ensures |changeText| - 2 <= |r| <= |changeText|
    ensures '+' !in changeText && '-' !in changeText ==> r == changeText
  {
    RemoveFirst(RemoveFirst(changeText, '+'), '-')
  }

  /** What one card shows besides its label, value and subtitle. */
  datatype Card = Card(palette: Palette, trend: Trend, shownChange: string)

  function CardOf(stat: Stat): (c: Card)
    ensures c.palette == PaletteOf(stat.color)
    ensures c.trend == TrendOf(ChangeText(stat.change))
    ensures c.shownChange == CleanChange(ChangeText(stat.change))
  {
    var text := ChangeText(stat.change);
    Card(PaletteOf(stat.color), TrendOf(text), CleanChange(text))
  }

  /** The cards, one per stat, in order. */
  function Cards(statsData: Option<seq<Stat>>): (r: seq<Card>)
    ensures |r| == |Stats(statsData)|
    ensures forall i :: 0 <= i < |r| ==> r[i] == CardOf(Stats(statsData)[i])
  {
    var stats := Stats(statsData);
    seq(|stats|, i requires 0 <= i < |stats| => CardOf(stats[i]))
  }

  // ---------------------------------------------------------------------
  // Properties
  // ---------------------------------------------------------------------

  /** A signed change shows its digits without the sign and with the trend of
      the sign. */
  lemma SignedChange(sign: char, digits: string)
    requires sign == '+' || sign == '-'
    requires '+' !in digits && '-' !in digits
    ensures TrendOf([sign] + digits) == (if sign == '+' then Up else Down)
    ensures CleanChange([sign] + digits) == digits
  {
    var s := [sign] + digits;
    assert s[1..] == digits;
    if sign == '+' {
      assert IndexOf(s, '+') == Some(0);
      assert RemoveFirst(s, '+') == digits;
    } else {
      assert '+' !in s;
      assert IndexOf(s, '-') == Some(0);
    }
  }

  /** A missing change counts as the empty text: a neutral badge with nothing in it. */
  lemma MissingChangeNeutral(stat: Stat)
    requires stat.change.None?
    ensures CardOf(stat) == Card(PaletteOf(stat.color), Neutral, "")
  {
  }

  /** Only the first occurrence of each sign goes: a change that carries two plus
      signs still shows one. */
  lemma SecondPlusKept(rest: string)
    requires '+' !in rest && '-' !in rest
    ensures CleanChange("+" + "+" + rest) == "+" + rest
  {
    var s := "+" + "+" + rest;
    assert IndexOf(s, '+') == Some(0);
    assert s[1..] == "+" + rest;
    assert '-' !in "+" + rest;
  }

  /** Without data the four placeholder cards read a rising "0%", in red,
      yellow, green and blue. */
  lemma DefaultCards()
    ensures Cards(None) == [Card(Red, Up, "0%"), Card(Yellow, Up, "0%"), Card(Green, Up, "0%"), Card(Blue, Up, "0%")]
  {
    SignedChange('+', "0%");
    assert "+0%" == ['+'] + "0%";
  }

  /** An unknown colour name falls back to the red palette. */
  lemma UnknownColourIsRed(stat: Stat)
    requires stat.color !in {"red", "yellow", "green", "blue"}
    ensures CardOf(stat).palette == Red
  {
  }
}

=== FILE: table_page.dfy ===
/** The table pages' shared selection mode: a list of selected row ids, a
    "select all on this page" checkbox and the page of rows it refers to. */
module TablePage {
  import opened Json
  import Rows
  import Selection
  import Pagination

  /** The ids of the rows shown on page `current`. */
  function PageIds(rows: seq<Doc>, current: int, per: int): (r: seq<Rows.Id>)
    requires per >= 1
    ensures |r| <= per
  {
    Rows.Ids(Pagination.PageSlice(rows, current, per))
  }

  /** Every row whose position puts it on page `current` has its id among the
      page's ids. */
  lemma PageHoldsItsRows(rows: seq<Doc>, current: int, per: int)
    requires per >= 1
    ensures forall k :: 0 <= k < |rows| && k / per + 1 == current ==>
              Rows.RowId(rows[k]) in PageIds(rows, current, per)
  {
    var r := PageIds(rows, current, per);
    forall k | 0 <= k < |rows| && k / per + 1 == current
      ensures Rows.RowId(rows[k]) in r
    {
      Pagination.ItemOnPage(rows, per, k);
      assert r[k % per] == Rows.RowId(rows[k]);
    }
  }

  /** Conversely, from page 1 on the page's ids are those of the rows from the
      page's first position onwards, in stored order, and nothing else. */
  lemma PageRowsInPlace(rows: seq<Doc>, current: int, per: int)
    requires per >= 1 && current >= 1
    ensures var r := PageIds(rows, current, per);
            forall j :: 0 <= j < |r| ==>
              Pagination.PageStart(current, per) + j < |rows|
              && r[j] == Rows.RowId(rows[Pagination.PageStart(current, per) + j])
  {
    Pagination.PageAt(rows, current, per);
  }

  /** isAllSelected: the page is non-empty and every id on it is selected. */
  predicate AllSelected(sel: seq<Rows.Id>, rows: seq<Doc>, current: int, per: int)
    requires per >= 1
  {
    var page := PageIds(rows, current, per);
    |page| > 0 && forall i :: 0 <= i < |page| ==> page[i] in sel
  }

  /** handleSelectAll: checking adds the page's ids, unchecking removes them; ids
      of other pages stay as they were either way. */
  function SelectAll(sel: seq<Rows.Id>, rows: seq<Doc>, current: int, per: int, checked: bool)
    : (r: seq<Rows.Id>)
    requires per >= 1
    ensures var page := PageIds(rows, current, per);
            forall y :: y !in page ==> (y in r <==> y in sel)
    ensures checked ==> forall y :: y in PageIds(rows, current, per) ==> y in r
    ensures !checked ==> forall y :: y in PageIds(rows, current, per) ==> y !in r
  {
    var page := PageIds(rows, current, per);
    if checked then Selection.SelectPage(sel, page) else Selection.DeselectPage(sel, page)
  }

  /** After checking "select all" on a page with rows, the header checkbox
      shows the page as fully selected. */
  lemma SelectAllChecksHeader(sel: seq<Rows.Id>, rows: seq<Doc>, current: int, per: int)
    requires per >= 1 && |Pagination.PageSlice(rows, current, per)| > 0
    ensures AllSelected(SelectAll(sel, rows, current, per, true), rows, current, per)
  {
  }


  /** Unchecking "select all" right after checking it gives back the earlier
      selection when that held none of the page's ids. */
  lemma CheckThenUncheck(sel: seq<Rows.Id>, rows: seq<Doc>, current: int, per: int)
    requires per >= 1
    requires Selection.NoDuplicates(sel)
    requires forall i :: 0 <= i < |sel| ==> sel[i] !in PageIds(rows, current, per)
    ensures SelectAll(SelectAll(sel, rows, current, per, true), rows, current, per, false) == sel
  {
    Selection.SelectThenDeselect(sel, PageIds(rows, current, per));
  }

  /** toggleSelectionMode: leaving selection mode drops the selection; entering
      it keeps it. */
  function ToggleMode(on: bool, sel: seq<Rows.Id>): (r: (bool, seq<Rows.Id>))
    ensures r.0 == !on
    ensures on ==> r.1 == []
    ensures !on ==> r.1 == sel
  {
    (!on, if on then [] else sel)
  }
}

=== FILE: tenant_api.dfy ===
/** The tenant controller. Creating a tenant may name the application it came from
    (`transferWaitlistId`); that application is then marked TENANT. A welcome
    e-mail is produced when the new tenant has an address. */
module TenantApi {
  import opened Wrappers
  import opened Json
  import opened Http
  import opened WaitlistApi
  import Sorting

  datatype Backend = Backend(applications: Applications, tenants: map<Id, Stored>)

  const WelcomeSubject := "Final Approval - Welcome to IBT Stalls!"
  const TenantStatus := "TENANT"

  datatype CreateResult = CreateResult(state: Backend, reply: Reply<Doc>, mail: Option<Mail>)

  /** The application id a create request names, when it is a non-empty string. */
  function TransferId(body: Doc): (r: Option<Id>)
    ensures r.Some? ==> FieldTruthy(body, "transferWaitlistId") && body["transferWaitlistId"] == JStr(r.value)
    ensures !FieldTruthy(body, "transferWaitlistId") ==> r.None?
  {
    if FieldTruthy(body, "transferWaitlistId") && body["transferWaitlistId"].JStr? then
      Some(body["transferWaitlistId"].s)
    else
      None
  }

  /** The transfer step throws: the body names an application by a truthy
      `transferWaitlistId` that does not cast to an ObjectId. */
  predicate TransferThrows(body: Doc, transferCasts: bool) {
    FieldTruthy(body, "transferWaitlistId") && !transferCasts
  }

  /** createTenant. When the schema rejects the body nothing changes and the reply is
      500. Otherwise the tenant is saved first, keeping only the body's fields among
      the strict schema's `paths` (so a `transferWaitlistId` the schema does not
      declare is read from the request but not stored). When the transfer step then throws,
      the tenant stays saved, no application changes, no mail is produced and the
      reply is 500. Otherwise the named application (if it exists) gets status
      TENANT with its other fields kept, no other application changes, and the
      reply is 201 with the saved tenant; the welcome mail is produced exactly when
      the saved tenant's e-mail is truthy, and its failure would not change the reply. */
  function CreateTenant(b: Backend, newId: Id, body: Doc, paths: set<string>, valid: bool, transferCasts: bool,
                        now: int): (r: CreateResult)
    requires newId !in b.tenants
    ensures !valid ==> r.state == b && r.reply.status == 500 && r.mail.None?
    ensures valid ==>
              && r.state.tenants.Keys == b.tenants.Keys + {newId}
              && (forall id :: id in b.tenants ==> r.state.tenants[id] == b.tenants[id])
              && r.state.tenants[newId].doc.Keys == body.Keys * paths
              && (forall k :: k in r.state.tenants[newId].doc ==> r.state.tenants[newId].doc[k] == body[k])
              && r.state.tenants[newId].createdAt == now
    ensures valid && TransferThrows(body, transferCasts) ==>
              r.reply.Message? && r.reply.status == 500 && r.mail.None?
    ensures valid && !TransferThrows(body, transferCasts) ==>
              && r.reply == Payload(201, r.state.tenants[newId].doc)
              && (r.mail.Some? <==> "email" in paths && FieldTruthy(body, "email"))
              && (r.mail.Some? ==> r.mail.value == Mail(body["email"], WelcomeSubject))
    ensures r.state.applications.Keys == b.applications.Keys
    ensures forall id :: id in b.applications && (!valid || TransferThrows(body, transferCasts) || TransferId(body) != Some(id)) ==>
              r.state.applications[id] == b.applications[id]
    ensures valid && !TransferThrows(body, transferCasts) && TransferId(body).Some? && TransferId(body).value in b.applications ==>
              var id := TransferId(body).value;
              && r.state.applications[id].doc == b.applications[id].doc["status" := JStr(TenantStatus)]
              && r.state.applications[id].createdAt == b.applications[id].createdAt
  {
    if !valid then
      CreateResult(b, Message(500, "validation failed"), None)
    else
      var saved := Strict(body, paths);
      var tenants := b.tenants[newId := Stored(saved, now)];
      if TransferThrows(body, transferCasts) then
        CreateResult(b.(tenants := tenants), Message(500, "cast failed"), None)
      else
        var apps :=
          match TransferId(body)
          case Some(id) =>
            if id in b.applications then
              b.applications[id := b.applications[id].(doc := ApplyPatch(b.applications[id].doc, map["status" := JStr(TenantStatus)]))]
            else
              b.applications
          case None => b.applications;
        var mail := if FieldTruthy(saved, "email") then Some(Mail(saved["email"], WelcomeSubject)) else None;
        CreateResult(Backend(apps, tenants), Payload(201, saved), mail)
  }

  /** getTenantById: an id that does not cast (`idCasts` false) is a 500, a
      missing one a 404. */
  function GetTenant(b: Backend, id: Id, idCasts: bool): (r: Reply<Doc>)
    ensures idCasts && id in b.tenants <==> r.Payload?
    ensures !idCasts ==> r.Message? && r.status == 500
    ensures idCasts && id in b.tenants ==> r == Payload(200, b.tenants[id].doc)
    ensures idCasts && id !in b.tenants ==> r == Message(404, "Tenant not found")
  {
    if !idCasts then Message(500, "cast failed")
    else if id in b.tenants then Payload(200, b.tenants[id].doc)
    else Message(404, "Tenant not found")
  }

  /** updateTenant: merges the fields of the body that the strict schema
      declares (`paths`). When the id or a written value does not cast (`casts`
      false) the reply is 500 and nothing changes; a missing id is a 404 and
      changes nothing. The creation time is kept. */
  function UpdateTenant(b: Backend, id: Id, body: Doc, paths: set<string>, casts: bool): (r: (Backend, Reply<Doc>))
    ensures !casts ==> r.0 == b && r.1.Message? && r.1.status == 500
    ensures casts && id !in b.tenants ==> r == (b, Message(404, "Tenant not found"))
    ensures casts && id in b.tenants ==>
              && r.0.applications == b.applications
              && r.0.tenants.Keys == b.tenants.Keys
              && (forall other :: other in b.tenants && other != id ==> r.0.tenants[other] == b.tenants[other])
              && r.0.tenants[id].doc == ApplyPatch(b.tenants[id].doc, Strict(body, paths))
              && r.0.tenants[id].createdAt == b.tenants[id].createdAt
              && r.1 == Payload(200, r.0.tenants[id].doc)
  {
    if !casts then
      (b, Message(500, "cast failed"))
    else if id !in b.tenants then
      (b, Message(404, "Tenant not found"))
    else
      var updated := b.tenants[id].(doc := ApplyPatch(b.tenants[id].doc, Strict(body, paths)));
      (b.(tenants := b.tenants[id := updated]), Payload(200, updated.doc))
  }

  /** deleteTenant: an id that does not cast is a 500 and deletes nothing;
      otherwise success whether or not the id existed. */
  function DeleteTenant(b: Backend, id: Id, idCasts: bool): (r: (Backend, Reply<Doc>))
    ensures !idCasts ==> r.0 == b && r.1.Message? && r.1.status == 500
    ensures r.0.applications == b.applications
    ensures idCasts ==> r.0.tenants.Keys == b.tenants.Keys - {id}
    ensures forall other :: other in r.0.tenants ==> other in b.tenants && r.0.tenants[other] == b.tenants[other]
    ensures idCasts ==> r.1 == Message(200, "Tenant deleted successfully")
  {
    if !idCasts then (b, Message(500, "cast failed"))
    else (b.(tenants := b.tenants - {id}), Message(200, "Tenant deleted successfully"))
  }

  /** getTenants: every tenant once, newest first. */
  method ListTenants(b: Backend) returns (reply: Reply<seq<(Id, Stored)>>)
    ensures reply.Payload? && reply.status == 200
    ensures Sorting.SortedDesc(reply.value, (t: Stored) => t.createdAt)
    ensures Sorting.DistinctKeys(reply.value)
    ensures forall i :: 0 <= i < |reply.value| ==>
              reply.value[i].0 in b.tenants && reply.value[i].1 == b.tenants[reply.value[i].0]
    ensures Sorting.KeysOf(reply.value) == b.tenants.Keys
  {
    var listed := Sorting.ListDesc(b.tenants, (t: Stored) => true, (t: Stored) => t.createdAt);
    reply := Payload(200, listed);
  }

  /** A create without `transferWaitlistId` touches no application. */
  lemma CreateWithoutTransferKeepsApplications(b: Backend, newId: Id, body: Doc, paths: set<string>, valid: bool,
                                               transferCasts: bool, now: int)
    requires newId !in b.tenants && "transferWaitlistId" !in body
    ensures CreateTenant(b, newId, body, paths, valid, transferCasts, now).state.applications == b.applications
  {
    var r := CreateTenant(b, newId, body, paths, valid, transferCasts, now);
    assert forall id :: id in b.applications ==> r.state.applications[id] == b.applications[id];
  }
}

=== FILE: tenant_lease.dfy ===
/** The tenant and lease page: the stall map of a section, the tenant list filters,
    the waitlist, the admin steps of the application workflow, archiving and
    broadcast targeting. The page's handlers are modelled by the calls they send;
    the backend's answer to those calls comes from the tenant and waitlist
    controllers. */
module TenantLease {
  import opened Wrappers
  import opened Json
  import opened Text
  import opened Calls
  import Rows
  import Bulk
  import Review
  import WaitlistApi
  import TenantApi

  /** Stalls per section. */
  const Capacity := 30

  // ---------------------------------------------------------------------
  // Stall map
  // ---------------------------------------------------------------------

  /** The label of stall `i` (from 0): A-101 … A-130 in the permanent section,
      NM-01 … NM-30 in the night market. */
  function SlotLabel(permanent: bool, i: nat): (r: string)
    requires i < Capacity
    ensures permanent ==> r == "A-" + Decimal(101 + i)
    ensures !permanent ==> r == "NM-" + PadStart(Decimal(i + 1), 2, '0')
  {
    if permanent then "A-" + Decimal(101 + i) else "NM-" + PadStart(Decimal(i + 1), 2, '0')
  }

  /** Night-market numbers are exactly two digits and read back as the stall's
      number from 1. */
  lemma NightLabelDigits(i: nat)
    requires i < Capacity
    ensures var d := PadStart(Decimal(i + 1), 2, '0');
            |d| == 2 && AllDigits(d) && ParseDecimal(d) == i + 1
  {
    var n := i + 1;
    ParseDecimalOfDecimal(n);
    var d := PadStart(Decimal(n), 2, '0');
    if n < 10 {
      assert Decimal(n) == [DigitChar(n)];
      assert d == ['0', DigitChar(n)];
      assert d[..1] == ['0'];
      assert d[..1][..0] == [];
    } else {
      assert Decimal(n) == Decimal(n / 10) + [DigitChar(n % 10)];
      assert Decimal(n / 10) == [DigitChar(n / 10)];
      assert d == Decimal(n);
    }
  }

  /** Permanent numbers are three digits and read back as 101 plus the index. */
  lemma PermanentLabelDigits(i: nat)
    requires i < Capacity
    ensures |Decimal(101 + i)| == 3 && ParseDecimal(Decimal(101 + i)) == 101 + i
  {
    var n := 101 + i;
    ParseDecimalOfDecimal(n);
    assert Decimal(n) == Decimal(n / 10) + [DigitChar(n % 10)];
    assert Decimal(n / 10) == Decimal(n / 100) + [DigitChar((n / 10) % 10)];
    assert Decimal(n / 100) == [DigitChar(n / 100)];
  }

  /** Different stalls of a section never share a label. */
  lemma SlotLabelsDistinct(permanent: bool, i: nat, j: nat)
    requires i < Capacity && j < Capacity && i != j
    ensures SlotLabel(permanent, i) != SlotLabel(permanent, j)
  {
    if permanent {
      var x, y := Decimal(101 + i), Decimal(101 + j);
      ParseDecimalOfDecimal(101 + i);
      ParseDecimalOfDecimal(101 + j);
      assert x != y;
      PrefixCancel("A-", x, y);
    } else {
      var x, y := PadStart(Decimal(i + 1), 2, '0'), PadStart(Decimal(j + 1), 2, '0');
      NightLabelDigits(i);
      NightLabelDigits(j);
      assert x != y;
      PrefixCancel("NM-", x, y);
    }
  }

  lemma PrefixCancel(p: string, x: string, y: string)
    ensures (p + x)[|p|..] == x && (p + y)[|p|..] == y
  {
  }

  /** The section a tenant belongs to: permanent includes tenants with no type. */
  predicate InSection(permanent: bool, t: Doc) {
    if permanent then Get(t, "tenantType") == Some(JStr("Permanent")) || !FieldTruthy(t, "tenantType")
    else Get(t, "tenantType") == Some(JStr("Night Market"))
  }

  /** No tenant is in both sections, and a tenant without a type is permanent. */
  lemma SectionsDisjoint(t: Doc)
    ensures !(InSection(true, t) && InSection(false, t))
    ensures !FieldTruthy(t, "tenantType") ==> InSection(true, t)
  {
  }

  /** The tenant `records.find` picks for a stall: the first of the section whose
      `slotNo` or `slotno` is the label. */
  predicate HoldsSlot(t: Doc, slot: string, permanent: bool) {
    (Get(t, "slotNo") == Some(JStr(slot)) || Get(t, "slotno") == Some(JStr(slot))) && InSection(permanent, t)
  }

  function FindSlot(records: seq<Doc>, slot: string, permanent: bool): (r: Option<nat>)
    ensures r.None? <==> forall k :: 0 <= k < |records| ==> !HoldsSlot(records[k], slot, permanent)
    ensures r.Some? ==> r.value < |records| && HoldsSlot(records[r.value], slot, permanent)
    ensures r.Some? ==> forall k :: 0 <= k < r.value ==> !HoldsSlot(records[k], slot, permanent)
  {
    if |records| == 0 then None
    else if HoldsSlot(records[0], slot, permanent) then Some(0)
    else match FindSlot(records[1..], slot, permanent)
      case None => None
      case Some(k) => Some(k + 1)
  }

  /** A stall is taken when a tenant holds it and that tenant's status is not
      "Available" (a missing status counts as taken). */
  predicate Occupied(records: seq<Doc>, permanent: bool, i: nat)
    requires i < Capacity
  {
    match FindSlot(records, SlotLabel(permanent, i), permanent)
    case None => false
    case Some(k) => Get(records[k], "status") != Some(JStr("Available"))
  }

  /** The number of taken stalls among the first `n`. */
  function OccupiedCount(records: seq<Doc>, permanent: bool, n: nat): (c: nat)
    requires n <= Capacity
    ensures c <= n
  {
    if n == 0 then 0
    else OccupiedCount(records, permanent, n - 1) + (if Occupied(records, permanent, n - 1) then 1 else 0)
  }

  /** mapStats: walks the thirty stalls of the section and counts available and
      taken ones; the two counts always add up to the capacity. */
  method MapStats(records: seq<Doc>, permanent: bool) returns (available: nat, occupied: nat)
    ensures occupied == OccupiedCount(records, permanent, Capacity)
    ensures available + occupied == Capacity
  {
    available, occupied := 0, 0;
    var i := 0;
    while i < Capacity
      invariant 0 <= i <= Capacity
      invariant occupied == OccupiedCount(records, permanent, i)
      invariant available + occupied == i
    {
      assert OccupiedCount(records, permanent, i + 1)
               == OccupiedCount(records, permanent, i) + (if Occupied(records, permanent, i) then 1 else 0);
      if Occupied(records, permanent, i) {
        occupied := occupied + 1;
      } else {
        available := available + 1;
      }
      i := i + 1;
    }
  }

  // ---------------------------------------------------------------------
  // Tenant list filter
  // ---------------------------------------------------------------------

  /** The tenant list's state. */
  datatype Filter = Filter(search: string, permanent: bool, date: string, status: string)

  /** One tenant passes the list filter: the search hits the name (tenantName, else
      name) or the reference number; the tenant is in the tab's section; a chosen
      date is its start day; the status filter is "All" or equal ignoring case. */
  predicate Listed(f: Filter, t: Doc, sameDay: (Option<Json>, string) -> bool) {
    var name := Show(ListName(t));
    && (ContainsIgnoreCase(name, f.search) || ContainsIgnoreCase(StrOr(t, "referenceNo", ""), f.search))
    && InSection(f.permanent, t)
    && (f.date == "" || sameDay(Get(t, "StartDateTime"), f.date))
    && (f.status == "All" || Lower(StrOr(t, "status", "")) == Lower(f.status))
  }

  /** `t.tenantName || t.name || ""`. */
  function ListName(t: Doc): Option<Json> {
    OrElse(OrElse(Get(t, "tenantName"), Get(t, "name")), Some(JStr("")))
  }

  /** Filtering throws on `t`: `toLowerCase` is called on the name always, on a
      truthy reference number when the name misses, and on the status whenever a
      status other than "All" is chosen; on anything but a string it throws. */
  predicate FilterThrows(f: Filter, t: Doc) {
    || !IsStr(ListName(t))
    || (!ContainsIgnoreCase(ListName(t).value.s, f.search)
        && FieldTruthy(t, "referenceNo") && !IsStr(Get(t, "referenceNo")))
    || (f.status != "All" && !IsStr(Get(t, "status")))
  }

  /** The page's test, as a function of the filter settings. */
  function ListedBy(f: Filter, sameDay: (Option<Json>, string) -> bool): Doc -> bool {
    t => Listed(f, t, sameDay)
  }

  /** The listed tenants, in stored order; None when filtering throws on some tenant, which
      leaves the page without a list. */
  function Filtered(f: Filter, records: seq<Doc>, sameDay: (Option<Json>, string) -> bool): (r: Option<seq<Doc>>)
    ensures r.None? <==> exists i :: 0 <= i < |records| && FilterThrows(f, records[i])
    ensures r.Some? ==> r.value == Rows.Where(records, ListedBy(f, sameDay))
    ensures r.Some? ==> forall t :: t in r.value <==> t in records && Listed(f, t, sameDay)
  {
    Rows.TryWhere(records, t => FilterThrows(f, t), ListedBy(f, sameDay))
  }

  /** A tenant with neither name is listed under the empty name, so it never
      breaks the list while the status filter is "All" and its reference number,
      if any, is a string; with a status chosen, a tenant without a status does. */
  lemma NamelessTenantListed(f: Filter, t: Doc)
    requires !TruthyOpt(Get(t, "tenantName")) && !TruthyOpt(Get(t, "name"))
    ensures f.status == "All" && (!FieldTruthy(t, "referenceNo") || IsStr(Get(t, "referenceNo"))) ==> !FilterThrows(f, t)
    ensures f.status != "All" && Get(t, "status").None? ==> FilterThrows(f, t)
  {
    assert ListName(t) == Some(JStr(""));
  }

  // ---------------------------------------------------------------------
  // Waitlist and application workflow
  // ---------------------------------------------------------------------

  /** The displayed waitlist: every application not yet a tenant. */
  function ActiveWaitlist(apps: seq<Doc>): (r: seq<Doc>)
    ensures forall a :: a in r <==> a in apps && Get(a, "status") != Some(JStr(TenantApi.TenantStatus))
  {
    Rows.Where(apps, a => Get(a, "status") != Some(JStr(TenantApi.TenantStatus)))
  }

  /** handleAddToWaitlist: refused without a name or a contact; otherwise the form,
      stamped with the request time and status "Pending", is posted. */
  function AddToWaitlist(form: Doc, requestedAt: string): (r: Option<Call>)
    ensures r.None? <==> !FieldTruthy(form, "name") || !FieldTruthy(form, "contact")
    ensures r.Some? ==> r.value.Post? && r.value.endpoint == Waitlist
                        && Get(r.value.body, "status") == Some(JStr("Pending"))
                        && forall k :: k in form && k != "status" && k != "dateRequested" ==>
                             k in r.value.body && r.value.body[k] == form[k]
  {
    if !FieldTruthy(form, "name") || !FieldTruthy(form, "contact") then None
    else Some(Post(Waitlist, form["dateRequested" := JStr(requestedAt)]["status" := JStr("Pending")]))
  }

  /** A fresh application waits for the applicant: the review offers nothing. */
  lemma NewApplicationOffersNothing(form: Doc, requestedAt: string)
    requires AddToWaitlist(form, requestedAt).Some?
    ensures Review.OfferedFor(AddToWaitlist(form, requestedAt).value.body) == {}
  {
  }

  /** The status update sent for the application under review, if it has an id. */
  function StatusUpdate(review: Option<Doc>, status: string): (r: seq<Call>)
    ensures r == [] <==> review.None? || !FieldTruthy(review.value, "id")
    ensures r != [] ==> r == [Put(Waitlist, Show(Get(review.value, "id")), map["status" := JStr(status)])]
  {
    if review.None? || !FieldTruthy(review.value, "id") then []
    else [Put(Waitlist, Show(Get(review.value, "id")), map["status" := JStr(status)])]
  }

  /** handleUnlockPayment. */
  function UnlockPayment(review: Option<Doc>): seq<Call> {
    StatusUpdate(review, WaitlistApi.PaymentUnlocked)
  }

  /** handleRequestContract. */
  function RequestContract(review: Option<Doc>): seq<Call> {
    StatusUpdate(review, WaitlistApi.ContractPending)
  }

  /** handleAddTenant: the new tenant's fields with `transferWaitlistId` set to the
      id of the application being turned into a lease, or left out when there is
      none. */
  function AddTenant(newTenant: Doc, transfer: Option<Doc>): (c: Call)
    ensures c.Post? && c.endpoint == Tenants
    ensures transfer.Some? && FieldTruthy(transfer.value, "id") ==>
              Get(c.body, "transferWaitlistId") == Get(transfer.value, "id")
    ensures transfer.None? ==> "transferWaitlistId" !in c.body
    ensures forall k :: k in newTenant && k != "transferWaitlistId" ==> k in c.body && c.body[k] == newTenant[k]
  {
    var id := if transfer.Some? then Get(transfer.value, "id") else None;
    Post(Tenants, SetField(newTenant - {"transferWaitlistId"}, "transferWaitlistId", id))
  }

  /** The admin step offered for an application, carried out: unlocking payment sets
      PAYMENT_UNLOCKED, mails the unlock subject to the applicant and leaves the
      review waiting for the applicant. */
  lemma UnlockStep(apps: WaitlistApi.Applications, id: Rows.Id, review: Doc, paths: set<string>)
    requires id in apps && id != "" && "status" in paths
    requires Get(review, "id") == Some(JStr(id))
    requires Review.UnlockPayment in Review.OfferedFor(apps[id].doc)
    ensures var calls := UnlockPayment(Some(review));
            && |calls| == 1 && calls[0].Put? && calls[0].id == id
            && var r := WaitlistApi.UpdateWaitlist(apps, calls[0].id, calls[0].body, paths, true);
               && Get(r.apps[id].doc, "status") == Some(JStr(WaitlistApi.PaymentUnlocked))
               && r.mail == Some(WaitlistApi.Mail(WaitlistApi.FieldOrNull(r.apps[id].doc, "email"), WaitlistApi.UnlockSubject))
               && Review.OfferedFor(r.apps[id].doc) == {}
  {
    var r := WaitlistApi.UpdateWaitlist(apps, id, map["status" := JStr(WaitlistApi.PaymentUnlocked)], paths, true);
    assert r.apps[id].doc["status"] == JStr(WaitlistApi.PaymentUnlocked);
    assert Review.EffectiveStatus(r.apps[id].doc) == WaitlistApi.PaymentUnlocked;
  }

  /** Requesting the contract of a permanent applicant in payment review sets
      CONTRACT_PENDING, mails the contract subject and leaves the review waiting. */
  lemma ContractStep(apps: WaitlistApi.Applications, id: Rows.Id, review: Doc, paths: set<string>)
    requires id in apps && id != "" && "status" in paths
    requires Get(review, "id") == Some(JStr(id))
    requires Review.RequestContract in Review.OfferedFor(apps[id].doc)
    ensures var calls := RequestContract(Some(review));
            && |calls| == 1 && calls[0].Put? && calls[0].id == id
            && var r := WaitlistApi.UpdateWaitlist(apps, calls[0].id, calls[0].body, paths, true);
               && Get(r.apps[id].doc, "status") == Some(JStr(WaitlistApi.ContractPending))
               && r.mail == Some(WaitlistApi.Mail(WaitlistApi.FieldOrNull(r.apps[id].doc, "email"), WaitlistApi.ContractSubject))
               && Review.OfferedFor(r.apps[id].doc) == {}
  {
    var r := WaitlistApi.UpdateWaitlist(apps, id, map["status" := JStr(WaitlistApi.ContractPending)], paths, true);
    assert r.apps[id].doc["status"] == JStr(WaitlistApi.ContractPending);
    assert Review.EffectiveStatus(r.apps[id].doc) == WaitlistApi.ContractPending;
  }

  /** Creating the lease for an application under review promotes it to TENANT: it
      leaves the displayed waitlist and the review offers nothing more. */
  lemma LeaseStep(b: TenantApi.Backend, id: Rows.Id, review: Doc, newTenant: Doc, newId: Rows.Id, paths: set<string>,
                  now: int)
    requires id in b.applications && id != "" && newId !in b.tenants
    requires Get(review, "id") == Some(JStr(id))
    ensures var c := AddTenant(newTenant, Some(review));
            var r := TenantApi.CreateTenant(b, newId, c.body, paths, true, true, now);
            var doc := r.state.applications[id].doc;
            && Get(doc, "status") == Some(JStr(TenantApi.TenantStatus))
            && ActiveWaitlist([doc]) == []
            && Review.OfferedFor(doc) == {}
  {
    var c := AddTenant(newTenant, Some(review));
    assert c.body["transferWaitlistId"] == JStr(id);
    assert TenantApi.TransferId(c.body) == Some(id);
    var r := TenantApi.CreateTenant(b, newId, c.body, paths, true, true, now);
    var doc := r.state.applications[id].doc;
    assert doc["status"] == JStr(TenantApi.TenantStatus);
    assert Review.EffectiveStatus(doc) == TenantApi.TenantStatus;
    assert doc !in ActiveWaitlist([doc]);
  }

  // ---------------------------------------------------------------------
  // Archive, bulk delete, broadcast
  // ---------------------------------------------------------------------

  /** The description a lease is archived or reported under. */
  function Describe(row: Doc): string {
    "Slot " + Show(Get(row, "slotNo")) + " - " + Show(OrElse(Get(row, "tenantName"), Get(row, "name")))
  }

  /** confirmArchive: a row without an id sends nothing; otherwise the lease is
      archived under "Tenant Lease" and deleted only after the archive succeeded. */
  function ArchiveLease(row: Option<Doc>, role: string, archiveOk: bool): (calls: seq<Call>)
    ensures row.None? || Rows.RowId(row.value) == "" ==> calls == []
    ensures calls != [] ==> calls[0] == ArchiveRow("Tenant Lease", Describe(row.value), row.value, role)
    ensures (exists i :: 0 <= i < |calls| && calls[i].Delete?) <==>
              row.Some? && Rows.RowId(row.value) != "" && archiveOk
  {
    if row.None? then []
    else
      var id := if Rows.RowId(row.value) == "" then None else Some(Rows.RowId(row.value));
      ConfirmArchive(IdFirst, ArchiveRow("Tenant Lease", Describe(row.value), row.value, role), Tenants, id, archiveOk)
  }

  /** handleBulkDelete: only the lease role acts, filing one request per found
      tenant; any other role sends nothing. */
  function BulkDelete(role: string, ids: seq<Rows.Id>, records: seq<Doc>): (calls: seq<Call>)
    ensures role != "lease" ==> calls == []
    ensures DeletesNothing(calls) && OnlyDeletionRequests(calls)
    ensures role == "lease" ==>
              Bulk.FiledEach(calls, ids, records, "Tenant Lease", Describe, "Tenant Admin", "Bulk deletion request")
  {
    if role != "lease" then []
    else Bulk.BulkDelete(true, Tenants, ids, records, "Tenant Lease", Describe, "Tenant Admin", "Bulk deletion request")
  }

  /** The broadcast audience: the target group's tenants ("All" is everyone), further
      narrowed to those due soon when the reminder template is applied; with the
      template and nobody due the broadcast is refused. */
  function Audience(records: seq<Doc>, group: string, template: bool, dueSoon: Doc -> bool)
    : (r: Option<seq<Doc>>)
    ensures r.Some? ==> forall t :: t in r.value <==>
              && t in records && (group == "All" || Get(t, "tenantType") == Some(JStr(group)))
              && (!template || (FieldTruthy(t, "DueDateTime") && dueSoon(t)))
    ensures r.None? <==> template && forall t :: t in records && (group == "All" || Get(t, "tenantType") == Some(JStr(group)))
                                               ==> !(FieldTruthy(t, "DueDateTime") && dueSoon(t))
  {
    var grouped := if group == "All" then records else Rows.Where(records, t => Get(t, "tenantType") == Some(JStr(group)));
    if !template then Some(grouped)
    else
      var due := Rows.Where(grouped, t => FieldTruthy(t, "DueDateTime") && dueSoon(t));
      if |due| == 0 then None
      else
        assert due[0] in due;
        Some(due)
  }

  /** `targets.map(t => t.email).filter(Boolean)`: the truthy e-mail values, in order. */
  function Emails(targets: seq<Doc>): (r: seq<Json>)
    ensures forall e :: e in r <==> exists t :: t in targets && FieldTruthy(t, "email") && t["email"] == e
    ensures |r| <= |targets|
  {
    if |targets| == 0 then []
    else
      var rest := Emails(targets[1..]);
      assert forall t :: t in targets <==> t == targets[0] || t in targets[1..];
      (if FieldTruthy(targets[0], "email") then [targets[0]["email"]] else []) + rest
  }
}

=== FILE: tenant_view.dfy ===
/** The tenant details dialog: the list of attached documents it shows and how it
    decides that a document is a PDF. */
module TenantView {
  import opened Wrappers
  import opened Json
  import opened Text

  // ---------------------------------------------------------------------
  // Document kinds
  // ---------------------------------------------------------------------

  /** The five documents a lease application can carry, in display order. */
  datatype DocKind = Permit | ValidId | Clearance | Receipt | Contract

  const Kinds: seq<DocKind> := [Permit, ValidId, Clearance, Receipt, Contract]

  /** Position of a kind in the display order. */
  function Rank(k: DocKind): (n: nat)
    ensures n < |Kinds| && Kinds[n] == k
  {
    match k
    case Permit => 0
    case ValidId => 1
    case Clearance => 2
    case Receipt => 3
    case Contract => 4
  }

  /** The entry's key and caption. */
  function Key(k: DocKind): string {
    match k
    case Permit => "permit"
    case ValidId => "id"
    case Clearance => "clearance"
    case Receipt => "receipt"
    case Contract => "contract"
  }

  function Label(k: DocKind): string {
    match k
    case Permit => "Business Permit"
    case ValidId => "Valid ID"
    case Clearance => "Barangay Clearance"
    case Receipt => "Proof of Receipt"
    case Contract => "Signed Contract"
  }

  /** The field under `documents` that holds the upload. */
  function NestedField(k: DocKind): string {
    match k
    case Permit => "businessPermit"
    case ValidId => "validID"
    case Clearance => "barangayClearance"
    case Receipt => "proofOfReceipt"
    case Contract => "contract"
  }

  /** The older flat field the row may carry instead. */
  function FlatField(k: DocKind): string {
    match k
    case Permit => "permitUrl"
    case ValidId => "validIdUrl"
    case Clearance => "clearanceUrl"
    case Receipt => "receiptUrl"
    case Contract => "contractUrl"
  }

  // ---------------------------------------------------------------------
  // Document list
  // ---------------------------------------------------------------------

  /** `row.documents?.<field>`: undefined unless `documents` is an object. */
  function Nested(row: Doc, k: DocKind): (r: Option<Json>)
    ensures r.Some? ==> "documents" in row && row["documents"].JObj?
  {
    match Get(row, "documents")
    case Some(JObj(fields)) => Get(fields, NestedField(k))
    case _ => None
  }

  /** The nested upload when it is truthy, otherwise the flat field. */
  function DocUrl(row: Doc, k: DocKind): Option<Json> {
    OrElse(Nested(row, k), Get(row, FlatField(k)))
  }

  /** One card of the documents grid. */
  datatype Entry = Entry(kind: DocKind, url: Json)

  /** Entries sorted strictly by display position. */
  predicate InOrder(entries: seq<Entry>) {
    forall i, j :: 0 <= i < j < |entries| ==> Rank(entries[i].kind) < Rank(entries[j].kind)
  }

  /** Kinds listed strictly by display position. */
  predicate KindsInOrder(kinds: seq<DocKind>) {
    forall i, j :: 0 <= i < j < |kinds| ==> Rank(kinds[i]) < Rank(kinds[j])
  }

  /** `.filter(doc => doc.url)` over the listed kinds. */
  function Collect(row: Doc, kinds: seq<DocKind>): (r: seq<Entry>)
    ensures |r| <= |kinds|
  {
    if |kinds| == 0 then []
    else
      var u := DocUrl(row, kinds[0]);
      (if TruthyOpt(u) then [Entry(kinds[0], u.value)] else []) + Collect(row, kinds[1..])
  }

  /** An entry is kept exactly when its kind is listed and its URL is truthy,
      and it carries that URL. */
  lemma {:induction false} CollectMembers(row: Doc, kinds: seq<DocKind>)
    ensures forall e :: e in Collect(row, kinds) <==> e.kind in kinds && Truthy(e.url) && DocUrl(row, e.kind) == Some(e.url)
  {
    if |kinds| > 0 {
      CollectMembers(row, kinds[1..]);
      assert kinds == [kinds[0]] + kinds[1..];
    }
  }

  /** Every kept entry comes from a listed kind. */
  lemma {:induction false} CollectFrom(row: Doc, kinds: seq<DocKind>)
    ensures forall i :: 0 <= i < |Collect(row, kinds)| ==> Collect(row, kinds)[i].kind in kinds
  {
    if |kinds| > 0 {
      CollectFrom(row, kinds[1..]);
    }
  }

  /** Filtering keeps the relative order of the kinds. */
  lemma {:induction false} CollectOrdered(row: Doc, kinds: seq<DocKind>)
    requires KindsInOrder(kinds)
    ensures InOrder(Collect(row, kinds))
  {
    if |kinds| > 0 {
      CollectOrdered(row, kinds[1..]);
      var u := DocUrl(row, kinds[0]);
      if TruthyOpt(u) {
        TailRanksAbove(row, kinds);
        OrderedCons(Entry(kinds[0], u.value), Collect(row, kinds[1..]));
      }
    }
  }

  lemma TailRanksAbove(row: Doc, kinds: seq<DocKind>)
    requires |kinds| > 0 && KindsInOrder(kinds)
    ensures forall i :: 0 <= i < |Collect(row, kinds[1..])| ==> Rank(kinds[0]) < Rank(Collect(row, kinds[1..])[i].kind)
  {
    var tail := kinds[1..];
    var rest := Collect(row, tail);
    CollectFrom(row, tail);
    forall i | 0 <= i < |rest| ensures Rank(kinds[0]) < Rank(rest[i].kind) {
      var j :| 0 <= j < |tail| && tail[j] == rest[i].kind;
      assert kinds[j + 1] == tail[j];
    }
  }

  lemma OrderedCons(e: Entry, rest: seq<Entry>)
    requires InOrder(rest)
    requires forall i :: 0 <= i < |rest| ==> Rank(e.kind) < Rank(rest[i].kind)
    ensures InOrder([e] + rest)
  {
    var r := [e] + rest;
    forall i, j | 0 <= i < j < |r| ensures Rank(r[i].kind) < Rank(r[j].kind) {
      assert r[j] == rest[j - 1];
      if i > 0 {
        assert r[i] == rest[i - 1];
      }
    }
  }

  /** `documentList`: nothing at all when there is no row (the dialog renders
      nothing); otherwise the documents with a truthy URL, each with that URL, at
      most five, in the order permit, ID, clearance, receipt, contract. */
  function DocumentList(row: Option<Doc>): (r: Option<seq<Entry>>)
    ensures r.None? <==> row.None?
    ensures r.Some? ==> |r.value| <= 5
    ensures r.Some? ==> InOrder(r.value)
    ensures r.Some? ==> forall e :: e in r.value <==> Truthy(e.url) && DocUrl(row.value, e.kind) == Some(e.url)
  {
    match row
    case None => None
    case Some(d) =>
      CollectMembers(d, Kinds);
      CollectOrdered(d, Kinds);
      var r := Collect(d, Kinds);
      assert forall e: Entry :: e.kind in Kinds by {
        forall e: Entry ensures e.kind in Kinds {
          assert Kinds[Rank(e.kind)] == e.kind;
        }
      }
      Some(r)
  }

  /** Every kind with a truthy URL gets a card. */
  lemma EveryUploadShown(row: Doc, k: DocKind)
    requires TruthyOpt(DocUrl(row, k))
    ensures Entry(k, DocUrl(row, k).value) in DocumentList(Some(row)).value
  {
  }

  /** A truthy upload under `documents` wins over the flat field; a row without
      `documents` reads every URL from its flat fields. */
  lemma NestedFirst(row: Doc, k: DocKind)
    ensures TruthyOpt(Nested(row, k)) ==> DocUrl(row, k) == Nested(row, k)
    ensures "documents" !in row ==> DocUrl(row, k) == Get(row, FlatField(k))
  {
  }

  /** A row with no URL anywhere shows no cards. */
  lemma NoUploadsNoCards(row: Doc)
    requires forall k :: !TruthyOpt(DocUrl(row, k))
    ensures DocumentList(Some(row)) == Some([])
  {
    CollectNothing(row, Kinds);
  }

  lemma {:induction false} CollectNothing(row: Doc, kinds: seq<DocKind>)
    requires forall k :: !TruthyOpt(DocUrl(row, k))
    ensures Collect(row, kinds) == []
  {
    if |kinds| > 0 {
      CollectNothing(row, kinds[1..]);
    }
  }

  // ---------------------------------------------------------------------
  // PDF detection
  // ---------------------------------------------------------------------

  /** `isPDF`: the lower-cased URL names the PDF media type or ends in ".pdf". */
  predicate IsPdf(url: string) {
    Contains(Lower(url), "application/pdf") || EndsWith(Lower(url), ".pdf")
  }

  /** The test ignores letter case. */
  lemma PdfIgnoresCase(url: string)
    ensures IsPdf(Upper(url)) <==> IsPdf(url)
  {
    LowerOfUpper(url);
  }

  lemma LowerAppend(a: string, b: string)
    ensures Lower(a + b) == Lower(a) + Lower(b)
  {
  }

  /** A file name ending in ".pdf", in any letter case, is a PDF. */
  lemma PdfExtension(stem: string, ext: string)
    requires Lower(ext) == ".pdf"
    ensures IsPdf(stem + ext)
  {
    LowerAppend(stem, ext);
    var l := Lower(stem + ext);
    assert l[|l| - 4..] == Lower(ext);
  }

  /** A URL that names the PDF media type anywhere, in any letter case, is a
      PDF, as a `data:application/pdf;base64,...` upload is. */
  lemma PdfMediaType(head: string, mime: string, tail: string)
    requires Lower(mime) == "application/pdf"
    ensures IsPdf(head + mime + tail)
  {
    LowerAppend(head + mime, tail);
    LowerAppend(head, mime);
    var l := Lower(head + mime + tail);
    assert l[|head|..|head| + 15] == Lower(mime);
    assert OccursAt(l, "application/pdf", |head|);
  }

  /** The card's PDF flag: calling `toLowerCase` on a URL that is not a string
      throws, which None stands for. */
  function PdfFlag(url: Json): (r: Option<bool>)
    ensures r.Some? <==> url.JStr?
    ensures url.JStr? ==> (r == Some(true) <==> IsPdf(url.s))
  {
    match url
    case JStr(s) => Some(IsPdf(s))
    case _ => None
  }
}

=== FILE: terminal_fees.dfy ===
/** The terminal-fee page: the base-price editor's input rule, ticket numbering,
    the fare by passenger type, the list filter, and the delete and password
    confirmation flow that depends on the role. Prices are whole cents. */
module TerminalFees {
  import opened Wrappers
  import opened Json
  import opened Text
  import opened Calls
  import Rows
  import Csv

  // ---------------------------------------------------------------------
  // Base-price input
  // ---------------------------------------------------------------------

  /** The editor's pattern `^\d*\.?\d*$`: digits with at most one dot among them. */
  predicate PriceShaped(s: string) {
    AllDigits(s) || exists i :: 0 <= i < |s| && s[i] == '.' && AllDigits(s[..i]) && AllDigits(s[i + 1..])
  }

  /** A left-to-right reading of the pattern; `dotSeen` after the dot. */
  function Scan(s: string, dotSeen: bool): bool
    decreases |s|
  {
    if |s| == 0 then true
    else if IsDigit(s[0]) then Scan(s[1..], dotSeen)
    else s[0] == '.' && !dotSeen && Scan(s[1..], true)
  }

  lemma {:induction false} ScanAfterDot(s: string)
    ensures Scan(s, true) <==> AllDigits(s)
    decreases |s|
  {
    if |s| > 0 {
      ScanAfterDot(s[1..]);
      assert AllDigits(s) <==> IsDigit(s[0]) && AllDigits(s[1..]);
    }
  }

  /** The scan accepts exactly the strings the pattern matches. */
  lemma {:induction false} ScanMatchesPattern(s: string)
    ensures Scan(s, false) <==> PriceShaped(s)
    decreases |s|
  {
    if |s| > 0 {
      if IsDigit(s[0]) {
        ScanMatchesPattern(s[1..]);
        ShapedAfterDigit(s);
      } else if s[0] == '.' {
        ScanAfterDot(s[1..]);
        ShapedAfterDot(s);
      } else {
        ShapedStart(s);
      }
    }
  }

  /** A leading digit does not change whether the rest is on the pattern. */
  lemma ShapedAfterDigit(s: string)
    requires |s| > 0 && IsDigit(s[0])
    ensures PriceShaped(s) <==> PriceShaped(s[1..])
  {
    assert AllDigits(s) <==> AllDigits(s[1..]);
    if PriceShaped(s[1..]) && !AllDigits(s[1..]) {
      DotMovesRight(s);
    }
    if PriceShaped(s) && !AllDigits(s) {
      DotMovesLeft(s);
    }
  }

  lemma DotMovesRight(s: string)
    requires |s| > 0 && IsDigit(s[0])
    requires PriceShaped(s[1..]) && !AllDigits(s[1..])
    ensures PriceShaped(s)
  {
    var t := s[1..];
    var i :| 0 <= i < |t| && t[i] == '.' && AllDigits(t[..i]) && AllDigits(t[i + 1..]);
    assert s[i + 1] == '.';
    assert s[..i + 1] == [s[0]] + t[..i];
    assert s[i + 2..] == t[i + 1..];
  }

  lemma DotMovesLeft(s: string)
    requires |s| > 0 && IsDigit(s[0])
    requires PriceShaped(s) && !AllDigits(s)
    ensures PriceShaped(s[1..])
  {
    var t := s[1..];
    var i :| 0 <= i < |s| && s[i] == '.' && AllDigits(s[..i]) && AllDigits(s[i + 1..]);
    assert i > 0;
    assert t[i - 1] == '.';
    assert t[..i - 1] == s[1..i];
    assert t[i..] == s[i + 1..];
  }

  /** After a leading dot only digits may follow. */
  lemma ShapedAfterDot(s: string)
    requires |s| > 0 && s[0] == '.'
    ensures PriceShaped(s) <==> AllDigits(s[1..])
  {
    if AllDigits(s[1..]) {
      assert s[..0] == [] && s[0 + 1..] == s[1..];
    }
    if PriceShaped(s) {
      assert !AllDigits(s);
      assert forall j :: 0 < j <= |s| ==> s[..j][0] == '.' && !AllDigits(s[..j]);
      var i :| 0 <= i < |s| && s[i] == '.' && AllDigits(s[..i]) && AllDigits(s[i + 1..]);
      assert i == 0;
    }
  }

  /** Anything but a digit or a dot at the front is off the pattern. */
  lemma ShapedStart(s: string)
    requires |s| > 0 && !IsDigit(s[0]) && s[0] != '.'
    ensures !PriceShaped(s)
  {
    assert !AllDigits(s);
    assert forall j :: 0 < j <= |s| ==> s[..j][0] == s[0] && !AllDigits(s[..j]);
  }

  /** handleModalPriceChange: an empty value clears the field; a value off the
      pattern is ignored; otherwise a leading "0" not followed by "." is dropped
      once. */
  function PriceInput(current: string, value: string): (r: string)
    ensures value == "" ==> r == ""
    ensures value != "" && !PriceShaped(value) ==> r == current
    ensures PriceShaped(value) && |value| > 1 && value[0] == '0' && value[1] != '.' ==> r == value[1..]
    ensures PriceShaped(value) && !(|value| > 1 && value[0] == '0' && value[1] != '.') ==> r == value
    ensures PriceShaped(current) ==> PriceShaped(r)
  {
    ScanMatchesPattern(value);
    if value == "" then ""
    else if !Scan(value, false) then current
    else if |value| > 1 && value[0] == '0' && value[1] != '.' then
      DropLeadingDigit(value);
      value[1..]
    else value
  }

  /** Dropping a leading digit keeps a string on the pattern. */
  lemma DropLeadingDigit(s: string)
    requires PriceShaped(s) && |s| > 0 && IsDigit(s[0])
    ensures PriceShaped(s[1..])
  {
    ScanMatchesPattern(s);
    ScanMatchesPattern(s[1..]);
  }

  /** Typing a zero before digits loses that one zero only ("005" becomes "05"),
      while a zero before the decimal point stays ("0.5" is kept). */
  lemma LeadingZeroDroppedOnce(current: string, d: string)
    requires |d| > 0 && AllDigits(d)
    ensures PriceInput(current, "0" + d) == d
    ensures PriceInput(current, "0." + d) == "0." + d
  {
    assert AllDigits("0" + d);
    assert ("0" + d)[1..] == d;
    var v := "0." + d;
    assert v[1] == '.' && AllDigits(v[..1]) && v[2..] == d;
  }

  // ---------------------------------------------------------------------
  // Ticket numbering and fares
  // ---------------------------------------------------------------------

  /** `Number(r.ticketNo) || 0` for one record. */
  function TicketValue(r: Doc): int {
    NumberOrZero(Get(r, "ticketNo"))
  }

  /** A ticket number stored as the text of an integer, signed or with white
      space around it, counts as that integer, as `Number` reads it. */
  lemma TicketValueOfText(r: Doc, n: int, pre: string, post: string)
    requires forall k :: 0 <= k < |pre| ==> IsSpace(pre[k])
    requires forall k :: 0 <= k < |post| ==> IsSpace(post[k])
    requires Get(r, "ticketNo") == Some(JStr(pre + IntText(n) + post))
    ensures TicketValue(r) == n
  {
    NumberOfIntText(n, pre, post);
  }

  /** handleOpenAdd's ticket number: one more than the largest existing number, or
      1 on an empty list. */
  method NextTicketNumber(records: seq<Doc>) returns (next: int)
    ensures |records| == 0 ==> next == 1
    ensures forall i :: 0 <= i < |records| ==> TicketValue(records[i]) < next
    ensures |records| > 0 ==> exists i :: 0 <= i < |records| && next == TicketValue(records[i]) + 1
  {
    if |records| == 0 {
      return 1;
    }
    var best := TicketValue(records[0]);
    var at := 0;
    var k := 1;
    while k < |records|
      invariant 1 <= k <= |records|
      invariant forall i :: 0 <= i < k ==> TicketValue(records[i]) <= best
      invariant 0 <= at < k && best == TicketValue(records[at])
    {
      var v := TicketValue(records[k]);
      if v > best {
        best, at := v, k;
      }
      k := k + 1;
    }
    next := best + 1;
  }

  /** The two base fares, in cents. */
  datatype BasePrices = BasePrices(regular: int, discounted: int)

  /** The default fares: 15.00 regular and 10.00 discounted. */
  const DefaultPrices := BasePrices(1500, 1000)

  /** The fare for a passenger type: students and "Senior Citizen / PWD" pay the
      discounted fare, every other type the regular one. */
  function Fare(passengerType: string, prices: BasePrices): (r: int)
    ensures passengerType in {"Student", "Senior Citizen / PWD"} ==> r == prices.discounted
    ensures passengerType !in {"Student", "Senior Citizen / PWD"} ==> r == prices.regular
    ensures prices.discounted <= prices.regular ==> prices.discounted <= r <= prices.regular
  {
    if passengerType == "Student" || passengerType == "Senior Citizen / PWD" then prices.discounted
    else prices.regular
  }

  // ---------------------------------------------------------------------
  // List filter
  // ---------------------------------------------------------------------

  /** The type filter: "all" (in any case) matches everything; a filter mentioning
      "senior" or "pwd" matches any fee whose type mentions either; any other filter
      matches types containing it, ignoring case. */
  predicate TypeMatches(activeType: string, fee: Doc) {
    var a := Lower(activeType);
    var p := Lower(StrOr(fee, "passengerType", ""));
    if a == "all" then true
    else if Contains(a, "senior") || Contains(a, "pwd") then Contains(p, "senior") || Contains(p, "pwd")
    else Contains(p, a)
  }

  /** One fee passes the page's filter. */
  predicate Listed(search: string, date: string, activeType: string, fee: Doc,
                   sameDay: (Option<Json>, string) -> bool) {
    && Contains(Lower(StrOr(fee, "passengerType", "")), Lower(search))
    && (date == "" || sameDay(Get(fee, "date"), date))
    && TypeMatches(activeType, fee)
  }

  /** `(fee.passengerType || "").toLowerCase()` throws: the type is truthy but
      not a string. The page reads it for every fee. */
  predicate FilterThrows(fee: Doc) {
    FieldTruthy(fee, "passengerType") && !IsStr(Get(fee, "passengerType"))
  }

  /** The page's test, as a function of the filter settings. */
  function ListedBy(search: string, date: string, activeType: string,
                    sameDay: (Option<Json>, string) -> bool): Doc -> bool {
    f => Listed(search, date, activeType, f, sameDay)
  }

  /** The fees the page lists, in stored order, or None when some fee's type
      makes the test throw. */
  function Filtered(records: seq<Doc>, search: string, date: string, activeType: string,
                    sameDay: (Option<Json>, string) -> bool): (r: Option<seq<Doc>>)
    ensures r.None? <==> exists i :: 0 <= i < |records| && FilterThrows(records[i])
    ensures r.Some? ==> r.value == Rows.Where(records, ListedBy(search, date, activeType, sameDay))
    ensures r.Some? ==> forall f :: f in r.value <==> f in records && Listed(search, date, activeType, f, sameDay)
  {
    Rows.TryWhere(records, FilterThrows, ListedBy(search, date, activeType, sameDay))
  }

  /** Whatever the search, date or tab, a fee whose type was stored as a
      non-zero number breaks the list. */
  lemma NumericTypeBreaksList(records: seq<Doc>, i: nat, n: int, search: string, date: string, activeType: string,
                              sameDay: (Option<Json>, string) -> bool)
    requires i < |records| && n != 0 && Get(records[i], "passengerType") == Some(JNum(n))
    ensures Filtered(records, search, date, activeType, sameDay).None?
  {
    assert FilterThrows(records[i]);
  }

  /** When every fee's type is a string or missing, the list never breaks. */
  lemma StringTypesListed(records: seq<Doc>, search: string, date: string, activeType: string,
                          sameDay: (Option<Json>, string) -> bool)
    requires forall i :: 0 <= i < |records| ==>
               Get(records[i], "passengerType").None? || IsStr(Get(records[i], "passengerType"))
    ensures Filtered(records, search, date, activeType, sameDay).Some?
  {
  }

  /** A listed fee's lower-cased type mentions `word`. */
  predicate Mentions(fee: Doc, word: string) {
    Contains(Lower(StrOr(fee, "passengerType", "")), word)
  }

  /** The stat cards' tests: the lower-cased type mentions "regular", "student",
      or "senior" or "pwd". */
  predicate IsRegular(fee: Doc) { Mentions(fee, "regular") }
  predicate IsStudent(fee: Doc) { Mentions(fee, "student") }
  predicate IsSeniorOrPwd(fee: Doc) { Mentions(fee, "senior") || Mentions(fee, "pwd") }

  /** One fee's term in the revenue card's `sum + (f.price || 0)`: a falsy price
      adds 0, a number adds itself and `true` adds 1. A non-empty string, an array
      or an object turns the sum into text (None). */
  function PriceTerm(fee: Doc): (r: Option<int>)
    ensures !FieldTruthy(fee, "price") ==> r == Some(0)
    ensures "price" in fee && fee["price"].JNum? ==> r == Some(fee["price"].n)
    ensures r.None? <==> FieldTruthy(fee, "price") && (fee["price"].JStr? || fee["price"].JArr? || fee["price"].JObj?)
  {
    match Get(fee, "price")
    case Some(JNum(n)) => Some(n)
    case Some(JBool(b)) => Some(if b then 1 else 0)
    case Some(JStr(s)) => if s == "" then Some(0) else None
    case Some(JArr(_)) => None
    case Some(JObj(_)) => None
    case _ => Some(0)
  }

  /** Some listed fee's price turns the revenue sum into text. */
  predicate TextPriced(listed: seq<Doc>) {
    exists i :: 0 <= i < |listed| && PriceTerm(listed[i]).None?
  }

  /** The revenue card: the prices of the listed fees summed from 0, or None when
      some price turns the sum into text. */
  function FeeRevenue(listed: seq<Doc>): (r: Option<int>)
    ensures r.None? <==> TextPriced(listed)
  {
    if |listed| == 0 then Some(0)
    else
      var rest := FeeRevenue(listed[1..]);
      assert forall i :: 1 <= i < |listed| ==> listed[i] == listed[1..][i - 1];
      AddOpt(PriceTerm(listed[0]), rest)
  }

  /** Optional addition, None when either side is. */
  function AddOpt(a: Option<int>, b: Option<int>): (r: Option<int>)
    ensures r.Some? <==> a.Some? && b.Some?
  {
    if a.Some? && b.Some? then Some(a.value + b.value) else None
  }

  /** The stat cards: counts of listed fees whose type mentions "regular",
      "student", and "senior" or "pwd", the number listed, and the revenue. */
  datatype Stats = Stats(regular: nat, student: nat, senior: nat, total: nat, revenue: Option<int>)

  function CountStats(listed: seq<Doc>): (r: Stats)
    ensures r.total == |listed|
    ensures r.regular <= r.total && r.student <= r.total && r.senior <= r.total
    ensures r.revenue.None? <==> TextPriced(listed)
  {
    Stats(|Rows.Where(listed, IsRegular)|,
          |Rows.Where(listed, IsStudent)|,
          |Rows.Where(listed, IsSeniorOrPwd)|,
          |listed|,
          FeeRevenue(listed))
  }

  /** The cards of two lists shown together are the sums of their cards. */
  lemma {:induction false} CountStatsAppend(a: seq<Doc>, b: seq<Doc>)
    ensures var s := CountStats(a + b);
            var x := CountStats(a);
            var y := CountStats(b);
            && s.regular == x.regular + y.regular
            && s.student == x.student + y.student
            && s.senior == x.senior + y.senior
            && s.total == x.total + y.total
            && s.revenue == AddOpt(x.revenue, y.revenue)
  {
    Rows.WhereAppend(a, b, IsRegular);
    Rows.WhereAppend(a, b, IsStudent);
    Rows.WhereAppend(a, b, IsSeniorOrPwd);
    FeeRevenueAppend(a, b);
  }

  lemma {:induction false} FeeRevenueAppend(a: seq<Doc>, b: seq<Doc>)
    ensures FeeRevenue(a + b) == AddOpt(FeeRevenue(a), FeeRevenue(b))
    decreases |a|
  {
    if |a| == 0 {
      assert a + b == b;
    } else {
      assert (a + b)[0] == a[0];
      assert (a + b)[1..] == a[1..] + b;
      FeeRevenueAppend(a[1..], b);
      var t := PriceTerm(a[0]);
      assert FeeRevenue(a + b) == AddOpt(t, FeeRevenue(a[1..] + b));
      assert FeeRevenue(a) == AddOpt(t, FeeRevenue(a[1..]));
    }
  }

  /** The cards of one fee: each count is 1 exactly when its test holds, and the
      revenue is that fee's price term. */
  lemma CountStatsOfOne(fee: Doc)
    ensures CountStats([fee]) == Stats(if IsRegular(fee) then 1 else 0, if IsStudent(fee) then 1 else 0,
                                       if IsSeniorOrPwd(fee) then 1 else 0, 1, PriceTerm(fee))
  {
    Rows.WhereOfOne(fee, IsRegular);
    Rows.WhereOfOne(fee, IsStudent);
    Rows.WhereOfOne(fee, IsSeniorOrPwd);
    assert [fee][1..] == [];
    assert FeeRevenue([fee]) == AddOpt(PriceTerm(fee), Some(0));
  }

  /** The fees a type tab lists by type. */
  function TabBy(activeType: string): Doc -> bool {
    fee => TypeMatches(activeType, fee)
  }

  /** Each type card counts exactly the listed fees its tab would show: "Regular",
      "Student" and "Senior/PWD". */
  lemma CardsMatchTabs(listed: seq<Doc>)
    ensures CountStats(listed).regular == |Rows.Where(listed, TabBy("Regular"))|
    ensures CountStats(listed).student == |Rows.Where(listed, TabBy("Student"))|
    ensures CountStats(listed).senior == |Rows.Where(listed, TabBy("Senior/PWD"))|
  {
    forall i | 0 <= i < |listed|
      ensures TabBy("Regular")(listed[i]) == IsRegular(listed[i])
      ensures TabBy("Student")(listed[i]) == IsStudent(listed[i])
      ensures TabBy("Senior/PWD")(listed[i]) == IsSeniorOrPwd(listed[i])
    {
      TabTests(listed[i]);
    }
    Rows.WhereSame(listed, IsRegular, TabBy("Regular"));
    Rows.WhereSame(listed, IsStudent, TabBy("Student"));
    Rows.WhereSame(listed, IsSeniorOrPwd, TabBy("Senior/PWD"));
  }

  lemma TabTests(fee: Doc)
    ensures TypeMatches("Regular", fee) == IsRegular(fee)
    ensures TypeMatches("Student", fee) == IsStudent(fee)
    ensures TypeMatches("Senior/PWD", fee) == IsSeniorOrPwd(fee)
  {
    RegularTab(fee);
    StudentTab(fee);
    SeniorTab(fee);
  }

  lemma RegularTab(fee: Doc)
    ensures TypeMatches("Regular", fee) == IsRegular(fee)
  {
    assert Lower("Regular") == "regular";
    LetterMissing("regular", "senior", 0);
    LetterMissing("regular", "pwd", 0);
  }

  lemma StudentTab(fee: Doc)
    ensures TypeMatches("Student", fee) == IsStudent(fee)
  {
    assert Lower("Student") == "student";
    LetterMissing("student", "senior", 3);
    LetterMissing("student", "pwd", 0);
  }

  lemma SeniorTab(fee: Doc)
    ensures TypeMatches("Senior/PWD", fee) == IsSeniorOrPwd(fee)
  {
    assert Lower("Senior/PWD") == "senior/pwd";
    assert OccursAt("senior/pwd", "senior", 0);
  }

  /** A word with a letter the text lacks does not occur in it. */
  lemma LetterMissing(s: string, w: string, j: nat)
    requires j < |w| && forall k :: 0 <= k < |s| ==> s[k] != w[j]
    ensures !Contains(s, w)
  {
  }

  /** When no listed type mentions both words, the regular and student cards
      together never exceed the total. */
  lemma RegularAndStudentWithinTotal(listed: seq<Doc>)
    requires forall i :: 0 <= i < |listed| ==> !(Mentions(listed[i], "regular") && Mentions(listed[i], "student"))
    ensures CountStats(listed).regular + CountStats(listed).student <= |listed|
  {
    Rows.DisjointCounts(listed, IsRegular, IsStudent);
  }

  /** The "Senior/PWD" tab lists exactly the fees whose type mentions "senior"
      or "pwd" in any case, and "All" lists every fee. */
  lemma SeniorTabMatches(fee: Doc, kind: string)
    requires Get(fee, "passengerType") == Some(JStr(kind))
    ensures TypeMatches("Senior/PWD", fee) <==> ContainsIgnoreCase(kind, "senior") || ContainsIgnoreCase(kind, "pwd")
    ensures TypeMatches("All", fee)
  {
    var a := Lower("Senior/PWD");
    assert a == "senior/pwd";
    assert OccursAt(a, "senior", 0);
    assert Lower("senior") == "senior" && Lower("pwd") == "pwd";
    assert Lower("All") == "all";
    if kind == "" {
      assert Lower(kind) == "";
      assert !OccursAt(Lower(kind), "senior", 0);
    }
  }

  // ---------------------------------------------------------------------
  // Delete and password confirmation
  // ---------------------------------------------------------------------

  /** What a delete or edit click leads to. */
  datatype Outcome = Send(calls: seq<Call>) | AskPassword(pending: Doc) | Refused

  /** The description a ticket is requested for deletion or archived under. */
  function Describe(row: Doc): string {
    "Ticket #" + Show(Get(row, "ticketNo")) + " - " + Show(Get(row, "passengerType"))
  }

  /** handleDeleteProceed. The ticket role files one deletion request, with the
      remarks or "No remarks provided." as reason, and never deletes; the superadmin
      deletes directly when the row has an id; any other role must confirm with a
      password first. */
  function DeleteProceed(role: string, row: Option<Doc>, remarks: string): (r: Outcome)
    ensures row.None? ==> r == Send([])
    ensures row.Some? && role == "ticket" ==>
              r == Send([DeletionRequestPost("Terminal Fee", Describe(row.value), "Ticket Admin", row.value,
                                             if remarks == "" then "No remarks provided." else remarks)])
    ensures row.Some? && role == "superadmin" ==>
              r == (if Rows.RowId(row.value) == "" then Refused
                    else Send([Delete(TerminalFees, Rows.RowId(row.value))]))
    ensures row.Some? && role != "ticket" && role != "superadmin" ==> r == AskPassword(row.value)
    ensures role == "ticket" && r.Send? ==> DeletesNothing(r.calls)
  {
    if row.None? then Send([])
    else if role == "ticket" then
      Send([DeletionRequestPost("Terminal Fee", Describe(row.value), "Ticket Admin", row.value,
                                if remarks == "" then "No remarks provided." else remarks)])
    else if role == "superadmin" then
      if Rows.RowId(row.value) == "" then Refused else Send([Delete(TerminalFees, Rows.RowId(row.value))])
    else AskPassword(row.value)
  }

  /** The password a role must enter: the ticket role's stored password or
      "ticket123"; any other role's stored password or "admin123". A stored empty
      password counts as none. */
  function RequiredPassword(role: string, ticketPassword: Option<string>, authPassword: Option<string>)
    : (r: string)
    ensures role == "ticket" && (ticketPassword.None? || ticketPassword == Some("")) ==> r == "ticket123"
    ensures role != "ticket" && (authPassword.None? || authPassword == Some("")) ==> r == "admin123"
    ensures r != ""
  {
    if role == "ticket" then (if ticketPassword.Some? && ticketPassword.value != "" then ticketPassword.value else "ticket123")
    else (if authPassword.Some? && authPassword.value != "" then authPassword.value else "admin123")
  }

  /** The pending change confirmed in the password dialog. */
  datatype Pending = EditTicket | DeleteTicket

  /** handleFinalizeAction: a wrong password sends nothing; with the right one the
      pending edit is sent as an update, or the pending delete as a delete, of the
      record's id, unless the record or its id has been lost. */
  function FinalizeAction(required: string, entered: string, pending: Option<Doc>, action: Option<Pending>)
    : (r: Outcome)
    ensures entered != required ==> r == Refused
    ensures r.Send? && r.calls != [] ==>
              && entered == required && pending.Some? && Rows.RowId(pending.value) != ""
              && |r.calls| == 1
              && (r.calls[0] == Put(TerminalFees, Rows.RowId(pending.value), pending.value)
                  || r.calls[0] == Delete(TerminalFees, Rows.RowId(pending.value)))
    ensures entered == required && pending.Some? && Rows.RowId(pending.value) != "" && action == Some(DeleteTicket) ==>
              r == Send([Delete(TerminalFees, Rows.RowId(pending.value))])
    ensures entered == required && pending.Some? && Rows.RowId(pending.value) != "" && action == Some(EditTicket) ==>
              r == Send([Put(TerminalFees, Rows.RowId(pending.value), pending.value)])
    ensures !r.AskPassword?
  {
    if entered != required then Refused
    else if pending.None? || Rows.RowId(pending.value) == "" then Refused
    else
      var id := Rows.RowId(pending.value);
      match action
      case Some(EditTicket) => Send([Put(TerminalFees, id, pending.value)])
      case Some(DeleteTicket) => Send([Delete(TerminalFees, id)])
      case None => Send([])
  }

  /** A role other than the ticket role and the superadmin is asked for the
      password, and its delete is sent exactly when the entered password is the
      required one. */
  lemma AdminDeleteNeedsPassword(row: Doc, remarks: string, authPassword: Option<string>, entered: string)
    requires Rows.RowId(row) != ""
    ensures DeleteProceed("bus", Some(row), remarks) == AskPassword(row)
    ensures var required := RequiredPassword("bus", None, authPassword);
            FinalizeAction(required, entered, Some(row), Some(DeleteTicket)).Send? <==> entered == required
  {
  }

  /** confirmArchive: the ticket is archived under "Terminal Fee"; its id is checked
      only after the archive post, and it is deleted only after the archive
      succeeded. */
  function ArchiveTicket(row: Option<Doc>, role: string, archiveOk: bool): (calls: seq<Call>)
    ensures row.None? ==> calls == []
    ensures row.Some? ==> |calls| >= 1 && calls[0] == ArchiveRow("Terminal Fee", Describe(row.value), row.value, role)
    ensures |calls| == 2 <==> row.Some? && archiveOk && Rows.RowId(row.value) != ""
    ensures |calls| == 2 ==> calls[1] == Delete(TerminalFees, Rows.RowId(row.value))
  {
    if row.None? then []
    else
      var id := if Rows.RowId(row.value) == "" then None else Some(Rows.RowId(row.value));
      ConfirmArchive(IdLast, ArchiveRow("Terminal Fee", Describe(row.value), row.value, role), TerminalFees, id, archiveOk)
  }
  // ---------------------------------------------------------------------
  // Export
  // ---------------------------------------------------------------------

  const ExportHeaders: seq<string> := ["Ticket No", "Passenger Type", "Price", "Date", "Time"]

  /** One exported line; a missing number, type, date or time shows "-", a missing
      price shows zero in the given money format. The exported file
      is `Csv.Export` of the listed rows with these headers and cells. */
  function ExportCells(fee: Doc, money: Json -> string, dateText: Option<Json> -> string): (r: seq<string>)
    ensures |r| == |ExportHeaders|
    ensures !FieldTruthy(fee, "ticketNo") ==> r[0] == "-"
    ensures !FieldTruthy(fee, "passengerType") ==> r[1] == "-"
    ensures !FieldTruthy(fee, "price") ==> r[2] == money(JNum(0))
    ensures !FieldTruthy(fee, "date") ==> r[3] == "-"
    ensures !FieldTruthy(fee, "time") ==> r[4] == "-"
  {
    [ Show(OrElse(Get(fee, "ticketNo"), Some(JStr("-")))),
      Show(OrElse(Get(fee, "passengerType"), Some(JStr("-")))),
      if FieldTruthy(fee, "price") then money(fee["price"]) else money(JNum(0)),
      if FieldTruthy(fee, "date") then dateText(Get(fee, "date")) else "-",
      Show(OrElse(Get(fee, "time"), Some(JStr("-")))) ]
  }
}

=== FILE: text.dfy ===
/** String helpers with the JavaScript semantics the pages rely on:
    case mapping (ASCII letters only), `includes`, `startsWith`/`endsWith`,
    `trim`, `replace` of a single character, and decimal rendering of numbers. */
module Text {
  import opened Wrappers

  predicate IsUpper(c: char) { 'A' <= c <= 'Z' }
  predicate IsLower(c: char) { 'a' <= c <= 'z' }
  predicate IsDigit(c: char) { '0' <= c <= '9' }

  predicate AllDigits(s: string) { forall i :: 0 <= i < |s| ==> IsDigit(s[i]) }

  function ToLowerChar(c: char): char {
    if IsUpper(c) then (c as int + 32) as char else c
  }

  function ToUpperChar(c: char): char {
    if IsLower(c) then (c as int - 32) as char else c
  }

  /** `toLowerCase`, restricted to the ASCII letters. */
  function Lower(s: string): (r: string)
    ensures |r| == |s|
  {
    seq(|s|, i requires 0 <= i < |s| => ToLowerChar(s[i]))
  }

  /** `toUpperCase`, restricted to the ASCII letters. */
  function Upper(s: string): (r: string)
    ensures |r| == |s|
  {
    seq(|s|, i requires 0 <= i < |s| => ToUpperChar(s[i]))
  }

  /** Lower-casing leaves no upper-case letter behind and changes nothing else. */
  lemma LowerProperties(s: string)
    ensures forall i :: 0 <= i < |s| ==> !IsUpper(Lower(s)[i])
    ensures forall i :: 0 <= i < |s| && !IsUpper(s[i]) ==> Lower(s)[i] == s[i]
    ensures Lower(Lower(s)) == Lower(s)
  {
  }

  /** Upper-casing first makes no difference to the lower-cased text. */
  lemma LowerOfUpper(s: string)
    ensures Lower(Upper(s)) == Lower(s)
  {
  }

  // ---------------------------------------------------------------------
  // Substring search (`String.prototype.includes`)
  // ---------------------------------------------------------------------

  /** `sub` occurs in `s` starting at index `i`. */
  predicate OccursAt(s: string, sub: string, i: int) {
    0 <= i && i + |sub| <= |s| && s[i..i + |sub|] == sub
  }

  lemma ShiftOccurrenceAt(s: string, sub: string, i: int)
    requires 1 <= |s| && 0 <= i
    ensures OccursAt(s[1..], sub, i) <==> OccursAt(s, sub, i + 1)
  {
    if 0 <= i && i + |sub| <= |s| - 1 {
      assert s[1..][i..i + |sub|] == s[i + 1..i + 1 + |sub|];
    }
  }

  /** When `sub` is not a prefix of `s`, it occurs in `s` exactly when it occurs in `s[1..]`. */
  lemma ContainsStep(s: string, sub: string)
    requires |sub| <= |s| && s[..|sub|] != sub
    ensures |s| >= 1
    ensures (exists i :: OccursAt(s, sub, i)) <==> (exists j :: OccursAt(s[1..], sub, j))
  {
    assert |sub| != 0;
    if i :| OccursAt(s, sub, i) {
      assert i != 0;
      ShiftOccurrenceAt(s, sub, i - 1);
    }
    if j :| OccursAt(s[1..], sub, j) {
      ShiftOccurrenceAt(s, sub, j);
    }
  }

  /** `s.includes(sub)`: true exactly when `sub` occurs somewhere in `s`
      (so the empty string is found in every string). */
  function Contains(s: string, sub: string): (b: bool)
    ensures b <==> exists i :: OccursAt(s, sub, i)
    decreases |s|
  {
    if |sub| > |s| then
      false
    else if s[..|sub|] == sub then
      assert OccursAt(s, sub, 0);
      true
    else
      ContainsStep(s, sub);
      Contains(s[1..], sub)
  }

  /** Case-insensitive `includes`, as the search boxes compute it. */
  predicate ContainsIgnoreCase(s: string, sub: string) {
    Contains(Lower(s), Lower(sub))
  }

  /** An empty search text matches every string. */
  lemma EmptySearchMatches(s: string)
    ensures ContainsIgnoreCase(s, "")
  {
    assert OccursAt(Lower(s), Lower(""), 0);
  }

  predicate StartsWith(s: string, p: string) {
    |p| <= |s| && s[..|p|] == p
  }

  predicate EndsWith(s: string, p: string) {
    |p| <= |s| && s[|s| - |p|..] == p
  }

  // ---------------------------------------------------------------------
  // `replace(c, "")` with a one-character pattern: only the first occurrence
  // ---------------------------------------------------------------------

  /** Index of the first occurrence of `c`, if any (`indexOf`). */
  function IndexOf(s: string, c: char): (r: Option<nat>)
    ensures r.None? <==> c !in s
    ensures r.Some? ==> r.value < |s| && s[r.value] == c && c !in s[..r.value]
  {
    if |s| == 0 then None
    else if s[0] == c then Some(0)
    else
      match IndexOf(s[1..], c)
      case None => None
      case Some(i) =>
        assert s[..i + 1] == [s[0]] + s[1..][..i];
        Some(i + 1)
  }

  /** `s.replace(c, "")`: drops the first `c` and keeps everything else. */
  function RemoveFirst(s: string, c: char): (r: string)
    ensures c !in s ==> r == s
    ensures c in s ==> |r| == |s| - 1
    ensures c in s ==> exists k :: 0 <= k < |s| && s[k] == c && c !in s[..k] && r == s[..k] + s[k + 1..]
  {
    match IndexOf(s, c)
    case None => s
    case Some(k) => s[..k] + s[k + 1..]
  }

  // ---------------------------------------------------------------------
  // `trim`
  // ---------------------------------------------------------------------

  /** The characters `String.prototype.trim` removes: the white space of
      section 12.2 of ECMA-262 (tab, vertical tab, form feed, space, no-break
      space, the byte-order mark and every other space separator of Unicode
      category Zs) and its line terminators (line feed, carriage return, and the
      line and paragraph separators). */
  predicate IsSpace(c: char) {
    c == ' ' || c == '\t' || c == '\n' || c == '\r' || c == '\U{000B}' || c == '\U{000C}'
    || c == '\U{00A0}' || c == '\U{FEFF}' || c == '\U{1680}'
    || ('\U{2000}' <= c <= '\U{200A}')
    || c == '\U{2028}' || c == '\U{2029}' || c == '\U{202F}' || c == '\U{205F}' || c == '\U{3000}'
  }

  function TrimStart(s: string): (r: string)
    ensures |r| <= |s| && r == s[|s| - |r|..]
    ensures forall k :: 0 <= k < |s| - |r| ==> IsSpace(s[k])
    ensures |r| == 0 || !IsSpace(r[0])
  {
    if |s| > 0 && IsSpace(s[0]) then TrimStart(s[1..]) else s
  }

  function TrimEnd(s: string): (r: string)
    ensures |r| <= |s| && r == s[..|r|]
    ensures forall k :: |r| <= k < |s| ==> IsSpace(s[k])
    ensures |r| == 0 || !IsSpace(r[|r| - 1])
  {
    if |s| > 0 && IsSpace(s[|s| - 1]) then TrimEnd(s[..|s| - 1]) else s
  }

  /** `r` is the infix of `s` starting at `i`, with only white space around it. */
  predicate TrimmedAt(s: string, r: string, i: int) {
    0 <= i && i + |r| <= |s| && r == s[i..i + |r|]
    && (forall k :: 0 <= k < i ==> IsSpace(s[k]))
    && (forall k :: i + |r| <= k < |s| ==> IsSpace(s[k]))
  }

  /** `trim`: the longest infix of `s` that neither starts nor ends with white space,
      obtained by dropping white space only. */
  function Trim(s: string): (r: string)
    ensures |r| == 0 || (!IsSpace(r[0]) && !IsSpace(r[|r| - 1]))
    ensures exists i :: TrimmedAt(s, r, i)
  {
    TrimIsInfix(s);
    TrimEnd(TrimStart(s))
  }

  /** A text that neither starts nor ends with white space is its own trim. */
  lemma TrimmedAlready(x: string)
    requires |x| > 0 && !IsSpace(x[0]) && !IsSpace(x[|x| - 1])
    ensures Trim(x) == x
  {
    assert TrimStart(x) == x;
    assert TrimEnd(x) == x;
  }

  lemma DigitIsNotSpace(c: char)
    requires IsDigit(c)
    ensures !IsSpace(c)
  {
  }

  lemma {:induction false} TrimStartPadded(pre: string, y: string)
    requires forall k :: 0 <= k < |pre| ==> IsSpace(pre[k])
    requires |y| > 0 && !IsSpace(y[0])
    ensures TrimStart(pre + y) == y
  {
    if |pre| == 0 {
      assert pre + y == y;
    } else {
      assert (pre + y)[1..] == pre[1..] + y;
      TrimStartPadded(pre[1..], y);
    }
  }

  lemma {:induction false} TrimEndPadded(y: string, post: string)
    requires forall k :: 0 <= k < |post| ==> IsSpace(post[k])
    requires |y| > 0 && !IsSpace(y[|y| - 1])
    ensures TrimEnd(y + post) == y
  {
    if |post| == 0 {
      assert y + post == y;
    } else {
      assert (y + post)[..|y + post| - 1] == y + post[..|post| - 1];
      TrimEndPadded(y, post[..|post| - 1]);
    }
  }

  /** Trimming a text padded with white space gives back the text. */
  lemma TrimOfPadded(pre: string, x: string, post: string)
    requires |x| > 0 && !IsSpace(x[0]) && !IsSpace(x[|x| - 1])
    requires forall k :: 0 <= k < |pre| ==> IsSpace(pre[k])
    requires forall k :: 0 <= k < |post| ==> IsSpace(post[k])
    ensures Trim(pre + x + post) == x
  {
    assert pre + x + post == pre + (x + post);
    TrimStartPadded(pre, x + post);
    TrimEndPadded(x, post);
  }

  lemma TrimIsInfix(s: string)
    ensures TrimmedAt(s, TrimEnd(TrimStart(s)), |s| - |TrimStart(s)|)
  {
    InfixOfSuffix(s, TrimStart(s), TrimEnd(TrimStart(s)));
  }

  /** A prefix `r` of a suffix `t` of `s`, with white space before `t` and after
      `r` within `t`, is an infix of `s` with white space around it. */
  lemma InfixOfSuffix(s: string, t: string, r: string)
    requires |t| <= |s| && t == s[|s| - |t|..]
    requires forall k :: 0 <= k < |s| - |t| ==> IsSpace(s[k])
    requires |r| <= |t| && r == t[..|r|]
    requires forall k :: |r| <= k < |t| ==> IsSpace(t[k])
    ensures TrimmedAt(s, r, |s| - |t|)
  {
    var i := |s| - |t|;
    assert r == s[i..i + |r|];
    forall k | i + |r| <= k < |s| ensures IsSpace(s[k]) {
      assert s[k] == t[k - i];
    }
  }

  // ---------------------------------------------------------------------
  // Decimal numerals (`String(n)` / `n.toString()` for non-negative integers)
  // ---------------------------------------------------------------------

  function DigitChar(d: nat): char
    requires d < 10
  {
    ('0' as int + d) as char
  }

  function DigitValue(c: char): nat
    requires IsDigit(c)
  {
    c as int - '0' as int
  }

  function Pow10(k: nat): (r: nat)
    ensures r >= 1
  {
    if k == 0 then 1 else 10 * Pow10(k - 1)
  }

  /** The decimal numeral of `n`, without leading zeros. */
  function Decimal(n: nat): (r: string)
    ensures |r| >= 1 && AllDigits(r)
    ensures r[0] == '0' ==> n == 0
    ensures n < Pow10(|r|)
  {
    if n < 10 then [DigitChar(n)] else Decimal(n / 10) + [DigitChar(n % 10)]
  }

  /** The value of a string of decimal digits (the empty string reads as 0). */
  function ParseDecimal(s: string): nat
    requires AllDigits(s)
  {
    if |s| == 0 then 0 else ParseDecimal(s[..|s| - 1]) * 10 + DigitValue(s[|s| - 1])
  }

  /** Reading back a rendered numeral gives the number. */
  lemma {:induction false} ParseDecimalOfDecimal(n: nat)
    ensures ParseDecimal(Decimal(n)) == n
    decreases n
  {
    var r := Decimal(n);
    if n >= 10 {
      ParseDecimalOfDecimal(n / 10);
      assert r[..|r| - 1] == Decimal(n / 10);
    }
  }

  lemma ModOfDecomposition(x: int, m: int, q: int, r: int)
    requires m > 0 && 0 <= r < m && x == q * m + r
    ensures x % m == r && x / m == q
  {
    var q', r' := x / m, x % m;
    assert x == q' * m + r' && 0 <= r' < m;
    assert (q - q') * m == r' - r;
    if q > q' {
      MulAtLeast(q - q', m);
    } else if q < q' {
      MulAtLeast(q' - q, m);
    }
  }

  lemma MulAtLeast(a: int, m: int)
    requires a >= 1 && m > 0
    ensures a * m >= m
  {
  }

  /** Appending a digit shifts the residue modulo a power of ten. */
  lemma AppendDigitMod(a: nat, d: nat, p: nat)
    requires d < 10 && p >= 1
    ensures (a * 10 + d) % (10 * p) == (a % p) * 10 + d
  {
    var q, low := a / p, a % p;
    assert a == q * p + low;
    assert low <= p - 1;
    assert low * 10 + d < 10 * p;
    assert a * 10 + d == q * (10 * p) + (low * 10 + d);
    ModOfDecomposition(a * 10 + d, 10 * p, q, low * 10 + d);
  }

  /** The last `k` digits of a numeral read as the number modulo 10^k. */
  lemma {:induction false} ParseSuffix(s: string, k: nat)
    requires AllDigits(s) && k <= |s|
    ensures ParseDecimal(s[|s| - k..]) == ParseDecimal(s) % Pow10(k)
    decreases k
  {
    if k == 0 {
      assert s[|s|..] == [];
    } else {
      var t := s[..|s| - 1];
      var suffix := s[|s| - k..];
      assert suffix[..|suffix| - 1] == t[|t| - (k - 1)..];
      assert suffix[|suffix| - 1] == s[|s| - 1];
      ParseSuffix(t, k - 1);
      assert ParseDecimal(suffix) == (ParseDecimal(t) % Pow10(k - 1)) * 10 + DigitValue(s[|s| - 1]);
      assert ParseDecimal(s) == ParseDecimal(t) * 10 + DigitValue(s[|s| - 1]);
      AppendDigitMod(ParseDecimal(t), DigitValue(s[|s| - 1]), Pow10(k - 1));
    }
  }

  /** JavaScript `slice(-k)`: the last `k` characters, or the whole string when
      shorter. `slice(-0)` is `slice(0)`, the whole string. */
  function LastChars(s: string, k: nat): (r: string)
    ensures |r| == if k == 0 || |s| < k then |s| else k
    ensures r == s[|s| - |r|..]
  {
    if k == 0 || |s| <= k then s else s[|s| - k..]
  }

  /** The last `k` characters of the numeral of `n` read as `n mod 10^k`. */
  lemma LastDigitsOfDecimal(n: nat, k: nat)
    requires k >= 1
    ensures AllDigits(LastChars(Decimal(n), k))
    ensures ParseDecimal(LastChars(Decimal(n), k)) == n % Pow10(k)
  {
    ParseDecimalOfDecimal(n);
    if |Decimal(n)| <= k {
      ShortNumeralMod(n, k);
    } else {
      LongNumeralMod(n, k);
    }
  }

  lemma ShortNumeralMod(n: nat, k: nat)
    requires |Decimal(n)| <= k && ParseDecimal(Decimal(n)) == n
    ensures LastChars(Decimal(n), k) == Decimal(n)
    ensures ParseDecimal(LastChars(Decimal(n), k)) == n % Pow10(k)
  {
    PowMonotone(|Decimal(n)|, k);
    var p := Pow10(k);
    assert n < p;
    ModOfDecomposition(n, p, 0, n);
  }

  lemma LongNumeralMod(n: nat, k: nat)
    requires |Decimal(n)| > k >= 1 && ParseDecimal(Decimal(n)) == n
    ensures AllDigits(LastChars(Decimal(n), k))
    ensures ParseDecimal(LastChars(Decimal(n), k)) == n % Pow10(k)
  {
    var s := Decimal(n);
    var suffix := s[|s| - k..];
    assert LastChars(s, k) == suffix;
    assert AllDigits(suffix);
    ParseSuffix(s, k);
  }

  lemma {:induction false} PowMonotone(a: nat, b: nat)
    requires a <= b
    ensures Pow10(a) <= Pow10(b)
    decreases b
  {
    if a < b {
      PowMonotone(a, b - 1);
    }
  }

  /** `s.padStart(width, c)` for a one-character pad. */
  function PadStart(s: string, width: nat, c: char): (r: string)
    ensures |r| == if |s| < width then width else |s|
    ensures r[|r| - |s|..] == s
    ensures forall i :: 0 <= i < |r| - |s| ==> r[i] == c
  {
    if |s| >= width then s else seq(width - |s|, _ => c) + s
  }
}

=== FILE: waitlist_api.dfy ===
/** The tenant-application (waitlist) controller. Applications are stored as
    documents with their creation time; a status change chosen by an admin
    decides which e-mail, if any, goes to the applicant. Sending is left out:
    the model returns the message it would send. */
module WaitlistApi {
  import opened Wrappers
  import opened Json
  import opened Http
  import Sorting

  type Id = string

  /** A stored document with the `createdAt` timestamp Mongoose adds on save. */
  datatype Stored = Stored(doc: Doc, createdAt: int)

  type Applications = map<Id, Stored>

  /** An e-mail the controller hands to the mailer. `to` is the recipient field as
      stored (JNull when the document has none). */
  datatype Mail = Mail(to: Json, subject: string)

  const PaymentUnlocked := "PAYMENT_UNLOCKED"
  const ContractPending := "CONTRACT_PENDING"
  const UnlockSubject := "Application Approved - Payment Unlocked"
  const ContractSubject := "Action Required: Upload Contract"

  /** The field value, or JNull when absent. */
  function FieldOrNull(d: Doc, k: string): Json {
    if k in d then d[k] else JNull
  }

  /** The subject chosen from the status in the request body: one subject for each
      of the two admin transitions and none for anything else. */
  function SubjectFor(body: Doc): (r: Option<string>)
    ensures r == Some(UnlockSubject) <==> FieldOrNull(body, "status") == JStr(PaymentUnlocked)
    ensures r == Some(ContractSubject) <==> FieldOrNull(body, "status") == JStr(ContractPending)
    ensures r.None? <==> FieldOrNull(body, "status") !in {JStr(PaymentUnlocked), JStr(ContractPending)}
  {
    var status := FieldOrNull(body, "status");
    if status == JStr(PaymentUnlocked) then Some(UnlockSubject)
    else if status == JStr(ContractPending) then Some(ContractSubject)
    else None
  }

  datatype UpdateResult = UpdateResult(apps: Applications, reply: Reply<Doc>, mail: Option<Mail>)

  /** updateWaitlistEntry: merges the request body into the application. The
      schema is strict, so only the fields among its `paths` are written. When the
      id or a written value does not cast (`casts` false) the update throws: 500,
      no change and no mail. A missing id is a 404 with no change and no mail.
      Otherwise the reply is 200 with the updated document, and a mail to the
      applicant's address is produced exactly when the body's status selects a
      subject; a failing mailer does not change the reply. */
  function UpdateWaitlist(apps: Applications, id: Id, body: Doc, paths: set<string>, casts: bool): (r: UpdateResult)
    ensures !casts ==> r.apps == apps && r.reply.Message? && r.reply.status == 500 && r.mail.None?
    ensures casts && id !in apps ==> r == UpdateResult(apps, Message(404, "Applicant not found"), None)
    ensures casts && id in apps ==>
              && r.apps.Keys == apps.Keys
              && (forall other :: other in apps && other != id ==> r.apps[other] == apps[other])
              && r.apps[id].doc == ApplyPatch(apps[id].doc, Strict(body, paths))
              && r.apps[id].createdAt == apps[id].createdAt
              && r.reply == Payload(200, r.apps[id].doc)
              && (r.mail.Some? <==> SubjectFor(body).Some?)
              && (r.mail.Some? ==> r.mail.value == Mail(FieldOrNull(r.apps[id].doc, "email"), SubjectFor(body).value))
  {
    if !casts then
      UpdateResult(apps, Message(500, "cast failed"), None)
    else if id !in apps then
      UpdateResult(apps, Message(404, "Applicant not found"), None)
    else
      var updated := Stored(ApplyPatch(apps[id].doc, Strict(body, paths)), apps[id].createdAt);
      var mail := match SubjectFor(body)
        case None => None
        case Some(subject) => Some(Mail(FieldOrNull(updated.doc, "email"), subject));
      UpdateResult(apps[id := updated], Payload(200, updated.doc), mail)
  }

  /** createWaitlistEntry: 201 with the saved document, which keeps only the
      body's fields among the strict schema's `paths`, or 400 and no change when
      the schema rejects the body. */
  function CreateWaitlist(apps: Applications, newId: Id, body: Doc, paths: set<string>, valid: bool, now: int)
    : (r: (Applications, Reply<(Id, Stored)>))
    requires newId !in apps
    ensures !valid ==> r.0 == apps && r.1.Message? && r.1.status == 400
    ensures valid ==> r.0.Keys == apps.Keys + {newId}
                      && (forall id :: id in apps ==> r.0[id] == apps[id])
                      && r.0[newId].doc.Keys == body.Keys * paths
                      && (forall k :: k in r.0[newId].doc ==> r.0[newId].doc[k] == body[k])
                      && r.0[newId].createdAt == now
                      && r.1 == Payload(201, (newId, r.0[newId]))
  {
    if !valid then (apps, Message(400, "validation failed"))
    else
      var saved := Stored(Strict(body, paths), now);
      (apps[newId := saved], Payload(201, (newId, saved)))
  }

  /** getWaitlistById: an id that does not cast (`idCasts` false) is a 500,
      a missing one a 404. */
  function GetWaitlist(apps: Applications, id: Id, idCasts: bool): (r: Reply<Doc>)
    ensures idCasts && id in apps <==> r.Payload?
    ensures !idCasts ==> r.Message? && r.status == 500
    ensures idCasts && id in apps ==> r == Payload(200, apps[id].doc)
    ensures idCasts && id !in apps ==> r == Message(404, "Not Found")
  {
    if !idCasts then Message(500, "cast failed")
    else if id in apps then Payload(200, apps[id].doc)
    else Message(404, "Not Found")
  }

  /** deleteWaitlistEntry: an id that does not cast is a 500 and deletes
      nothing; otherwise 200, whether or not the id existed. */
  function DeleteWaitlist(apps: Applications, id: Id, idCasts: bool): (r: (Applications, Reply<Doc>))
    ensures !idCasts ==> r.0 == apps && r.1.Message? && r.1.status == 500
    ensures idCasts ==> r.0.Keys == apps.Keys - {id}
    ensures forall other :: other in r.0 ==> other in apps && r.0[other] == apps[other]
    ensures idCasts ==> r.1 == Message(200, "Deleted successfully")
  {
    if !idCasts then (apps, Message(500, "cast failed"))
    else (apps - {id}, Message(200, "Deleted successfully"))
  }

  /** getWaitlist: every application once, newest first. */
  method ListWaitlist(apps: Applications) returns (reply: Reply<seq<(Id, Stored)>>)
    ensures reply.Payload? && reply.status == 200
    ensures Sorting.SortedDesc(reply.value, (a: Stored) => a.createdAt)
    ensures Sorting.DistinctKeys(reply.value)
    ensures forall i :: 0 <= i < |reply.value| ==>
              reply.value[i].0 in apps && reply.value[i].1 == apps[reply.value[i].0]
    ensures Sorting.KeysOf(reply.value) == apps.Keys
  {
    var listed := Sorting.ListDesc(apps, (a: Stored) => true, (a: Stored) => a.createdAt);
    reply := Payload(200, listed);
  }

  /** Any update whose body sets the unlock status stores that status and mails
      the unlock subject to the applicant's stored address; sending the same
      update again changes nothing more but mails again. */
  lemma UnlockMailsApplicant(apps: Applications, id: Id, body: Doc, paths: set<string>)
    requires id in apps && Get(body, "status") == Some(JStr(PaymentUnlocked)) && "status" in paths
    ensures var r := UpdateWaitlist(apps, id, body, paths, true);
            var again := UpdateWaitlist(r.apps, id, body, paths, true);
            && r.apps[id].doc["status"] == JStr(PaymentUnlocked)
            && r.mail == Some(Mail(FieldOrNull(r.apps[id].doc, "email"), UnlockSubject))
            && again.apps == r.apps
            && again.mail == r.mail
  {
    ApplyPatchIdempotent(apps[id].doc, Strict(body, paths));
  }
}

=== FILE: wrappers.dfy ===
/** Failure-compatible wrapper used across the model: a value that may be absent
    (a missing field, a lookup that found nothing, a falsy JavaScript value). */
module Wrappers {

  datatype Option<+T> = None | Some(value: T) {

    /** Returns the value held in Some, or the default when None. */
    function GetOr(default: T): T {
      match this
      case Some(v) => v
      case None => default
    }
  }
}
